=== FILE: README.md ===
# xml-data-visualizer core, modelled in Dafny

This project models the data-transforming core of the xml-data-visualizer
backend and of its two stand-alone reference scripts:

- the XML side converts a parsed element tree into nodes with a `path` and an
  `xpath`, flattens it in pre-order, computes node count and depth, and runs a
  case-insensitive search. The reference script has its own dictionary form
  with a tail-text rule, its own flattening, and a `get_xpath` that indexes
  siblings differently;
- the CSV side combines parsed files into one table. The backend keeps the
  first-seen header order and the script sorts the header union. Headers are
  split on `_` into a structure-only header tree, which is flattened and
  searched;
- the routes page through stored rows (`total_pages`, offset/limit windows in
  `row_index` order, AND-combined filters, OR-combined search, row
  normalisation). They truncate a parsed file to `limit_rows`, check filenames,
  collect per-file errors in a batch upload, and export per-column value
  counts.

Everything is modelled as immutable datatypes and pure functions. The one
exception is the loop-shaped code, which is modelled as methods with loop
invariants: the header-dictionary construction, the CSV search, and the batch
read loop. Parsing, the database, JSON decoding and SQL `LIKE` enter as given
values or function parameters.

Modules, one per file:

| module | models |
|---|---|
| `Wrappers`, `Strings`, `Sequences`, `Sorting` | `Option`/`Result`, Python `str` operations (ASCII `lower`, `strip`, `split`/`join`, `str(n)`, `<` on `str`), first-seen de-duplication, filtering, a stable sort |
| `SizeLimits` | the shared upload-size rule |
| `XmlProcessor` | backend/utils/xml_processor.py |
| `XmlScript` | scripts/xml_processor.py |
| `HeaderTrie` | the header tree both CSV processors build from `_`-split headers |
| `CsvProcessor` | backend/utils/csv_processor.py |
| `CsvScript` | scripts/csv_processor.py |
| `CsvQuery` | backend/services/csv_query.py |
| `CsvParser` | backend/routers/csv_parser.py |
| `CsvExport` | backend/routers/csv_export.py |

## Model

| member | source | states |
|---|---|---|
| `SizeLimits.ValidateSize` | backend/utils/xml_processor.py:169-191 | accepts, returning true, exactly when the size divided by 1024·1024 is at most the limit in MB; otherwise fails with the size and the limit |
| `XmlProcessor.CleanText` | backend/utils/xml_processor.py:50 | text is None exactly when it is absent or whitespace-only; otherwise it is the stripped text, which is non-empty |
| `XmlProcessor.ToNodeSound` | backend/utils/xml_processor.py:30-72 | the node keeps the element's tag, attributes, cleaned text and children in order. Every child's path is the parent's path, "/", then its tag. Its xpath is its path when no earlier sibling shares its tag, and otherwise the path followed by `[k+1]`, where k counts the earlier same-tag siblings |
| `XmlProcessor.RootNodePaths` | backend/utils/xml_processor.py:42-47 | a converted root has its bare tag as both path and xpath |
| `XmlProcessor.FlattenIsPreorder` | backend/utils/xml_processor.py:75-100 | the flattening lists one record per node of the tree, in pre-order (node first, then each child's flattening) |
| `XmlProcessor.StatsSound` | backend/utils/xml_processor.py:103-122 | the node count equals the flattening's length, the depth equals the tree's height, and 1 <= depth <= count |
| `XmlProcessor.LeafStats` | backend/utils/xml_processor.py:103-110 | a leaf yields (1, 1) |
| `XmlProcessor.SearchIsFilteredPreorder` | backend/utils/xml_processor.py:125-166 | the search returns exactly the matching nodes, in pre-order. A node matches on its tag, on any attribute value, or on non-empty text, case-insensitively, for the fields selected; None selects all three fields |
| `XmlProcessor.ValidateXmlSize` | backend/utils/xml_processor.py:169-191 | the XML size check accepts exactly the payloads of at most `max_size_mb` megabytes |
| `XmlScript.ToDict` | scripts/xml_processor.py:39-63 | the dictionary keeps tag and attributes, and child `i` is the conversion of element child `i`, in order. It has a text exactly when the text is not whitespace-only, and then it is the stripped text; the tail follows the same rule |
| `XmlScript.ToDictClean` | scripts/xml_processor.py:52-61 | every text and tail in the dictionary is stripped and non-empty |
| `XmlScript.DictRoundTrip` | scripts/xml_processor.py:39-63 | a clean dictionary is returned unchanged by converting its element back |
| `XmlScript.ElementRoundTrip` | scripts/xml_processor.py:39-63 | an element whose texts and tails are absent or already stripped and non-empty is rebuilt unchanged from its dictionary |
| `XmlScript.ToDictIdempotent` | scripts/xml_processor.py:39-63 | converting, rebuilding and converting again gives the first conversion |
| `XmlScript.ScriptFlattenAgrees` | scripts/xml_processor.py:66-97 | the script's pre-order flattening, with paths `parent/tag` and no leading slash, equals the backend's flattening of the converted tree |
| `XmlScript.GetXPathSound` | scripts/xml_processor.py:100-133 | for a target in the tree the result is "/" + the root's tag followed by one step per level. A step is "/tag", plus `[k]` (1-based) when the parent has more than one child with that tag. A target not in the tree gets "/" + its own tag |
| `XmlScript.RootXPath` | scripts/xml_processor.py:111-112 | the root's xpath is "/" + its tag |
| `XmlScript.FirstSiblingRulesDiffer` | scripts/xml_processor.py:119-124 | a concrete example of the two sibling rules: of two `b` children of `a`, the first gets the backend xpath "a/b", while the script step is "/b[1]" and its xpath "/a/b[1]" |
| `HeaderTrie.ChildNamesSpec` | scripts/csv_processor.py:97-108 | below a prefix, the child names are distinct, they are exactly the segments that extend the prefix in some header, and they appear in first-seen order |
| `HeaderTrie.BuildChildLists` | backend/utils/csv_processor.py:116-153 | the loop that attaches every header's segments one level at a time records, for every prefix, exactly the child names above |
| `HeaderTrie.NodesAreDistinctPrefixes` | backend/utils/csv_processor.py:116-137 | the tree's nodes correspond one-to-one to the distinct non-empty header prefixes |
| `CsvProcessor.CombineHeadersSpec` | backend/utils/csv_processor.py:39-56 | the combined headers are the first file's headers, then each later file's unseen headers in first-appearance order. They hold every header of every file and no other, and add no duplicate |
| `CsvProcessor.FillRow` | backend/utils/csv_processor.py:64-67 | a filled row has exactly the combined headers as keys, each holding the source value or "" when the source lacks it |
| `CsvProcessor.AllRowsOrder` | backend/utils/csv_processor.py:58-67 | the combined rows number as many as all files' rows together, and row k of file f sits after all rows of the earlier files |
| `CsvProcessor.CombineSound` | backend/utils/csv_processor.py:58-77 | every combined row has the combined header set as keys, `total_rows` is the row count, and `total_columns` is the header count |
| `CsvProcessor.CombineCsvFilesSpec` | backend/utils/csv_processor.py:58-77 | combining the reader's rows fails exactly when some row leaves the cell of a combined header as `None`, which `CsvRow`'s string-only `data` rejects. Otherwise row `k` of file `f` sits after the earlier files' rows, keyed by exactly the combined headers, with each read string carried over and "" under a header the row lacks |
| `CsvProcessor.ShortRowRejected` | backend/utils/csv_processor.py:66-70 | a `None` cell under one of a file's own headers, as a short row gives, fails the whole combination |
| `CsvProcessor.CompleteFilesCombine` | backend/utils/csv_processor.py:58-77 | files without a `None` cell combine exactly as their string-only form |
| `CsvProcessor.CsvStats` | backend/utils/csv_processor.py:254-264 | the statistics are the stored totals, unchanged |
| `CsvProcessor.CombinedStats` | backend/utils/csv_processor.py:254-264 | for a combination, the statistics are its row count and header count |
| `CsvProcessor.ParseHeaderHierarchy` | backend/utils/csv_processor.py:80-90 | the parts contain no `_` and joining them with `_` gives back the header |
| `CsvProcessor.HeaderHierarchyRoundTrip` | backend/utils/csv_processor.py:80-90 | a header with no `_` is one part, and splitting a join of `_`-free parts gives the parts back |
| `CsvProcessor.NodePathAsWritten` | backend/utils/csv_processor.py:116-125 | the path rule as written, which treats a parent path of "/root" as the root (see Findings) |
| `CsvProcessor.AsWrittenPathsCollide` | backend/utils/csv_processor.py:116-125 | as written, headers `root_x` and `x` give two nodes the same path "/x"; the corrected rule gives "/root/x" and "/x" |
| `CsvProcessor.ChildPathExtendsParent` | backend/utils/csv_processor.py:125 | corrected: a child's path is its parent's path, "/", then its name |
| `CsvProcessor.NodePathInjective` | backend/utils/csv_processor.py:125 | corrected: distinct header prefixes whose segments contain no '/' get distinct paths |
| `CsvProcessor.AsWrittenAgrees` | backend/utils/csv_processor.py:116-125 | the rule as written and the corrected one agree whenever the first segment is not "root" |
| `CsvProcessor.HierarchicalShape` | backend/utils/csv_processor.py:93-155 | the root is "root" at "/root" with no value. Its children are the distinct first segments in first-seen order. Every distinct non-empty header prefix has exactly one node, in pre-order, named by its last segment and without a value. Its path follows the corrected rule, which is the source's path for every prefix whose first segment is not "root" |
| `CsvProcessor.RootChildrenFirstSeen` | backend/utils/csv_processor.py:143-153 | the root's children are the distinct first segments of the headers, in first-seen order |
| `CsvProcessor.FlattenCsvIsPreorder` | backend/utils/csv_processor.py:158-183 | the flattening lists one record per node in pre-order, and its length is the node count |
| `CsvProcessor.SearchCsvData` | backend/utils/csv_processor.py:186-226 | the matches are the cells of the matching rows, in row order. A row matches when "header" is selected and some header contains the query, or when "value" is selected and one of its non-empty cells contains the query, case-insensitively |
| `CsvProcessor.SearchByHeaderReturnsAll` | backend/utils/csv_processor.py:206-212 | when a header matches and "header" is selected every row is returned, and a row whose cells are all empty never matches on value alone |
| `CsvProcessor.ValidateCsvSize` | backend/utils/csv_processor.py:229-251 | the CSV size check accepts exactly the payloads of at most `max_size_mb` megabytes |
| `CsvScript.SortedHeadersSpec` | scripts/csv_processor.py:52-58 | the script's headers hold each header of each file exactly once, in strictly ascending order |
| `CsvScript.ScriptCombineRows` | scripts/csv_processor.py:60-68 | the rows number as many as all files' rows together, in file-then-row order; each has exactly the sorted headers as keys, with "" for missing values |
| `CsvScript.HeaderChainPresent` | scripts/csv_processor.py:97-108 | every header leaves a chain of nested keys, one per segment |
| `CsvScript.LeafOfSpec` | scripts/csv_processor.py:127-138 | a leaf has no value exactly when no non-empty value was collected. It has the single value when all collected values are equal, and otherwise the set of at least two distinct values |
| `CsvScript.ScriptPathAsWritten` | scripts/csv_processor.py:114 | the path rule as written, which treats an empty parent path as the top level (see Findings) |
| `CsvScript.ScriptPathsCollide` | scripts/csv_processor.py:114 | as written, headers `_x` and `x` give two nodes the same path "x"; the corrected rule gives "/x" and "x" |
| `CsvScript.ScriptChildPath` | scripts/csv_processor.py:114 | corrected: a top-level path is the name, and a child's path is its parent's path, "/", then its name |
| `CsvScript.ScriptPathAgrees` | scripts/csv_processor.py:114 | the rule as written and the corrected one agree whenever the first segment is not empty |
| `CsvScript.ScriptNodeShape` | scripts/csv_processor.py:111-141 | a node is named by its last segment, with one child per child name in key order. Its path follows the corrected rule, which is the script's path whenever the first segment is not empty. An inner node has no value; a leaf has the value collected for its name |
| `CsvScript.ScriptTopLevel` | scripts/csv_processor.py:97-143 | the top-level nodes are the distinct first segments in first-seen order, each with its name as path |
| `CsvQuery.FilterChainIsConjunction` | backend/services/csv_query.py:39-46 | the chained filter conditions hold exactly when every filter with a non-empty value matches its column |
| `CsvQuery.SearchChainIsDisjunction` | backend/services/csv_query.py:127-136 | the OR of the column conditions holds exactly when some search column matches |
| `CsvQuery.OrderByRowIndex` | backend/services/csv_query.py:53 | the rows are a permutation of the matching rows in ascending `row_index` |
| `CsvQuery.Window` | backend/services/csv_query.py:52-53 | OFFSET/LIMIT gives a contiguous slice from the clamped offset, at most `limit` long, or all the rest for a negative limit |
| `CsvQuery.Normalize` | backend/services/csv_query.py:68-79 | an object is kept, a text becomes its decoding or `{}` when it does not decode, and anything else becomes `{}` |
| `CsvQuery.NormalizeIsObject` | backend/services/csv_query.py:68-79 | the result is an object unless the data is a text that decodes to a non-object |
| `CsvQuery.NormalizeAll` | backend/services/csv_query.py:57-81 | one normalised value per fetched row, in order |
| `CsvQuery.QueryCsvRowsSpec` | backend/services/csv_query.py:15-89 | the rows are the normalised page window, in `row_index` order, of the import's rows that pass every non-empty filter. The page holds at most `page_size` rows, and the total counts every passing row whatever the page |
| `CsvQuery.GetRowCountAgrees` | backend/services/csv_query.py:170-191 | the stand-alone count equals the total of a query with the same filters |
| `CsvQuery.SearchCsvRowsSpec` | backend/services/csv_query.py:92-167 | fails with ImportNotFound exactly for an unknown import. Otherwise it returns the normalised page window of the import's rows where some search column matches (every row when there is no column to search), with the total |
| `CsvQuery.SearchDefaultsToHeaders` | backend/services/csv_query.py:123 | a missing or empty column list searches the import's headers |
| `CsvParser.CsvFilenameSuffix` | backend/routers/csv_parser.py:57 | a filename is accepted exactly when it is present and its last four characters lower-case to ".csv" |
| `CsvParser.CsvFilenameIgnoresCase` | backend/routers/csv_parser.py:139 | lower-casing a filename never changes whether it is accepted |
| `CsvParser.ReadUpload` | backend/routers/csv_parser.py:66-80 | a file is kept exactly when it decodes and is at most 100 MB. Otherwise it yields an error entry with its filename, giving the size figures when it was too large |
| `CsvParser.ReadPartition` | backend/routers/csv_parser.py:66-86 | every file contributes either its content or one error entry. Nothing is kept exactly when no file reads, and the kept contents are those of the files that read |
| `CsvParser.ParseBatch` | backend/routers/csv_parser.py:37-119 | no files fails with 400. Otherwise the first file not named as CSV fails the batch. Otherwise the batch fails exactly when no file content survives, listing the error entries, or when a surviving file has a short row, with the combine error of lines 90-93; else it returns the combination of the surviving contents with its totals and headers |
| `CsvParser.LimitRows` | backend/routers/csv_parser.py:159-167 | a positive limit keeps the first min(limit, n) rows. No limit, or one of zero or less, keeps all rows. Headers and totals are kept either way |
| `CsvParser.LimitRowsIdempotent` | backend/routers/csv_parser.py:160-161 | limiting twice is limiting once, and a limit of at least the row count changes nothing |
| `CsvParser.ParseCsvFileSpec` | backend/routers/csv_parser.py:122-189 | succeeds exactly for a CSV-named, decodable file within 100 MB without a short row; a short row gives the processing error of line 189. The reported totals are those of the whole file whatever the limit, next to the limited rows and an empty root at "/root" |
| `CsvParser.ShortRowFileRejected` | backend/routers/csv_parser.py:186-189 | the file `a,b` with the single row `1` is answered with the processing error |
| `CsvParser.TotalPages` | backend/routers/csv_parser.py:261 | the page count is 0 exactly for no rows; otherwise (pages-1)·size < total <= pages·size |
| `CsvParser.PagesCoverRows` | backend/routers/csv_parser.py:261 | pages 1 to `total_pages` together hold every row once, in order, and every later page is empty |
| `CsvParser.InvalidPaging` | backend/routers/csv_parser.py:243-244 | "page" is rejected exactly when page < 1, and "page_size" exactly when it is outside 1..1000 |
| `CsvParser.NormalizedRowsFit` | backend/models/csv_models.py:166 | a normalised page fits the response's `rows` field, a list of string-valued objects, exactly when none of its stored rows is a text that decodes to something else |
| `CsvParser.GetImportRowsSpec` | backend/routers/csv_parser.py:240-277 | invalid paging fails with 422. With valid paging the request is served exactly when no row of the page decodes to a non-object; otherwise the response model's validation error is answered with 404. A served response echoes the paging and holds the normalised page of the import's rows in `row_index` order, with their count; its page count covers every row |
| `CsvParser.SearchImportRowsSpec` | backend/routers/csv_parser.py:280-315 | invalid paging fails with 422. With valid paging it fails with 404 for an unknown import, and for a known one exactly when a row of the page decodes to a non-object (the response model's validation error). A response echoes the paging and holds the normalised page, in `row_index` order, of the import's rows that match the search, with their count; the page count covers every matching row |
| `CsvExport.DisplayValue` | backend/routers/csv_export.py:35-36 | a missing cell or "" is shown as "(empty)"; any other value is shown as itself |
| `CsvExport.OccurrencesPositive` | backend/routers/csv_export.py:34-37 | a value is counted for a column exactly when some row shows it |
| `CsvExport.TallySpec` | backend/routers/csv_export.py:33-37 | the tally has one positive entry per display value, records for each value the number of rows showing it, and its counts add up to the number of rows |
| `CsvExport.ValueTableCounts` | backend/routers/csv_export.py:33-40 | the sorted table lists each display value once with the number of rows showing it, and its counts add up to the number of rows |
| `CsvExport.ValueTableValues` | backend/routers/csv_export.py:33-40 | a value has an entry exactly when some row shows it |
| `CsvExport.ValueTableOrder` | backend/routers/csv_export.py:40 | entries run by count descending, and equal counts by strictly ascending value |
| `CsvExport.FieldBlockSpec` | backend/routers/csv_export.py:39-42 | a field's rows are `[field, "Value", "Count"]`, then one `["", value, count]` per entry of the sorted value table, in its order, whose count reads back as the number of rows showing the value, then a blank row |
| `CsvExport.CountsCsvInRequestOrder` | backend/routers/csv_export.py:32 | the fields' blocks follow one another in the requested order |
| `CsvExport.ExportCountsAsWritten` | backend/routers/csv_export.py:22-26 | as written, every request fails: with 400 when the import id is missing or 0 or the column list is missing or empty, and otherwise with 500 from the `columns=` keyword `query_csv_rows` does not take |
| `CsvExport.ExportCounts` | backend/routers/csv_export.py:22-44 | corrected: fails with 400 exactly when the import id is missing or 0, or the column list is missing or empty; otherwise returns the requested fields' value tables |
| `CsvExport.ExportAsWrittenFailsWhereServed` | backend/routers/csv_export.py:22-26 | the corrected export serves exactly the requests that fail with 500 as written, and both reject the others identically |

## Left out

- Parsing: ElementTree and `csv.DictReader` are not modelled. Element trees and header/row lists are inputs, and an upload arrives as "undecodable" or as a size and the reader's table, in which a short row's missing cells are `None`. Fields beyond the header line, which DictReader files under the key `None`, are not represented; the combination never reads them.
- CsvScript: the reference script is modelled over the cells that hold a string. It copies a short row's `None` cells into its combined rows, where the model has "", and skips them like "" when collecting leaf values.
- FastAPI, SQLAlchemy and the database are not modelled: sessions, `store_csv_import`, the import id and status in the batch response, `get_import`, CORS and streaming. The database is a value holding imports and rows.
- Python's `lower()` is modelled for ASCII letters only; Unicode case folding is outside the model.
- The size checks divide in floating point. The model compares integer byte counts, which is exactly equivalent, and takes the UTF-8 byte length as an input.
- JSON decoding (`json.loads`) and SQL `LIKE '%v%'` are function parameters: their wildcard, escaping and case rules are not modelled. A `json_extract` path built from a column name holding `.` or quotes is also outside the model.
- CsvQuery.OrderByRowIndex: the database's order among rows with equal `row_index` is unspecified; the model keeps storage order, because its sort is stable (`Sorting.SortByStable`).
- CsvProcessor.HierarchicalShape: the backend tree is built with the corrected path rule `NodePath` (see Findings). Below a first segment named "root" its paths are "/root/..." where the source writes "/..."; the lemma promises the source's path only for the other nodes.
- CsvScript.ScriptNodeShape: the script tree is built with the corrected path rule `ScriptPath` (see Findings). Below an empty first segment its paths start with "/" where the script drops the empty parent; the lemma promises the script's path only when the first segment is not empty.
- Filter values are strings in the model; the falsy non-string values a JSON filter dictionary could carry are represented only by "".
- CsvExport: rows are objects with string cells. A fetched row that normalised to a non-object, or a non-string cell rendered by `str()`, is outside the model. The CSV text itself (quoting, line endings) is not modelled; the model produces the writer's rows as cell lists.
- CsvExport.ExportCounts: as written, the export's fetch of rows passes a `columns=` keyword that `query_csv_rows` does not accept, so every request that passes the body check fails with 500 and no CSV is ever produced (`CsvExport.ExportCountsAsWritten`, see Findings). `ExportCounts` models the evidently intended export and counts over a given row list. The intended fetch asks for page 1 of 1,000,000 rows, so it would count at most the first 1,000,000 normalised rows in `row_index` order; the model does not impose that cap.
- CsvExport.ExportCountsAsWritten: the request body is arbitrary JSON, and the model takes the import id as an optional integer and the columns as an optional list of strings. A string `columns` value passes the body check and would be iterated character by character; a body that is not a JSON object raises `AttributeError` and is answered with 500. Neither is modelled.
- The reference script's leaf value joins a Python `set` with ", ", whose order is unspecified. The model keeps the set of distinct values and says that there are at least two.
- Logging, the CLI `main` functions, the file writers and `search_csv` (a pass-through to `search_csv_data`) are not modelled.
- The backend caches nodes by prefix in `node_map`. The model builds the same tree from the prefix structure that cache encodes.
- Uploads of a batch are read in order. The error entries keep the filename and the kind of error, but not the exception text.
- `query_csv_rows` returns a decoded non-object unchanged, although its comment speaks of ensuring a dictionary. The model follows the code (see `CsvQuery.NormalizeIsObject`).

## Findings

| source | as written | input that shows it | evidently intended | confidence | as-written member | corrected member |
|---|---|---|---|---|---|---|
| backend/utils/csv_processor.py:125 | a child's path is `/name` whenever its parent's path equals "/root", so the sentinel cannot tell the root from a first segment named "root" | headers `root_x` and `x`: node ("root","x") and node ("x") both get path "/x" | a top-level node's path is "/" + name and every deeper node's path is the parent's path + "/" + name, so distinct prefixes whose segments contain no '/' get distinct paths | not executed | `CsvProcessor.NodePathAsWritten` (`CsvProcessor.AsWrittenPathsCollide`) | `CsvProcessor.NodePath` (`CsvProcessor.ChildPathExtendsParent`, `CsvProcessor.NodePathInjective`) |
| scripts/csv_processor.py:114 | a child's path is its bare name whenever the parent path is "", so a first segment that is empty is mistaken for the top level | headers `_x` and `x`: node ("","x") and node ("x") both get path "x" | path is the parent's path + "/" + name below the top level | not executed | `CsvScript.ScriptPathAsWritten` (`CsvScript.ScriptPathsCollide`) | `CsvScript.ScriptPath` (`CsvScript.ScriptChildPath`) |
| backend/routers/csv_export.py:26 | the rows are fetched with `query_csv_rows(..., columns=columns)`, a keyword the function does not declare, so the call raises `TypeError` | any body with a non-zero `import_id` and a non-empty `columns` list: the server answers 500 | fetch every row of the import, then count the requested columns | not executed | `CsvExport.ExportCountsAsWritten` (`CsvExport.ExportAsWrittenFailsWhereServed`) | `CsvExport.ExportCounts` (`CsvExport.FieldBlockSpec`, `CsvExport.CountsCsvInRequestOrder`) |

=== FILE: csv_export.dfy ===
/**
 * The field-count export (backend/routers/csv_export.py, `generate_csv`):
 * for each requested column, a table of how many rows show each display
 * value, most frequent first, laid out as CSV rows. The rows are given; how
 * they are fetched is not part of this model.
 */
module CsvExport {
  import opened Wrappers
  import opened Strings
  import opened Sorting

  /** A fetched row: its cells by column name. */
  type Row = map<string, string>

  /** The display value of empty and missing cells. */
  const EmptyDisplay := "(empty)"

  /** `row.get(field, "")`, shown as "(empty)" when it is the empty string. */
  function DisplayValue(row: Row, field: string): (v: string)
    ensures v == EmptyDisplay <==> field !in row || row[field] == "" || row[field] == EmptyDisplay
    ensures v != EmptyDisplay ==> field in row && v == row[field]
  {
    var value := if field in row then row[field] else "";
    if value == "" then EmptyDisplay else value
  }

  /** How many of the rows show `w` in column `field`. */
  function Occurrences(rows: seq<Row>, field: string, w: string): nat {
    if |rows| == 0 then 0
    else Occurrences(rows[..|rows| - 1], field, w) + (if DisplayValue(rows[|rows| - 1], field) == w then 1 else 0)
  }

  /** A value occurs in the column exactly when some row shows it. */
  lemma {:induction false} OccurrencesPositive(rows: seq<Row>, field: string, w: string)
    ensures Occurrences(rows, field, w) > 0 <==> exists k :: 0 <= k < |rows| && DisplayValue(rows[k], field) == w
    ensures Occurrences(rows, field, w) <= |rows|
  {
    if |rows| > 0 {
      var init := rows[..|rows| - 1];
      OccurrencesPositive(init, field, w);
      assert forall k :: 0 <= k < |init| ==> init[k] == rows[k];
    }
  }

  // ---------------------------------------------------------------------------
  // The tally (`value_counts`)
  // ---------------------------------------------------------------------------

  /** One `value_counts` item: a display value and how many rows show it. */
  datatype Entry = Entry(value: string, count: nat)

  /** Sum of `f` over the entries. */
  function SumBy(t: seq<Entry>, f: Entry -> int): int {
    if |t| == 0 then 0 else f(t[0]) + SumBy(t[1..], f)
  }

  /** The count of an entry. */
  function Counts(): Entry -> int {
    (e: Entry) => e.count
  }

  /** The count of an entry with value `w`; zero for other entries. */
  function CountFor(w: string): Entry -> int {
    (e: Entry) => if e.value == w then e.count else 0
  }

  /** The count a tally records for `w`: zero when it has no entry for `w`. */
  function CountOf(t: seq<Entry>, w: string): int {
    SumBy(t, CountFor(w))
  }

  /** Some entry has value `w`. */
  predicate HasValue(t: seq<Entry>, w: string) {
    exists i :: 0 <= i < |t| && t[i].value == w
  }

  /** No two entries share a value. */
  predicate DistinctValues(t: seq<Entry>) {
    forall i, j :: 0 <= i < j < |t| ==> t[i].value != t[j].value
  }

  /** Every entry counts at least one row. */
  predicate Positive(t: seq<Entry>) {
    forall i :: 0 <= i < |t| ==> t[i].count >= 1
  }

  /** `value_counts[v] = value_counts.get(v, 0) + 1`: bump v's entry in place, or append a new one. */
  function Bump(t: seq<Entry>, v: string): seq<Entry> {
    if |t| == 0 then [Entry(v, 1)]
    else if t[0].value == v then [Entry(v, t[0].count + 1)] + t[1..]
    else [t[0]] + Bump(t[1..], v)
  }

  /** Bumping keeps counts positive and adds v to the values. */
  lemma {:induction false} BumpValues(t: seq<Entry>, v: string)
    requires Positive(t)
    ensures Positive(Bump(t, v))
    ensures forall w :: HasValue(Bump(t, v), w) <==> HasValue(t, w) || w == v
  {
    if |t| == 0 {
      assert Bump(t, v)[0].value == v;
    } else if t[0].value != v {
      var rest := Bump(t[1..], v);
      BumpValues(t[1..], v);
      assert Bump(t, v) == [t[0]] + rest;
      HasValueCons(t[0], rest);
      HasValueCons(t[0], t[1..]);
      assert t == [t[0]] + t[1..];
    } else {
      var e := Entry(v, t[0].count + 1);
      assert Bump(t, v) == [e] + t[1..];
      HasValueCons(e, t[1..]);
      HasValueCons(t[0], t[1..]);
      assert t == [t[0]] + t[1..];
    }
  }

  /** The values of an entry list with one entry in front. */
  lemma {:induction false} HasValueCons(e: Entry, t: seq<Entry>)
    ensures forall w :: HasValue([e] + t, w) <==> e.value == w || HasValue(t, w)
    ensures Positive([e] + t) <==> e.count >= 1 && Positive(t)
  {
    forall w ensures HasValue([e] + t, w) <==> e.value == w || HasValue(t, w) {
      if e.value == w {
        assert ([e] + t)[0].value == w;
      }
      if HasValue(t, w) {
        var i :| 0 <= i < |t| && t[i].value == w;
        assert ([e] + t)[i + 1] == t[i];
      }
      if HasValue([e] + t, w) {
        var i :| 0 <= i < |[e] + t| && ([e] + t)[i].value == w;
        if i > 0 {
          assert t[i - 1] == ([e] + t)[i];
        }
      }
    }
    if e.count >= 1 && Positive(t) {
      forall i | 0 <= i < |[e] + t| ensures ([e] + t)[i].count >= 1 {
        if i > 0 {
          assert ([e] + t)[i] == t[i - 1];
        }
      }
    }
    if Positive([e] + t) {
      assert ([e] + t)[0].count >= 1;
      forall i | 0 <= i < |t| ensures t[i].count >= 1 {
        assert ([e] + t)[i + 1] == t[i];
      }
    }
  }

  /** Bumping keeps the values distinct. */
  lemma {:induction false} BumpDistinct(t: seq<Entry>, v: string)
    requires DistinctValues(t) && Positive(t)
    ensures DistinctValues(Bump(t, v))
  {
    if |t| > 0 && t[0].value != v {
      var r := Bump(t, v);
      var tail := t[1..];
      BumpDistinct(tail, v);
      BumpValues(tail, v);
      assert r == [t[0]] + Bump(tail, v);
      forall j | 1 <= j < |r| ensures r[0].value != r[j].value {
        assert Bump(tail, v)[j - 1] == r[j];
        assert HasValue(Bump(tail, v), r[j].value);
        if HasValue(tail, r[j].value) {
          var k :| 0 <= k < |tail| && tail[k].value == r[j].value;
          assert t[k + 1].value == r[j].value;
        }
      }
    }
  }

  /** Bumping adds one to the total and to v's recorded count, and nothing to any other value's. */
  lemma {:induction false} BumpCounts(t: seq<Entry>, v: string, w: string)
    requires DistinctValues(t)
    ensures SumBy(Bump(t, v), Counts()) == SumBy(t, Counts()) + 1
    ensures CountOf(Bump(t, v), w) == CountOf(t, w) + (if w == v then 1 else 0)
  {
    if |t| > 0 {
      var tail := t[1..];
      if t[0].value == v {
        assert Bump(t, v)[1..] == tail;
      } else {
        BumpCounts(tail, v, w);
        assert Bump(t, v)[1..] == Bump(tail, v);
      }
    }
  }

  /** Bumping keeps entries distinct and positive, adds one row, and adds it to v's count only. */
  lemma {:induction false} BumpSpec(t: seq<Entry>, v: string)
    requires DistinctValues(t) && Positive(t)
    ensures DistinctValues(Bump(t, v)) && Positive(Bump(t, v))
    ensures forall w :: HasValue(Bump(t, v), w) <==> HasValue(t, w) || w == v
    ensures SumBy(Bump(t, v), Counts()) == SumBy(t, Counts()) + 1
    ensures forall w :: CountOf(Bump(t, v), w) == CountOf(t, w) + (if w == v then 1 else 0)
  {
    BumpValues(t, v);
    BumpDistinct(t, v);
    BumpCounts(t, v, v);
    forall w ensures CountOf(Bump(t, v), w) == CountOf(t, w) + (if w == v then 1 else 0) {
      BumpCounts(t, v, w);
    }
  }

  /** The `value_counts` of column `field` after the loop over the rows. */
  function Tally(rows: seq<Row>, field: string): seq<Entry> {
    if |rows| == 0 then [] else Bump(Tally(rows[..|rows| - 1], field), DisplayValue(rows[|rows| - 1], field))
  }

  /**
   * The tally has one positive entry per display value, records for every
   * value exactly the number of rows showing it, and its counts add up to
   * the number of rows.
   */
  lemma {:induction false} TallySpec(rows: seq<Row>, field: string)
    ensures DistinctValues(Tally(rows, field)) && Positive(Tally(rows, field))
    ensures SumBy(Tally(rows, field), Counts()) == |rows|
    ensures forall w :: CountOf(Tally(rows, field), w) == Occurrences(rows, field, w)
  {
    if |rows| > 0 {
      TallySpec(rows[..|rows| - 1], field);
      BumpSpec(Tally(rows[..|rows| - 1], field), DisplayValue(rows[|rows| - 1], field));
    }
  }

  /** The recorded count of an entry of a distinct tally is the entry's count. */
  lemma {:induction false} CountOfEntry(t: seq<Entry>, i: nat)
    requires DistinctValues(t) && i < |t|
    ensures CountOf(t, t[i].value) == t[i].count
  {
    if i == 0 {
      CountOfAbsent(t[1..], t[0].value);
    } else {
      CountOfEntry(t[1..], i - 1);
    }
  }

  /** A value without an entry is recorded as zero. */
  lemma {:induction false} CountOfAbsent(t: seq<Entry>, w: string)
    requires forall i :: 0 <= i < |t| ==> t[i].value != w
    ensures CountOf(t, w) == 0
  {
    if |t| > 0 {
      CountOfAbsent(t[1..], w);
    }
  }

  // ---------------------------------------------------------------------------
  // Sums and values across a permutation
  // ---------------------------------------------------------------------------

  lemma {:induction false} SumByConcat(a: seq<Entry>, b: seq<Entry>, f: Entry -> int)
    ensures SumBy(a + b, f) == SumBy(a, f) + SumBy(b, f)
  {
    if |a| > 0 {
      assert (a + b)[0] == a[0];
      assert (a + b)[1..] == a[1..] + b;
      SumByConcat(a[1..], b, f);
    } else {
      assert a + b == b;
    }
  }

  /** Taking one entry out of the sum. */
  lemma {:induction false} SumByRemove(b: seq<Entry>, i: nat, f: Entry -> int)
    requires i < |b|
    ensures SumBy(b, f) == f(b[i]) + SumBy(b[..i] + b[i + 1..], f)
  {
    assert b == b[..i] + ([b[i]] + b[i + 1..]);
    SumByConcat(b[..i], [b[i]] + b[i + 1..], f);
    SumByConcat(b[..i], b[i + 1..], f);
  }

  /** Removing the same element from two permutations of each other leaves permutations. */
  lemma {:induction false} MultisetRemove(a: seq<Entry>, b: seq<Entry>, i: nat)
    requires multiset(a) == multiset(b) && |a| > 0 && i < |b| && b[i] == a[0]
    ensures multiset(a[1..]) == multiset(b[..i] + b[i + 1..])
  {
    var x := a[0];
    assert b == b[..i] + [x] + b[i + 1..];
    assert multiset(b) == multiset(b[..i]) + multiset{x} + multiset(b[i + 1..]);
    assert a == [x] + a[1..];
    assert multiset(a) == multiset{x} + multiset(a[1..]);
    var rest := b[..i] + b[i + 1..];
    assert multiset(rest) == multiset(b[..i]) + multiset(b[i + 1..]);
    forall y ensures multiset(a[1..])[y] == multiset(rest)[y] {
      assert multiset(a)[y] == multiset(b)[y];
    }
  }

  /** Reordering entries does not change any sum over them. */
  lemma {:induction false} SumByPermutation(a: seq<Entry>, b: seq<Entry>, f: Entry -> int)
    requires multiset(a) == multiset(b)
    ensures SumBy(a, f) == SumBy(b, f)
    decreases |a|
  {
    if |a| == 0 {
      assert |b| == |multiset(b)| == 0;
    } else {
      assert a[0] in multiset(b);
      var i :| 0 <= i < |b| && b[i] == a[0];
      MultisetRemove(a, b, i);
      SumByPermutation(a[1..], b[..i] + b[i + 1..], f);
      SumByRemove(b, i, f);
    }
  }

  /** Reordering entries keeps them distinct: a repeated value would be counted twice. */
  lemma {:induction false} DistinctPermutation(a: seq<Entry>, b: seq<Entry>)
    requires multiset(a) == multiset(b) && DistinctValues(a) && Positive(a)
    ensures DistinctValues(b) && Positive(b)
  {
    forall i | 0 <= i < |b| ensures b[i].count >= 1 {
      assert b[i] in multiset(a);
    }
    forall i, j | 0 <= i < j < |b| ensures b[i].value != b[j].value {
      if b[i].value == b[j].value {
        var w := b[i].value;
        assert b[i] in multiset(a);
        var k :| 0 <= k < |a| && a[k] == b[i];
        CountOfEntry(a, k);
        SumByPermutation(a, b, CountFor(w));
        AtLeastTwoEntries(b, i, j);
      }
    }
  }

  /** Two positive entries with value w make the recorded count exceed either one. */
  lemma {:induction false} AtLeastTwoEntries(t: seq<Entry>, i: nat, j: nat)
    requires i < j < |t| && t[i].value == t[j].value && Positive(t)
    ensures CountOf(t, t[i].value) >= t[i].count + t[j].count
  {
    var w := t[i].value;
    NonNegativeCounts(t, w);
    if i > 0 {
      AtLeastTwoEntries(t[1..], i - 1, j - 1);
    } else {
      AtLeastOneEntry(t[1..], j - 1, w);
    }
  }

  lemma {:induction false} AtLeastOneEntry(t: seq<Entry>, j: nat, w: string)
    requires j < |t| && t[j].value == w
    ensures CountOf(t, w) >= t[j].count
  {
    NonNegativeCounts(t, w);
    if j > 0 {
      AtLeastOneEntry(t[1..], j - 1, w);
    } else {
      NonNegativeCounts(t[1..], w);
    }
  }

  lemma {:induction false} NonNegativeCounts(t: seq<Entry>, w: string)
    ensures CountOf(t, w) >= 0
  {
    if |t| > 0 {
      NonNegativeCounts(t[1..], w);
    }
  }

  // ---------------------------------------------------------------------------
  // Sorting by (-count, value)
  // ---------------------------------------------------------------------------

  /** The sort key `(-count, value)`: higher counts first, then ascending values. */
  function ByCountThenValue(): (Entry, Entry) -> bool {
    (a: Entry, b: Entry) => a.count > b.count || (a.count == b.count && StrLe(a.value, b.value))
  }

  lemma {:induction false} ByCountThenValueIsTotalPreorder()
    ensures TotalPreorder(ByCountThenValue())
  {
    var le := ByCountThenValue();
    forall a, b ensures le(a, b) || le(b, a) {
      StrLeTotal(a.value, b.value);
    }
    forall a, b, c | le(a, b) && le(b, c) ensures le(a, c) {
      if a.count == b.count == c.count {
        StrLeTransitive(a.value, b.value, c.value);
      }
    }
  }

  /** `sorted(value_counts.items(), key=lambda x: (-x[1], x[0]))`. */
  function ValueTable(rows: seq<Row>, field: string): seq<Entry> {
    ByCountThenValueIsTotalPreorder();
    SortBy(Tally(rows, field), ByCountThenValue())
  }

  /**
   * The value table of a column lists each display value of the column once,
   * with the number of rows showing it; its counts add up to the number of
   * rows.
   */
  lemma {:induction false} ValueTableCounts(rows: seq<Row>, field: string)
    ensures var t := ValueTable(rows, field);
      && DistinctValues(t)
      && (forall i :: 0 <= i < |t| ==> t[i].count == Occurrences(rows, field, t[i].value) >= 1)
      && SumBy(t, Counts()) == |rows|
  {
    var tally := Tally(rows, field);
    var t := ValueTable(rows, field);
    TallySpec(rows, field);
    DistinctPermutation(tally, t);
    SumByPermutation(tally, t, Counts());
    forall i | 0 <= i < |t| ensures t[i].count == Occurrences(rows, field, t[i].value) {
      CountOfEntry(t, i);
      SumByPermutation(tally, t, CountFor(t[i].value));
    }
  }

  /** A value has an entry exactly when some row shows it. */
  lemma {:induction false} ValueTableValues(rows: seq<Row>, field: string, w: string)
    ensures HasValue(ValueTable(rows, field), w) <==> exists k :: 0 <= k < |rows| && DisplayValue(rows[k], field) == w
  {
    var t := ValueTable(rows, field);
    ValueTableCounts(rows, field);
    OccurrencesPositive(rows, field, w);
    if HasValue(t, w) {
      var i :| 0 <= i < |t| && t[i].value == w;
    } else {
      var tally := Tally(rows, field);
      TallySpec(rows, field);
      SumByPermutation(tally, t, CountFor(w));
      CountOfAbsent(t, w);
    }
  }

  /** The entries run from the highest count down; equal counts run in ascending value order. */
  lemma {:induction false} ValueTableOrder(rows: seq<Row>, field: string)
    ensures var t := ValueTable(rows, field);
      forall i, j :: 0 <= i < j < |t| ==>
        t[i].count > t[j].count || (t[i].count == t[j].count && StrLe(t[i].value, t[j].value) && t[i].value != t[j].value)
  {
    var t := ValueTable(rows, field);
    ValueTableCounts(rows, field);
    forall i, j | 0 <= i < j < |t| ensures ByCountThenValue()(t[i], t[j]) {
    }
  }

  // ---------------------------------------------------------------------------
  // The CSV rows written
  // ---------------------------------------------------------------------------

  /** A row of the exported CSV: its cells. */
  type CsvLine = seq<string>

  /** The writer's row for one entry; the count is written as its decimal digits. */
  function EntryLine(e: Entry): CsvLine {
    ["", e.value, NatToString(e.count)]
  }

  /** The rows written for one field: its header row, one row per entry, a blank row. */
  function FieldBlock(rows: seq<Row>, field: string): (b: seq<CsvLine>)
    ensures |b| == |ValueTable(rows, field)| + 2
  {
    var t := ValueTable(rows, field);
    [[field, "Value", "Count"]] + seq(|t|, i requires 0 <= i < |t| => EntryLine(t[i])) + [[]]
  }

  /** The blocks of the fields, one after another. */
  function ConcatBlocks(columns: seq<string>, block: string -> seq<CsvLine>): seq<CsvLine> {
    if |columns| == 0 then [] else block(columns[0]) + ConcatBlocks(columns[1..], block)
  }

  /** The block of a field over the given rows. */
  function BlockOver(rows: seq<Row>): string -> seq<CsvLine> {
    field => FieldBlock(rows, field)
  }

  /** All rows written, field after field in the order requested. */
  function CountsCsv(rows: seq<Row>, columns: seq<string>): seq<CsvLine> {
    ConcatBlocks(columns, BlockOver(rows))
  }

  /**
   * A field's block starts with `[field, "Value", "Count"]`, ends with a
   * blank row, and between them holds one `["", value, count]` row per
   * display value, whose count cell reads back as the number of rows showing
   * that value.
   */
  lemma {:induction false} FieldBlockSpec(rows: seq<Row>, field: string)
    ensures var b := FieldBlock(rows, field);
      var t := ValueTable(rows, field);
      && |b| == |t| + 2
      && b[0] == [field, "Value", "Count"]
      && b[|b| - 1] == []
      && forall i :: 1 <= i < |b| - 1 ==>
        |b[i]| == 3 && b[i][0] == "" && (forall d :: 0 <= d < |b[i][2]| ==> IsDigit(b[i][2][d]))
        && DigitsValue(b[i][2]) == Occurrences(rows, field, b[i][1])
        && b[i][1] == t[i - 1].value
  {
    var t := ValueTable(rows, field);
    var b := FieldBlock(rows, field);
    ValueTableCounts(rows, field);
    forall i | 1 <= i < |b| - 1
      ensures b[i] == EntryLine(t[i - 1])
      ensures DigitsValue(NatToString(t[i - 1].count)) == t[i - 1].count
    {
      NatToStringRoundTrip(t[i - 1].count);
    }
  }

  /** Block k sits after the blocks before it and before the blocks after it. */
  lemma {:induction false} ConcatBlocksSplit(columns: seq<string>, block: string -> seq<CsvLine>, k: nat)
    requires k < |columns|
    ensures ConcatBlocks(columns, block) ==
      ConcatBlocks(columns[..k], block) + block(columns[k]) + ConcatBlocks(columns[k + 1..], block)
  {
    var head := block(columns[0]);
    if k == 0 {
      assert columns[..0] == [];
      assert columns[1..] == columns[k + 1..];
    } else {
      var tail := columns[1..];
      ConcatBlocksSplit(tail, block, k - 1);
      assert tail[..k - 1] == columns[..k][1..];
      assert tail[k - 1] == columns[k];
      assert tail[k..] == columns[k + 1..];
    }
  }

  /** Field k's block sits after the blocks of the fields before it and before those after it. */
  lemma {:induction false} CountsCsvInRequestOrder(rows: seq<Row>, columns: seq<string>, k: nat)
    requires k < |columns|
    ensures CountsCsv(rows, columns) ==
      CountsCsv(rows, columns[..k]) + FieldBlock(rows, columns[k]) + CountsCsv(rows, columns[k + 1..])
  {
    ConcatBlocksSplit(columns, BlockOver(rows), k);
  }

  // ---------------------------------------------------------------------------
  // export_counts_csv
  // ---------------------------------------------------------------------------

  /**
   * The export's failures: the 400 response when the body lacks an import id
   * or columns, and the `TypeError` raised by calling `query_csv_rows` with a
   * keyword it does not take, which the server answers with 500.
   */
  datatype ExportError = ImportIdAndColumnsRequired | UnexpectedKeyword

  function ExportStatus(e: ExportError): int {
    match e
    case ImportIdAndColumnsRequired => 400
    case UnexpectedKeyword => 500
  }

  /**
   * `export_counts_csv` as written: a request that passes the body check
   * reaches the fetch of rows, whose `columns=` keyword `query_csv_rows`
   * does not accept, so no request produces a CSV.
   */
  function ExportCountsAsWritten(importId: Option<int>, columns: Option<seq<string>>): (r: Result<seq<CsvLine>, ExportError>)
    ensures r.Failure?
    ensures ExportStatus(r.error) == 500 <==> importId.Some? && importId.value != 0 && columns.Some? && |columns.value| > 0
  {
    if importId.None? || importId.value == 0 || columns.None? || |columns.value| == 0 then Failure(ImportIdAndColumnsRequired)
    else Failure(UnexpectedKeyword)
  }

  /**
   * Every request the corrected export serves fails with 500 as written;
   * both reject the same requests with 400.
   */
  lemma {:induction false} ExportAsWrittenFailsWhereServed(importId: Option<int>, columns: Option<seq<string>>, rows: seq<Row>)
    ensures ExportCounts(importId, columns, rows).Success? <==>
      ExportCountsAsWritten(importId, columns) == Failure(UnexpectedKeyword)
    ensures ExportCounts(importId, columns, rows).Failure? ==>
      ExportCountsAsWritten(importId, columns) == ExportCounts(importId, columns, rows)
  {
  }

  /**
   * `export_counts_csv` as evidently intended, with the rows fetched without
   * the stray keyword: a missing or zero import id, or a missing or empty
   * column list, is rejected with 400; otherwise the value tables of the
   * requested columns over the given rows.
   */
  function ExportCounts(importId: Option<int>, columns: Option<seq<string>>, rows: seq<Row>): (r: Result<seq<CsvLine>, ExportError>)
    ensures r.Failure? <==> importId.None? || importId.value == 0 || columns.None? || |columns.value| == 0
    ensures r.Failure? ==> ExportStatus(r.error) == 400
    ensures r.Success? ==> |r.value| >= 2 * |columns.value|
  {
    if importId.None? || importId.value == 0 || columns.None? || |columns.value| == 0 then Failure(ImportIdAndColumnsRequired)
    else
      CountsCsvLength(rows, columns.value);
      Success(CountsCsv(rows, columns.value))
  }

  lemma {:induction false} CountsCsvLength(rows: seq<Row>, columns: seq<string>)
    ensures |ConcatBlocks(columns, BlockOver(rows))| >= 2 * |columns|
  {
    if |columns| > 0 {
      CountsCsvLength(rows, columns[1..]);
    }
  }
}

=== FILE: csv_parser.dfy ===
/**
 * The CSV upload and row-paging routes (backend/routers/csv_parser.py): the
 * filename check, the batch upload that skips unreadable and oversized files,
 * the single-file parse with its row limit, and the paged row and search
 * responses with their page count. Uploads arrive already decoded and
 * parsed; storing an import in the database is not part of this model.
 */
module CsvParser {
  import opened Wrappers
  import opened Strings
  import opened Sequences
  import SizeLimits
  import opened CsvProcessor
  import opened CsvQuery

  // ---------------------------------------------------------------------------
  // Errors
  // ---------------------------------------------------------------------------

  /** Why a file of an upload could not be used. */
  datatype FileProblem = Oversized(error: SizeLimits.SizeError) | ReadFailed

  /** One entry of the batch's error list: the file's name and what went wrong. */
  datatype FileError = FileError(filename: Option<string>, problem: FileProblem)

  /** The reasons for a 400 response. */
  datatype BadRequestReason =
    | NoFilesProvided
    | NamedFileMustBeCsv(filename: Option<string>)
    | FileMustBeCsv
    | NoFileRead(errors: seq<FileError>)
    | FileTooLarge(error: SizeLimits.SizeError)
    | ProcessingFailed
    | CombineFailed

  /** An error response of the routes. */
  datatype ApiError =
    | BadRequest(reason: BadRequestReason)
    | NotFound(importId: int)
    | InvalidResponse
    | InvalidQuery(params: seq<string>)

  /** The HTTP status of an error; query validation fails with 422. */
  function StatusCode(e: ApiError): int {
    match e
    case BadRequest(_) => 400
    case NotFound(_) => 404
    case InvalidResponse => 404
    case InvalidQuery(_) => 422
  }

  // ---------------------------------------------------------------------------
  // The filename check
  // ---------------------------------------------------------------------------

  /** A filename is accepted when present and ending in ".csv" in any case. */
  predicate IsCsvFilename(name: Option<string>) {
    name.Some? && EndsWith(Lower(name.value), ".csv")
  }

  /** A name is accepted exactly when its last four characters lower-case to ".csv". */
  lemma {:induction false} CsvFilenameSuffix(name: string)
    ensures IsCsvFilename(Some(name)) <==> |name| >= 4 && Lower(name[|name| - 4..]) == ".csv"
    ensures !IsCsvFilename(None) && !IsCsvFilename(Some(""))
  {
    if |name| >= 4 {
      assert Lower(name)[|name| - 4..] == Lower(name[|name| - 4..]);
    }
  }

  /** Lower-casing a name never changes whether it is accepted. */
  lemma {:induction false} CsvFilenameIgnoresCase(name: string)
    ensures IsCsvFilename(Some(Lower(name))) == IsCsvFilename(Some(name))
  {
    assert Lower(Lower(name)) == Lower(name);
  }

  // ---------------------------------------------------------------------------
  // Reading the files of a batch
  // ---------------------------------------------------------------------------

  /** What reading an upload yields: bytes that do not decode, or a decoded text of a size, as the reader yields it. */
  datatype Content = Undecodable | Decoded(sizeBytes: nat, parsed: ReadCsv)

  /** An uploaded file. */
  datatype Upload = Upload(filename: Option<string>, content: Content)

  /** One turn of the read loop: the file's parsed content, or the error entry it adds. */
  function ReadUpload(u: Upload): (r: Result<ReadCsv, FileError>)
    ensures r.Success? <==> u.content.Decoded? && u.content.sizeBytes <= SizeLimits.CsvMaxMb * SizeLimits.BytesPerMb
    ensures r.Success? ==> r.value == u.content.parsed
    ensures r.Failure? ==> r.error.filename == u.filename
    ensures r.Failure? && u.content.Decoded? ==> r.error.problem == Oversized(SizeLimits.TooLarge(u.content.sizeBytes, SizeLimits.CsvMaxMb))
  {
    match u.content
    case Undecodable => Failure(FileError(u.filename, ReadFailed))
    case Decoded(size, parsed) =>
      SizeLimits.SizeInMbAtMost(size, SizeLimits.CsvMaxMb);
      var check := SizeLimits.ValidateSize(size, SizeLimits.CsvMaxMb);
      if check.Failure? then Failure(FileError(u.filename, Oversized(check.error))) else Success(parsed)
  }

  /** The parsed contents the read loop keeps, in upload order. */
  function Kept(us: seq<Upload>): seq<ReadCsv> {
    if |us| == 0 then []
    else
      var r := ReadUpload(us[|us| - 1]);
      Kept(us[..|us| - 1]) + (if r.Success? then [r.value] else [])
  }

  /** The error entries the read loop collects, in upload order. */
  function Rejected(us: seq<Upload>): seq<FileError> {
    if |us| == 0 then []
    else
      var r := ReadUpload(us[|us| - 1]);
      Rejected(us[..|us| - 1]) + (if r.Failure? then [r.error] else [])
  }

  /**
   * Every upload either contributes its content or one error entry; nothing
   * is kept exactly when no upload reads, and what is kept is the content of
   * the uploads that read.
   */
  lemma {:induction false} ReadPartition(us: seq<Upload>)
    ensures |Kept(us)| + |Rejected(us)| == |us|
    ensures |Kept(us)| == 0 <==> forall i :: 0 <= i < |us| ==> ReadUpload(us[i]).Failure?
    ensures forall p :: p in Kept(us) <==> exists i :: 0 <= i < |us| && ReadUpload(us[i]) == Success(p)
  {
    if |us| > 0 {
      var init := us[..|us| - 1];
      ReadPartition(init);
      assert forall i :: 0 <= i < |init| ==> init[i] == us[i];
    }
  }

  // ---------------------------------------------------------------------------
  // parse_csv_batch
  // ---------------------------------------------------------------------------

  /** The batch's success response, without the database's id and status. */
  datatype ImportSummary = ImportSummary(data: CsvData, totalRows: int, totalColumns: int, headers: seq<string>)

  /**
   * `parse_csv_batch(files)`: no files, or any file that is not named as a
   * CSV file, rejects the batch; otherwise unreadable and oversized files are
   * skipped with an error entry. The batch fails when no file is left, or
   * when a short row of a kept file fails the combination; else it combines
   * what is left.
   */
  method ParseBatch(uploads: seq<Upload>) returns (r: Result<ImportSummary, ApiError>)
    ensures |uploads| == 0 ==> r == Failure(BadRequest(NoFilesProvided))
    ensures (exists k :: 0 <= k < |uploads| && !IsCsvFilename(uploads[k].filename)) ==>
      exists k :: 0 <= k < |uploads| && !IsCsvFilename(uploads[k].filename)
        && (forall j :: 0 <= j < k ==> IsCsvFilename(uploads[j].filename))
        && r == Failure(BadRequest(NamedFileMustBeCsv(uploads[k].filename)))
    ensures |uploads| > 0 && (forall k :: 0 <= k < |uploads| ==> IsCsvFilename(uploads[k].filename)) ==>
      && (r.Failure? <==> |Kept(uploads)| == 0 || HasMissingCell(Kept(uploads)))
      && (|Kept(uploads)| == 0 ==> r.error == BadRequest(NoFileRead(Rejected(uploads))))
      && (|Kept(uploads)| > 0 && HasMissingCell(Kept(uploads)) ==> r.error == BadRequest(CombineFailed))
      && (r.Success? ==>
        && r.value.data == Combine(PresentAll(Kept(uploads)))
        && r.value.headers == r.value.data.headers
        && r.value.totalRows == |r.value.data.rows|
        && r.value.totalColumns == |r.value.data.headers|)
  {
    if |uploads| == 0 {
      return Failure(BadRequest(NoFilesProvided));
    }
    for i := 0 to |uploads|
      invariant forall j :: 0 <= j < i ==> IsCsvFilename(uploads[j].filename)
    {
      if !IsCsvFilename(uploads[i].filename) {
        return Failure(BadRequest(NamedFileMustBeCsv(uploads[i].filename)));
      }
    }
    var contents: seq<ReadCsv> := [];
    var errors: seq<FileError> := [];
    for i := 0 to |uploads|
      invariant contents == Kept(uploads[..i])
      invariant errors == Rejected(uploads[..i])
    {
      assert uploads[..i + 1][..i] == uploads[..i];
      var read := ReadUpload(uploads[i]);
      if read.Failure? {
        errors := errors + [read.error];
      } else {
        contents := contents + [read.value];
      }
    }
    assert uploads[..|uploads|] == uploads;
    if |contents| == 0 {
      return Failure(BadRequest(NoFileRead(errors)));
    }
    var result := CombineCsvFiles(contents);
    if result.Failure? {
      return Failure(BadRequest(CombineFailed));
    }
    var combined := result.value;
    CombineSound(PresentAll(contents));
    var (totalRows, totalColumns) := CsvStats(combined);
    return Success(ImportSummary(combined, totalRows, totalColumns, combined.headers));
  }

  // ---------------------------------------------------------------------------
  // parse_csv_file
  // ---------------------------------------------------------------------------

  /**
   * The `limit_rows` truncation: a positive limit keeps the first rows, at
   * most that many; no limit, or one of zero or less, keeps every row. The
   * headers and the totals are kept either way.
   */
  function LimitRows(d: CsvData, limit: Option<int>): (r: CsvData)
    ensures r.headers == d.headers && r.totalRows == d.totalRows && r.totalColumns == d.totalColumns
    ensures r.rows <= d.rows
    ensures limit.Some? && limit.value > 0 ==>
      |r.rows| == if limit.value < |d.rows| then limit.value else |d.rows|
    ensures limit.None? || limit.value <= 0 ==> r == d
  {
    if limit.Some? && limit.value > 0 then
      d.(rows := d.rows[..if limit.value < |d.rows| then limit.value else |d.rows|])
    else d
  }

  /** Limiting twice with the same limit is limiting once; a limit of at least the row count changes nothing. */
  lemma {:induction false} LimitRowsIdempotent(d: CsvData, limit: Option<int>)
    ensures LimitRows(LimitRows(d, limit), limit) == LimitRows(d, limit)
    ensures limit.Some? && limit.value >= |d.rows| ==> LimitRows(d, limit) == d
  {
  }

  /** The single-file parse response. */
  datatype ParseResponse = ParseResponse(data: CsvData, root: CsvNode, totalRows: int, totalColumns: int)

  /** The structure-free root node the single-file parse returns. */
  const EmptyRoot := CsvNode("root", "/root", None, [], map[])

  /** `parse_csv_file(file, limit_rows)`. */
  function ParseCsvFile(u: Upload, limit: Option<int>): Result<ParseResponse, ApiError> {
    if !IsCsvFilename(u.filename) then Failure(BadRequest(FileMustBeCsv))
    else if u.content.Undecodable? then Failure(BadRequest(ProcessingFailed))
    else
      var check := SizeLimits.ValidateSize(u.content.sizeBytes, SizeLimits.CsvMaxMb);
      if check.Failure? then Failure(BadRequest(FileTooLarge(check.error)))
      else
        var result := CombineCsvFiles([u.content.parsed]);
        if result.Failure? then Failure(BadRequest(ProcessingFailed))
        else
          var combined := result.value;
          var (totalRows, totalColumns) := CsvStats(combined);
          Success(ParseResponse(LimitRows(combined, limit), EmptyRoot, totalRows, totalColumns))
  }

  /**
   * The single-file parse succeeds exactly for a CSV-named, decodable file
   * within 100 MB none of whose rows is short; a short row is answered with
   * the generic processing error. A success reports the totals of the whole
   * file, whatever the limit, next to the (possibly truncated) rows of its
   * combination.
   */
  lemma {:induction false} ParseCsvFileSpec(u: Upload, limit: Option<int>)
    ensures var r := ParseCsvFile(u, limit);
      && (r.Success? <==> IsCsvFilename(u.filename) && ReadUpload(u).Success? && !HasMissingCell([u.content.parsed]))
      && (!IsCsvFilename(u.filename) ==> r == Failure(BadRequest(FileMustBeCsv)))
      && (IsCsvFilename(u.filename) && ReadUpload(u).Success? && HasMissingCell([u.content.parsed]) ==>
        r == Failure(BadRequest(ProcessingFailed)))
      && (r.Success? ==>
        var full := Combine([Present(u.content.parsed)]);
        && r.value.totalRows == |full.rows| == |u.content.parsed.rows|
        && r.value.totalColumns == |full.headers|
        && r.value.data == LimitRows(full, limit)
        && r.value.data.totalRows == r.value.totalRows
        && r.value.root.children == [] && r.value.root.path == "/root")
  {
    if u.content.Decoded? {
      SizeLimits.SizeInMbAtMost(u.content.sizeBytes, SizeLimits.CsvMaxMb);
      var files := [Present(u.content.parsed)];
      assert PresentAll([u.content.parsed]) == files;
      CombineSound(files);
      assert RowCount(files) == |u.content.parsed.rows| + RowCount([]) by {
        assert files[1..] == [];
      }
    }
  }

  /** The file `a,b` / `1`: its one row is short, so the parse fails with the processing error. */
  lemma {:induction false} ShortRowFileRejected()
    ensures ParseCsvFile(Upload(Some("a.csv"), Decoded(6, ReadCsv(["a", "b"], [map["a" := Some("1"), "b" := None]]))), None)
      == Failure(BadRequest(ProcessingFailed))
  {
    var f := ReadCsv(["a", "b"], [map["a" := Some("1"), "b" := None]]);
    assert Lower("a.csv") == "a.csv";
    SizeLimits.SizeInMbAtMost(6, SizeLimits.CsvMaxMb);
    ShortRowRejected([f], 0, 0, "b");
  }

  // ---------------------------------------------------------------------------
  // Paging
  // ---------------------------------------------------------------------------

  /** The largest page size the row routes accept. */
  const MaxPageSize := 1000

  /** `total_pages = (total_count + page_size - 1) // page_size`: the pages needed for all rows. */
  function TotalPages(totalCount: nat, pageSize: int): (r: nat)
    requires pageSize >= 1
    ensures r == 0 <==> totalCount == 0
    ensures totalCount > 0 ==> (r - 1) * pageSize < totalCount <= r * pageSize
  {
    var n := totalCount + pageSize - 1;
    var q := n / pageSize;
    assert q * pageSize + n % pageSize == n;
    q
  }

  /** The concatenation of pages 1 to n. */
  function Pages<T>(s: seq<T>, pageSize: int, n: nat): seq<T> {
    if n == 0 then [] else Pages(s, pageSize, n - 1) + PageOf(s, n, pageSize)
  }

  /** Pages 1 to n together are the first n pages' worth of rows. */
  lemma {:induction false} PagesArePrefix<T>(s: seq<T>, pageSize: int, n: nat)
    requires pageSize >= 1
    ensures n * pageSize <= |s| ==> Pages(s, pageSize, n) == s[..n * pageSize]
    ensures n * pageSize > |s| ==> Pages(s, pageSize, n) == s
  {
    if n > 0 {
      var a, b := (n - 1) * pageSize, n * pageSize;
      PagesArePrefix(s, pageSize, n - 1);
      PageOffsets(n, pageSize);
      assert Pages(s, pageSize, n - 1) == s[..if a <= |s| then a else |s|];
      PagesStep(s, pageSize, n, a, b);
    }
  }

  /** Appending page n, which starts at offset `a`, extends the prefix from `a` to `b` rows. */
  lemma {:induction false} PagesStep<T>(s: seq<T>, pageSize: int, n: nat, a: int, b: int)
    requires n >= 1 && pageSize >= 1 && a >= 0 && b == a + pageSize
    requires a == (n - 1) * pageSize
    requires Pages(s, pageSize, n - 1) == s[..if a <= |s| then a else |s|]
    ensures Pages(s, pageSize, n) == s[..if b <= |s| then b else |s|]
  {
    var lo := if a <= |s| then a else |s|;
    var hi := if b <= |s| then b else |s|;
    WindowFrom(s, a, pageSize);
    assert s[..lo] + s[lo..hi] == s[..hi];
  }

  /** A window at a non-negative offset, as a slice clamped to the sequence. */
  lemma {:induction false} WindowFrom<T>(s: seq<T>, offset: int, limit: int)
    requires offset >= 0 && limit >= 0
    ensures var lo := if offset <= |s| then offset else |s|;
      var hi := if offset + limit <= |s| then offset + limit else |s|;
      Window(s, offset, limit) == s[lo..hi]
  {
  }

  /** Page n starts where page n - 1 ends. */
  lemma {:induction false} PageOffsets(n: int, pageSize: int)
    requires n >= 1 && pageSize >= 1
    ensures (n - 1) * pageSize >= 0
    ensures (n - 1) * pageSize + pageSize == n * pageSize
  {
  }

  /** A page whose offset is at or past the last row is empty. */
  lemma {:induction false} PageBeyondEnd<T>(s: seq<T>, page: int, pageSize: int)
    requires pageSize >= 1 && (page - 1) * pageSize >= |s|
    ensures PageOf(s, page, pageSize) == []
  {
  }

  lemma {:induction false} MulMonotone(a: int, b: int, c: int)
    requires 0 <= a <= b && c >= 1
    ensures a * c <= b * c
  {
  }

  /**
   * The pages 1 to `total_pages` hold every row exactly once, in order, and
   * every page after them is empty.
   */
  lemma {:induction false} PagesCoverRows<T>(s: seq<T>, pageSize: int)
    requires pageSize >= 1
    ensures Pages(s, pageSize, TotalPages(|s|, pageSize)) == s
    ensures forall p :: p > TotalPages(|s|, pageSize) ==> PageOf(s, p, pageSize) == []
  {
    var n := TotalPages(|s|, pageSize);
    assert |s| <= n * pageSize;
    PagesArePrefix(s, pageSize, n);
    forall p | p > n ensures PageOf(s, p, pageSize) == [] {
      MulMonotone(n, p - 1, pageSize);
      PageBeyondEnd(s, p, pageSize);
    }
  }

  /** The query parameters that fail validation, in declaration order. */
  function InvalidPaging(page: int, pageSize: int): (bad: seq<string>)
    ensures "page" in bad <==> page < 1
    ensures "page_size" in bad <==> pageSize < 1 || pageSize > MaxPageSize
  {
    (if page < 1 then ["page"] else []) + (if pageSize < 1 || pageSize > MaxPageSize then ["page_size"] else [])
  }

  /** A paged rows response. */
  datatype RowsResponse = RowsResponse(rows: seq<JsonValue>, totalCount: nat, page: int, pageSize: int, totalPages: nat)

  /** The rows fit `CsvRowsResponse.rows`, a list of objects with string values. */
  predicate RowsFitResponse(rows: seq<JsonValue>) {
    forall i :: 0 <= i < |rows| ==> rows[i].JsonObject?
  }

  /** A stored row whose data is a text that decodes to something other than an object of strings. */
  predicate DecodesToNonObject(x: StoredRow, decode: Decoder) {
    x.data.TextData? && decode(x.data.text) == Some(JsonOther)
  }

  /**
   * Building the `CsvRowsResponse` for a validated page of a result. The
   * response model rejects a row that is not an object of strings with a
   * validation error, a `ValueError`, which the routes answer with 404.
   */
  function Respond(result: RowsPage, page: int, pageSize: int): Result<RowsResponse, ApiError>
    requires pageSize >= 1
  {
    if RowsFitResponse(result.rows) then
      Success(RowsResponse(result.rows, result.totalCount, page, pageSize, TotalPages(result.totalCount, pageSize)))
    else Failure(InvalidResponse)
  }

  /** A normalised page fits the response exactly when none of its stored rows decodes to a non-object. */
  lemma {:induction false} NormalizedRowsFit(rows: seq<StoredRow>, decode: Decoder)
    ensures RowsFitResponse(NormalizeAll(rows, decode)) <==> forall i :: 0 <= i < |rows| ==> !DecodesToNonObject(rows[i], decode)
  {
    forall i | 0 <= i < |rows| ensures NormalizeAll(rows, decode)[i].JsonOther? <==> DecodesToNonObject(rows[i], decode) {
      NormalizeIsObject(rows[i].data, decode);
    }
  }

  /** `get_import_rows(import_id, page, page_size)`: unfiltered rows of an import. */
  function GetImportRows(db: Db, importId: int, page: int, pageSize: int, like: Like, decode: Decoder): Result<RowsResponse, ApiError> {
    var bad := InvalidPaging(page, pageSize);
    if bad != [] then Failure(InvalidQuery(bad))
    else Respond(QueryCsvRows(db, importId, page, pageSize, [], like, decode), page, pageSize)
  }

  /** `search_import_rows(import_id, query, columns, page, page_size)`. */
  function SearchImportRows(db: Db, importId: int, text: string, columns: Option<seq<string>>, page: int, pageSize: int, like: Like, decode: Decoder): Result<RowsResponse, ApiError> {
    var bad := InvalidPaging(page, pageSize);
    if bad != [] then Failure(InvalidQuery(bad))
    else
      match SearchCsvRows(db, importId, text, columns, page, pageSize, like, decode)
      case Failure(ImportNotFound(id)) => Failure(NotFound(id))
      case Success(result) => Respond(result, page, pageSize)
  }

  /**
   * A rows request with invalid paging fails with 422. With `page >= 1` and
   * `1 <= page_size <= 1000` it is served exactly when no row of the page
   * decodes to a non-object, and otherwise fails with 404. A served response
   * echoes the paging, holds the normalised page of the import's rows in
   * `row_index` order, and its page count covers every row of the import.
   */
  lemma {:induction false} GetImportRowsSpec(db: Db, importId: int, page: int, pageSize: int, like: Like, decode: Decoder)
    ensures var r := GetImportRows(db, importId, page, pageSize, like, decode);
      var all := Filter(db.rows, FilterMatcher(importId, [], like));
      var shown := PageOf(OrderByRowIndex(all), page, pageSize);
      && (!(page >= 1 && 1 <= pageSize <= MaxPageSize) ==> r.Failure? && StatusCode(r.error) == 422)
      && (page >= 1 && 1 <= pageSize <= MaxPageSize ==>
        && (r.Success? <==> forall i :: 0 <= i < |shown| ==> !DecodesToNonObject(shown[i], decode))
        && (r.Failure? ==> r.error == InvalidResponse && StatusCode(r.error) == 404))
      && (r.Success? ==>
        && r.value.page == page && r.value.pageSize == pageSize
        && |r.value.rows| <= pageSize
        && r.value.totalCount == |all|
        && (forall x :: x in all <==> x in db.rows && x.importId == importId)
        && r.value.rows == NormalizeAll(shown, decode)
        && Pages(OrderByRowIndex(all), pageSize, r.value.totalPages) == OrderByRowIndex(all))
  {
    if page >= 1 && 1 <= pageSize <= MaxPageSize {
      QueryCsvRowsSpec(db, importId, page, pageSize, [], like, decode);
      var all := Filter(db.rows, FilterMatcher(importId, [], like));
      NormalizedRowsFit(PageOf(OrderByRowIndex(all), page, pageSize), decode);
      PagesCoverRows(OrderByRowIndex(all), pageSize);
      assert |OrderByRowIndex(all)| == |all| by {
        assert |multiset(OrderByRowIndex(all))| == |multiset(all)|;
      }
    }
  }

  /**
   * A search request with invalid paging fails with 422. With valid paging it
   * fails with 404 exactly when the import is unknown or a row of the page
   * decodes to a non-object. A served response echoes the paging and holds
   * the normalised page of the import's rows that match the search, in
   * `row_index` order, with their count; its page count covers every
   * matching row.
   */
  lemma {:induction false} SearchImportRowsSpec(db: Db, importId: int, text: string, columns: Option<seq<string>>, page: int, pageSize: int, like: Like, decode: Decoder)
    ensures var r := SearchImportRows(db, importId, text, columns, page, pageSize, like, decode);
      && (!(page >= 1 && 1 <= pageSize <= MaxPageSize) ==> r.Failure? && StatusCode(r.error) == 422)
      && (page >= 1 && 1 <= pageSize <= MaxPageSize && importId !in db.imports ==>
        r.Failure? && r.error == NotFound(importId) && StatusCode(r.error) == 404)
      && (page >= 1 && 1 <= pageSize <= MaxPageSize && importId in db.imports ==>
        var cols := SearchColumns(columns, db.imports[importId]);
        var shown := PageOf(OrderByRowIndex(Filter(db.rows, SearchMatcher(importId, cols, text, like))), page, pageSize);
        && (r.Success? <==> forall i :: 0 <= i < |shown| ==> !DecodesToNonObject(shown[i], decode))
        && (r.Failure? ==> r.error == InvalidResponse && StatusCode(r.error) == 404))
      && (r.Success? ==>
        var cols := SearchColumns(columns, db.imports[importId]);
        var matching := Filter(db.rows, SearchMatcher(importId, cols, text, like));
        && r.value.page == page && r.value.pageSize == pageSize
        && |r.value.rows| <= pageSize
        && (forall x :: x in matching <==> x in db.rows && x.importId == importId && MatchesSearch(x, cols, text, like))
        && r.value.totalCount == |matching|
        && r.value.rows == NormalizeAll(PageOf(OrderByRowIndex(matching), page, pageSize), decode)
        && Pages(OrderByRowIndex(matching), pageSize, r.value.totalPages) == OrderByRowIndex(matching))
  {
    SearchCsvRowsSpec(db, importId, text, columns, page, pageSize, like, decode);
    if page >= 1 && 1 <= pageSize <= MaxPageSize && importId in db.imports {
      var cols := SearchColumns(columns, db.imports[importId]);
      var matching := Filter(db.rows, SearchMatcher(importId, cols, text, like));
      NormalizedRowsFit(PageOf(OrderByRowIndex(matching), page, pageSize), decode);
      PagesCoverRows(OrderByRowIndex(matching), pageSize);
      assert |OrderByRowIndex(matching)| == |matching| by {
        assert |multiset(OrderByRowIndex(matching))| == |multiset(matching)|;
      }
    }
  }
}

=== FILE: csv_processor.dfy ===
/**
 * The backend's CSV utilities (backend/utils/csv_processor.py): combining
 * parsed files under the first-seen union of their headers, splitting
 * headers into a hierarchy, the structure-only header tree, its pre-order
 * flattening, row search, the upload size check and the stored totals.
 */
module CsvProcessor {
  import opened Wrappers
  import opened Strings
  import opened Sequences
  import opened HeaderTrie
  import SizeLimits

  // ---------------------------------------------------------------------------
  // Data model
  // ---------------------------------------------------------------------------

  /**
   * What the CSV reader yields for one file: its header list and its rows.
   * A row shorter than the header line has no field for its last headers,
   * and the reader gives those cells as None.
   */
  datatype ReadCsv = ReadCsv(headers: seq<string>, rows: seq<map<string, Option<string>>>)

  /** A file whose every cell holds a string: the form the combination works on. */
  datatype ParsedCsv = ParsedCsv(headers: seq<string>, rows: seq<map<string, string>>)

  /** The `CsvRow` model. */
  datatype CsvRow = CsvRow(data: map<string, string>)

  /** The `CsvData` model, with its stored totals. */
  datatype CsvData = CsvData(headers: seq<string>, rows: seq<CsvRow>, totalRows: int, totalColumns: int)

  /** The `CsvNode` model. */
  datatype CsvNode = CsvNode(
    name: string,
    path: string,
    value: Option<string>,
    children: seq<CsvNode>,
    attributes: map<string, string>)

  // ---------------------------------------------------------------------------
  // combine_csv_files
  // ---------------------------------------------------------------------------

  /** The headers of all files, file after file. */
  function AllHeaders(files: seq<ParsedCsv>): (r: seq<string>)
    ensures forall h :: h in r <==> exists f :: 0 <= f < |files| && h in files[f].headers
  {
    if |files| == 0 then []
    else
      var rest := AllHeaders(files[1..]);
      assert forall f :: 1 <= f < |files| ==> files[f] == files[1..][f - 1];
      files[0].headers + rest
  }

  /**
   * The combined header list: the first file's headers, then each later
   * file's headers that are not yet present, in the order they appear.
   */
  function CombineHeaders(files: seq<ParsedCsv>): seq<string> {
    if |files| == 0 then [] else AddUnseen(files[0].headers, AllHeaders(files[1..]))
  }

  /**
   * The combined headers start with the first file's headers, contain exactly
   * the headers of the files, add no duplicate, and the added ones come in the
   * order the later files first name them.
   */
  lemma {:induction false} CombineHeadersSpec(files: seq<ParsedCsv>)
    ensures |files| > 0 ==> Extends(CombineHeaders(files), files[0].headers)
    ensures forall h :: h in CombineHeaders(files) <==> exists f :: 0 <= f < |files| && h in files[f].headers
    ensures |files| > 0 && NoDup(files[0].headers) ==> NoDup(CombineHeaders(files))
    ensures |files| > 0 ==> forall k :: |files[0].headers| <= k < |CombineHeaders(files)| ==>
      CombineHeaders(files)[k] !in files[0].headers
    ensures |files| > 0 ==>
      FirstSeenOrder(CombineHeaders(files)[|files[0].headers|..], AllHeaders(files[1..]))
  {
    if |files| > 0 {
      var r := CombineHeaders(files);
      var later := AllHeaders(files[1..]);
      AddUnseenFirstSeenOrder(files[0].headers, later);
      forall h ensures h in r <==> exists f :: 0 <= f < |files| && h in files[f].headers {
        if h in r {
          var k :| 0 <= k < |r| && r[k] == h;
          if h !in files[0].headers {
            assert h in later;
            var f :| 0 <= f < |files[1..]| && h in files[1..][f].headers;
            assert files[f + 1] == files[1..][f];
          }
        }
        if exists f :: 0 <= f < |files| && h in files[f].headers {
          var f :| 0 <= f < |files| && h in files[f].headers;
          if f == 0 {
            var k :| 0 <= k < |files[0].headers| && files[0].headers[k] == h;
            assert r[k] == h;
          } else {
            assert files[1..][f - 1] == files[f];
            assert h in later;
            var k :| 0 <= k < |later| && later[k] == h;
          }
        }
      }
    }
  }

  /** A row widened to `headers`: every header a key, missing cells read as "". */
  function FillRow(headers: seq<string>, row: map<string, string>): (r: map<string, string>)
    ensures r.Keys == set h | h in headers
    ensures forall h :: h in r ==> r[h] == (if h in row then row[h] else "")
  {
    map h | h in headers :: if h in row then row[h] else ""
  }

  /** The rows of one file, widened. */
  function FileRows(headers: seq<string>, rows: seq<map<string, string>>): (r: seq<CsvRow>)
    ensures |r| == |rows|
    ensures forall k :: 0 <= k < |rows| ==> r[k] == CsvRow(FillRow(headers, rows[k]))
  {
    seq(|rows|, k requires 0 <= k < |rows| => CsvRow(FillRow(headers, rows[k])))
  }

  /** The rows of all files, file after file, row after row. */
  function AllRows(files: seq<ParsedCsv>, headers: seq<string>): seq<CsvRow> {
    if |files| == 0 then []
    else AllRows(files[..|files| - 1], headers) + FileRows(headers, files[|files| - 1].rows)
  }

  /** The number of input rows in `files`. */
  function RowCount(files: seq<ParsedCsv>): nat {
    if |files| == 0 then 0 else RowCount(files[..|files| - 1]) + |files[|files| - 1].rows|
  }

  /** `combine_csv_files` over already parsed files. */
  function Combine(files: seq<ParsedCsv>): CsvData {
    var headers := CombineHeaders(files);
    var rows := AllRows(files, headers);
    CsvData(headers, rows, |rows|, |headers|)
  }

  /** There is one combined row per input row. */
  lemma {:induction false} AllRowsLength(files: seq<ParsedCsv>, headers: seq<string>)
    ensures |AllRows(files, headers)| == RowCount(files)
  {
    if |files| > 0 {
      AllRowsLength(files[..|files| - 1], headers);
    }
  }

  /** The rows of the first `f` files come first. */
  lemma {:induction false} AllRowsPrefix(files: seq<ParsedCsv>, headers: seq<string>, f: nat)
    requires f <= |files|
    ensures AllRows(files[..f], headers) <= AllRows(files, headers)
  {
    if f == |files| {
      assert files[..f] == files;
    } else {
      var init := files[..|files| - 1];
      AllRowsPrefix(init, headers, f);
      assert init[..f] == files[..f];
    }
  }

  /**
   * Row `k` of file `f` is combined row `RowCount(files[..f]) + k`: the
   * combined rows come file by file, row by row.
   */
  lemma {:induction false} AllRowsOrder(files: seq<ParsedCsv>, headers: seq<string>, f: nat, k: nat)
    requires f < |files| && k < |files[f].rows|
    ensures RowCount(files[..f]) + k < |AllRows(files, headers)| == RowCount(files)
    ensures AllRows(files, headers)[RowCount(files[..f]) + k] == CsvRow(FillRow(headers, files[f].rows[k]))
  {
    var all := AllRows(files, headers);
    var upto := files[..f + 1];
    var before := AllRows(files[..f], headers);
    var rowsOfF := FileRows(headers, files[f].rows);
    AllRowsLength(files[..f], headers);
    AllRowsLength(files, headers);
    assert before + rowsOfF <= all by {
      assert upto[..|upto| - 1] == files[..f];
      assert AllRows(upto, headers) == before + rowsOfF;
      AllRowsPrefix(files, headers, f + 1);
    }
    ConcatPrefixAt(before, rowsOfF, all, k);
  }

  /** When `a + b` starts `c`, element `k` of `b` sits at index `|a| + k` of `c`. */
  lemma {:induction false} ConcatPrefixAt<T>(a: seq<T>, b: seq<T>, c: seq<T>, k: nat)
    requires a + b <= c && k < |b|
    ensures |a| + k < |c| && c[|a| + k] == b[k]
  {
    assert (a + b)[|a| + k] == b[k];
  }

  /**
   * The combined data: every row has exactly the combined headers as keys,
   * the row count is the number of input rows, and the totals are the row
   * and header counts.
   */
  lemma {:induction false} CombineSound(files: seq<ParsedCsv>)
    ensures var d := Combine(files);
      && |d.rows| == RowCount(files)
      && (forall i :: 0 <= i < |d.rows| ==> d.rows[i].data.Keys == set h | h in d.headers)
      && d.totalRows == |d.rows| && d.totalColumns == |d.headers|
  {
    var d := Combine(files);
    AllRowsLength(files, d.headers);
    AllRowsShape(files, d.headers);
  }

  lemma {:induction false} AllRowsShape(files: seq<ParsedCsv>, headers: seq<string>)
    ensures forall i :: 0 <= i < |AllRows(files, headers)| ==>
      AllRows(files, headers)[i].data.Keys == set h | h in headers
  {
    if |files| > 0 {
      AllRowsShape(files[..|files| - 1], headers);
    }
  }

  /** `calculate_csv_stats`: the stored totals, unchanged. */
  function CsvStats(d: CsvData): (r: (int, int))
    ensures r.0 == d.totalRows && r.1 == d.totalColumns
  {
    (d.totalRows, d.totalColumns)
  }

  /** On combined data the stored totals are the actual row and header counts. */
  lemma {:induction false} CombinedStats(files: seq<ParsedCsv>)
    ensures CsvStats(Combine(files)) == (|Combine(files).rows|, |Combine(files).headers|)
  {
  }

  /** The cells of a read row that hold a string. */
  function PresentCells(row: map<string, Option<string>>): (r: map<string, string>)
    ensures forall h :: h in r <==> h in row && row[h].Some?
    ensures forall h :: h in r ==> r[h] == row[h].value
  {
    map h | h in row && row[h].Some? :: row[h].value
  }

  /** A read file with only the cells that hold a string. */
  function Present(f: ReadCsv): (r: ParsedCsv)
    ensures r.headers == f.headers && |r.rows| == |f.rows|
    ensures forall k :: 0 <= k < |f.rows| ==> r.rows[k] == PresentCells(f.rows[k])
  {
    ParsedCsv(f.headers, seq(|f.rows|, k requires 0 <= k < |f.rows| => PresentCells(f.rows[k])))
  }

  function PresentAll(files: seq<ReadCsv>): (r: seq<ParsedCsv>)
    ensures |r| == |files|
    ensures forall f :: 0 <= f < |files| ==> r[f] == Present(files[f])
  {
    seq(|files|, f requires 0 <= f < |files| => Present(files[f]))
  }

  /** Row `k` of file `f` leaves the cell of the combined header `h` as None. */
  predicate MissingCellAt(files: seq<ReadCsv>, f: int, k: int, h: string) {
    && 0 <= f < |files| && 0 <= k < |files[f].rows|
    && h in files[f].rows[k] && files[f].rows[k][h].None?
    && h in CombineHeaders(PresentAll(files))
  }

  /** Some row of some file leaves the cell of a combined header as None. */
  predicate HasMissingCell(files: seq<ReadCsv>) {
    var headers := CombineHeaders(PresentAll(files));
    exists f, k, h | 0 <= f < |files| && 0 <= k < |files[f].rows| && h in files[f].rows[k] ::
      files[f].rows[k][h].None? && h in headers
  }

  /** The `CsvRow` model's validation error on a cell that holds no string. */
  datatype CombineError = CellNotAString

  /**
   * `combine_csv_files` over the reader's output. `row.get(h, "")` passes a
   * None cell through, and building `CsvRow(data=row)` rejects it, since
   * `data` holds strings only; otherwise the files combine as parsed.
   */
  function CombineCsvFiles(files: seq<ReadCsv>): (r: Result<CsvData, CombineError>) {
    if HasMissingCell(files) then Failure(CellNotAString) else Success(Combine(PresentAll(files)))
  }

  /**
   * The combination fails exactly when a row leaves a combined header's cell
   * as None; otherwise it has one row per input row, keyed by the combined
   * headers, and every cell holds the read string, or "" when the row has no
   * such key.
   */
  lemma {:induction false} CombineCsvFilesSpec(files: seq<ReadCsv>)
    ensures var r := CombineCsvFiles(files);
      && (r.Failure? <==> exists f, k, h :: MissingCellAt(files, f, k, h))
      && (r.Success? ==>
        var d := r.value;
        && d.headers == CombineHeaders(PresentAll(files))
        && d.totalRows == |d.rows| == RowCount(PresentAll(files))
        && d.totalColumns == |d.headers|
        && forall f, k :: 0 <= f < |files| && 0 <= k < |files[f].rows| ==>
          RowHolds(d, RowCount(PresentAll(files)[..f]) + k, files[f].rows[k]))
  {
    CombineCsvFilesFails(files);
    if !HasMissingCell(files) {
      CombineCsvFilesSucceeds(files);
    }
  }

  /** The combination fails exactly when some read cell under a combined header is None. */
  lemma {:induction false} CombineCsvFilesFails(files: seq<ReadCsv>)
    ensures CombineCsvFiles(files).Failure? <==> exists f, k, h :: MissingCellAt(files, f, k, h)
  {
    HasMissingCellIff(files);
  }

  /** Without a None cell, the combination succeeds and holds every read row, filled, in order. */
  lemma {:induction false} CombineCsvFilesSucceeds(files: seq<ReadCsv>)
    requires !HasMissingCell(files)
    ensures var r := CombineCsvFiles(files);
      && r.Success?
      && var d := r.value;
        && d.headers == CombineHeaders(PresentAll(files))
        && d.totalRows == |d.rows| == RowCount(PresentAll(files))
        && d.totalColumns == |d.headers|
        && forall f, k :: 0 <= f < |files| && 0 <= k < |files[f].rows| ==>
          RowHolds(d, RowCount(PresentAll(files)[..f]) + k, files[f].rows[k])
  {
    var ps := PresentAll(files);
    var d := Combine(ps);
    AllRowsLength(ps, d.headers);
    CombinedRowsHold(files, ps, d);
  }

  /** Without a None cell, every read row lands, filled, at its place in the combination. */
  lemma {:induction false} CombinedRowsHold(files: seq<ReadCsv>, ps: seq<ParsedCsv>, d: CsvData)
    requires !HasMissingCell(files)
    requires ps == PresentAll(files) && d == Combine(ps)
    ensures forall f, k :: 0 <= f < |files| && 0 <= k < |files[f].rows| ==>
      f <= |ps| && RowHolds(d, RowCount(ps[..f]) + k, files[f].rows[k])
  {
    forall f, k | 0 <= f < |files| && 0 <= k < |files[f].rows|
      ensures f <= |ps| && RowHolds(d, RowCount(ps[..f]) + k, files[f].rows[k])
    {
      CombinedRowHolds(files, ps, d, f, k);
    }
  }

  lemma {:induction false} HasMissingCellIff(files: seq<ReadCsv>)
    ensures HasMissingCell(files) <==> exists f, k, h :: MissingCellAt(files, f, k, h)
  {
    var headers := CombineHeaders(PresentAll(files));
    if HasMissingCell(files) {
      var f, k, h :| 0 <= f < |files| && 0 <= k < |files[f].rows| && h in files[f].rows[k]
        && files[f].rows[k][h].None? && h in headers;
      assert MissingCellAt(files, f, k, h);
    }
    if exists f, k, h :: MissingCellAt(files, f, k, h) {
      var f, k, h :| MissingCellAt(files, f, k, h);
      assert HasMissingCell(files);
    }
  }

  /** Without a None cell, row `k` of file `f` lands, filled, at its place in the combination. */
  lemma {:induction false} CombinedRowHolds(files: seq<ReadCsv>, ps: seq<ParsedCsv>, d: CsvData, f: nat, k: nat)
    requires !HasMissingCell(files)
    requires ps == PresentAll(files) && d == Combine(ps)
    requires f < |files| && k < |files[f].rows|
    ensures f <= |ps| && RowHolds(d, RowCount(ps[..f]) + k, files[f].rows[k])
  {
    RowCellsPresent(files, d.headers, f, k);
    CombinedRowPlace(files, ps, d, f, k);
  }

  /** Row `k` of file `f`, if its cells under the headers are strings, lands, filled, at its place in the combination. */
  lemma {:induction false} CombinedRowPlace(files: seq<ReadCsv>, ps: seq<ParsedCsv>, d: CsvData, f: nat, k: nat)
    requires ps == PresentAll(files) && d == Combine(ps)
    requires f < |files| && k < |files[f].rows|
    requires forall h :: h in d.headers && h in files[f].rows[k] ==> files[f].rows[k][h].Some?
    ensures f < |ps| && RowHolds(d, RowCount(ps[..f]) + k, files[f].rows[k])
  {
    AllRowsOrder(ps, d.headers, f, k);
    assert ps[f].rows[k] == PresentCells(files[f].rows[k]);
    var i := RowCount(ps[..f]) + k;
    FillHolds(d.headers, files[f].rows[k], d.rows[i].data);
  }

  /** Without a None cell, every cell of a read row under a combined header holds a string. */
  lemma {:induction false} RowCellsPresent(files: seq<ReadCsv>, headers: seq<string>, f: nat, k: nat)
    requires !HasMissingCell(files)
    requires headers == CombineHeaders(PresentAll(files))
    requires f < |files| && k < |files[f].rows|
    ensures forall h :: h in headers && h in files[f].rows[k] ==> files[f].rows[k][h].Some?
  {
    forall h | h in headers && h in files[f].rows[k] ensures files[f].rows[k][h].Some? {
      NoMissingCell(files, f, k, h);
    }
  }

  /** Without a None cell, every read cell under a combined header holds a string. */
  lemma {:induction false} NoMissingCell(files: seq<ReadCsv>, f: nat, k: nat, h: string)
    requires !HasMissingCell(files)
    requires f < |files| && k < |files[f].rows| && h in files[f].rows[k]
    requires h in CombineHeaders(PresentAll(files))
    ensures files[f].rows[k][h].Some?
  {
  }

  /**
   * Combined row `i` holds the read `row`: exactly the combined headers as
   * keys, each cell of the row a string, carried over, and "" under a header
   * the row lacks.
   */
  ghost predicate RowHolds(d: CsvData, i: int, row: map<string, Option<string>>) {
    0 <= i < |d.rows| && CellsHold(d.headers, d.rows[i].data, row)
  }

  /**
   * `data` holds the read `row` under `headers`: exactly the headers as keys,
   * each of the row's cells a string, carried over, and "" under a header the
   * row lacks.
   */
  ghost predicate CellsHold(headers: seq<string>, data: map<string, string>, row: map<string, Option<string>>) {
    && data.Keys == set h | h in headers
    && forall h :: h in headers ==>
      && h in data
      && (h in row ==> row[h].Some? && data[h] == row[h].value)
      && (h !in row ==> data[h] == "")
  }

  /** Filling the string cells of a row without None cells under `headers` holds the row. */
  lemma {:induction false} FillHolds(headers: seq<string>, row: map<string, Option<string>>, data: map<string, string>)
    requires forall h :: h in headers && h in row ==> row[h].Some?
    requires data == FillRow(headers, PresentCells(row))
    ensures CellsHold(headers, data, row)
  {
  }

  /**
   * A short row of any file fails the whole combination: a None cell under
   * one of its own file's headers.
   */
  lemma {:induction false} ShortRowRejected(files: seq<ReadCsv>, f: nat, k: nat, h: string)
    requires f < |files| && k < |files[f].rows|
    requires h in files[f].headers && h in files[f].rows[k] && files[f].rows[k][h].None?
    ensures CombineCsvFiles(files).Failure?
  {
    var ps := PresentAll(files);
    CombineHeadersSpec(ps);
    assert h in ps[f].headers;
    assert MissingCellAt(files, f, k, h);
  }

  /** Files without a None cell combine exactly as their parsed form. */
  lemma {:induction false} CompleteFilesCombine(files: seq<ReadCsv>)
    requires forall f, k, h :: 0 <= f < |files| && 0 <= k < |files[f].rows| && h in files[f].rows[k] ==>
      files[f].rows[k][h].Some?
    ensures CombineCsvFiles(files) == Success(Combine(PresentAll(files)))
  {
  }

  // ---------------------------------------------------------------------------
  // parse_header_hierarchy and csv_to_hierarchical
  // ---------------------------------------------------------------------------

  /** `parse_header_hierarchy`: the header split on `_`. */
  function ParseHeaderHierarchy(header: string): (parts: seq<string>)
    ensures |parts| >= 1
    ensures forall i :: 0 <= i < |parts| ==> '_' !in parts[i]
    ensures Join(parts, '_') == header
  {
    Split(header, '_')
  }

  /** A header without `_` is a single level; segments joined by `_` split back into themselves. */
  lemma {:induction false} HeaderHierarchyRoundTrip(header: string, parts: seq<string>)
    requires |parts| >= 1 && forall i :: 0 <= i < |parts| ==> '_' !in parts[i]
    ensures '_' !in header ==> ParseHeaderHierarchy(header) == [header]
    ensures ParseHeaderHierarchy(Join(parts, '_')) == parts
  {
    if '_' !in header {
      SplitWithoutSeparator(header, '_');
    }
    SplitJoin(parts, '_');
  }

  /** The segment lists of all headers. */
  function HeaderParts(headers: seq<string>): (r: seq<Segments>)
    ensures |r| == |headers|
    ensures forall j :: 0 <= j < |headers| ==> r[j] == ParseHeaderHierarchy(headers[j])
  {
    seq(|headers|, j requires 0 <= j < |headers| => ParseHeaderHierarchy(headers[j]))
  }

  /** The path of the node for a non-empty prefix: a slash before each segment. */
  function NodePath(prefix: Segments): string
    requires |prefix| >= 1
  {
    "/" + Join(prefix, '/')
  }

  /**
   * The path as the source computes it: `/` and the segment at the top level,
   * else the parent's path, a slash and the segment, except that a parent
   * whose path is exactly "/root" is mistaken for the root node.
   */
  function NodePathAsWritten(prefix: Segments): string
    requires |prefix| >= 1
  {
    var last := prefix[|prefix| - 1];
    if |prefix| == 1 then "/" + last
    else
      var parentPath := NodePathAsWritten(prefix[..|prefix| - 1]);
      if parentPath != "/root" then parentPath + "/" + last else "/" + last
  }

  /** A child's path is its parent's path, a slash and its name. */
  lemma {:induction false} ChildPathExtendsParent(prefix: Segments, x: string)
    requires |prefix| >= 1
    ensures NodePath(prefix + [x]) == NodePath(prefix) + "/" + x
  {
    JoinSnoc(prefix, x, '/');
  }

  /** Distinct prefixes whose segments hold no slash have distinct paths. */
  lemma {:induction false} NodePathInjective(p: Segments, q: Segments)
    requires |p| >= 1 && |q| >= 1
    requires forall i :: 0 <= i < |p| ==> '/' !in p[i]
    requires forall i :: 0 <= i < |q| ==> '/' !in q[i]
    requires NodePath(p) == NodePath(q)
    ensures p == q
  {
    assert Join(p, '/') == NodePath(p)[1..];
    assert Join(q, '/') == NodePath(q)[1..];
    SplitJoin(p, '/');
    SplitJoin(q, '/');
  }

  /** The source's path and the corrected one agree unless the first segment is "root". */
  lemma {:induction false} AsWrittenAgrees(prefix: Segments)
    requires |prefix| >= 1 && prefix[0] != "root"
    ensures NodePathAsWritten(prefix) == NodePath(prefix)
  {
    if |prefix| == 1 {
      assert Join(prefix, '/') == prefix[0];
    } else {
      var init := prefix[..|prefix| - 1];
      AsWrittenAgrees(init);
      assert prefix == init + [prefix[|prefix| - 1]];
      ChildPathExtendsParent(init, prefix[|prefix| - 1]);
      NotRootPath(init);
    }
  }

  /** A prefix whose first segment is not "root" never has the path "/root". */
  lemma {:induction false} NotRootPath(prefix: Segments)
    requires |prefix| >= 1 && prefix[0] != "root"
    ensures NodePath(prefix) != "/root"
  {
    var j := Join(prefix, '/');
    JoinStartsWithFirst(prefix, '/');
    assert ("/" + j)[1..] == j;
    assert "/root"[1..] == "root";
    if |prefix| > 1 {
      assert j[|prefix[0]|] == '/';
      assert '/' in j;
      assert '/' !in "root";
    } else {
      assert j == prefix[0];
    }
  }

  /** A join starts with its first piece, followed by the separator when more pieces follow. */
  lemma {:induction false} JoinStartsWithFirst(parts: seq<string>, sep: char)
    requires |parts| >= 1
    ensures |Join(parts, sep)| >= |parts[0]|
    ensures Join(parts, sep)[..|parts[0]|] == parts[0]
    ensures |parts| > 1 ==> |Join(parts, sep)| > |parts[0]| && Join(parts, sep)[|parts[0]|] == sep
    ensures |parts| == 1 ==> Join(parts, sep) == parts[0]
  {
  }

  /**
   * The collision the source's path rule causes: for the headers `root_x`
   * and `x` it gives the distinct nodes `root/x` and `x` the same path "/x".
   */
  lemma {:induction false} AsWrittenPathsCollide()
    ensures ParseHeaderHierarchy("root_x") == ["root", "x"]
    ensures ParseHeaderHierarchy("x") == ["x"]
    ensures NodePathAsWritten(["root", "x"]) == "/x" == NodePathAsWritten(["x"])
    ensures NodePath(["root", "x"]) == "/root/x" != NodePath(["x"])
  {
    HeadersOfCollision();
    PathsOfCollision();
  }

  /** How the two colliding headers split. */
  lemma {:induction false} HeadersOfCollision()
    ensures ParseHeaderHierarchy("root_x") == ["root", "x"]
    ensures ParseHeaderHierarchy("x") == ["x"]
  {
    assert Join(["root", "x"], '_') == "root_x";
    SplitJoin(["root", "x"], '_');
    SplitWithoutSeparator("x", '_');
  }

  /** The paths of the two colliding nodes, as written and corrected. */
  lemma {:induction false} PathsOfCollision()
    ensures NodePathAsWritten(["root", "x"]) == "/x" == NodePathAsWritten(["x"])
    ensures NodePath(["root", "x"]) == "/root/x" != NodePath(["x"])
  {
    assert ["root", "x"][..1] == ["root"];
    assert Join(["root", "x"], '/') == "root/x";
  }

  /** The node for `prefix` and its subtree: structure only, every value None. */
  function BuildNode(partss: seq<Segments>, prefix: Segments): CsvNode
    requires |prefix| >= 1
    decreases MaxLen(partss) - |prefix|, 1, 0
  {
    CsvNode(
      prefix[|prefix| - 1],
      NodePath(prefix),
      None,
      BuildAll(partss, prefix, ChildNames(partss, prefix)),
      map[])
  }

  /** The nodes for the children `names` of `prefix`, in order. */
  function BuildAll(partss: seq<Segments>, prefix: Segments, names: seq<string>): seq<CsvNode>
    requires |names| > 0 ==> |prefix| < MaxLen(partss)
    decreases MaxLen(partss) - |prefix|, 0, |names|
  {
    if |names| == 0 then [] else [BuildNode(partss, prefix + [names[0]])] + BuildAll(partss, prefix, names[1..])
  }

  /**
   * `csv_to_hierarchical`: the "root" node over the header trie. Paths follow
   * the corrected rule `NodePath`; they differ from the source's only below a
   * first segment named "root".
   */
  function ToHierarchical(d: CsvData): CsvNode {
    var partss := HeaderParts(d.headers);
    CsvNode("root", "/root", None, BuildAll(partss, [], ChildNames(partss, [])), map[])
  }

  // ---------------------------------------------------------------------------
  // flatten_csv_node
  // ---------------------------------------------------------------------------

  /** The record `flatten_csv_node` emits for one node. */
  datatype CsvRecord = CsvRecord(path: string, name: string, value: Option<string>, attributes: map<string, string>)

  function RecordOf(n: CsvNode): CsvRecord {
    CsvRecord(n.path, n.name, n.value, n.attributes)
  }

  /** `flatten_csv_node`: the node's record, then each child's flattening in order. */
  function FlattenCsv(n: CsvNode): seq<CsvRecord>
    decreases n, 1
  {
    [RecordOf(n)] + FlattenCsvAll(n.children)
  }

  function FlattenCsvAll(ns: seq<CsvNode>): seq<CsvRecord>
    decreases ns, 0
  {
    if |ns| == 0 then [] else FlattenCsv(ns[0]) + FlattenCsvAll(ns[1..])
  }

  /** The nodes of a tree in pre-order. */
  function CsvNodes(n: CsvNode): seq<CsvNode>
    decreases n, 1
  {
    [n] + CsvNodesAll(n.children)
  }

  function CsvNodesAll(ns: seq<CsvNode>): seq<CsvNode>
    decreases ns, 0
  {
    if |ns| == 0 then [] else CsvNodes(ns[0]) + CsvNodesAll(ns[1..])
  }

  /** The number of nodes of a tree: one plus the sizes of the children. */
  function Size(n: CsvNode): nat
    decreases n, 1
  {
    1 + SizeAll(n.children)
  }

  function SizeAll(ns: seq<CsvNode>): nat
    decreases ns, 0
  {
    if |ns| == 0 then 0 else Size(ns[0]) + SizeAll(ns[1..])
  }

  /** Flattening lists one record per node, in pre-order, as many as the tree has nodes. */
  lemma {:induction false} FlattenCsvIsPreorder(n: CsvNode)
    ensures |FlattenCsv(n)| == |CsvNodes(n)| == Size(n)
    ensures forall i :: 0 <= i < |CsvNodes(n)| ==> FlattenCsv(n)[i] == RecordOf(CsvNodes(n)[i])
    decreases n, 1
  {
    FlattenCsvAllIsPreorder(n.children);
  }

  lemma {:induction false} FlattenCsvAllIsPreorder(ns: seq<CsvNode>)
    ensures |FlattenCsvAll(ns)| == |CsvNodesAll(ns)| == SizeAll(ns)
    ensures forall i :: 0 <= i < |CsvNodesAll(ns)| ==> FlattenCsvAll(ns)[i] == RecordOf(CsvNodesAll(ns)[i])
    decreases ns, 0
  {
    if |ns| > 0 {
      FlattenCsvIsPreorder(ns[0]);
      FlattenCsvAllIsPreorder(ns[1..]);
    }
  }

  // ---------------------------------------------------------------------------
  // The tree's shape
  // ---------------------------------------------------------------------------

  /**
   * Node `i` of `ns` stands for prefix `i` of `ks`: it is named by the
   * prefix's last segment, carries the prefix's path and has no value.
   */
  ghost predicate Aligned(ns: seq<CsvNode>, ks: seq<Segments>) {
    && |ns| == |ks|
    && forall i :: 0 <= i < |ns| ==>
      |ks[i]| >= 1 && ns[i].name == ks[i][|ks[i]| - 1] && ns[i].path == NodePath(ks[i]) && ns[i].value.None?
  }

  lemma {:induction false} AlignedConcat(n1: seq<CsvNode>, k1: seq<Segments>, n2: seq<CsvNode>, k2: seq<Segments>)
    requires Aligned(n1, k1) && Aligned(n2, k2)
    ensures Aligned(n1 + n2, k1 + k2)
  {
    forall i | 0 <= i < |n1 + n2| ensures |(k1 + k2)[i]| >= 1 {
      if i < |n1| {
        assert (n1 + n2)[i] == n1[i] && (k1 + k2)[i] == k1[i];
      } else {
        assert (n1 + n2)[i] == n2[i - |n1|] && (k1 + k2)[i] == k2[i - |n1|];
      }
    }
  }

  /**
   * The tree below `prefix` has one node per listed prefix, in the same
   * pre-order.
   */
  lemma {:induction false} BuildNodeMatchesKeys(partss: seq<Segments>, prefix: Segments)
    requires |prefix| >= 1
    ensures Aligned(CsvNodes(BuildNode(partss, prefix)), Keys(partss, prefix))
    decreases MaxLen(partss) - |prefix|, 1, 0
  {
    var names := ChildNames(partss, prefix);
    var n := BuildNode(partss, prefix);
    var below, ks := CsvNodesAll(n.children), KeysOf(partss, prefix, names);
    assert Aligned([n] + below, [prefix] + ks) by {
      BuildAllMatchesKeys(partss, prefix, names);
      assert Aligned([n], [prefix]);
      AlignedConcat([n], [prefix], below, ks);
    }
    assert CsvNodes(n) == [n] + below;
    assert Keys(partss, prefix) == [prefix] + ks;
  }

  lemma {:induction false} BuildAllMatchesKeys(partss: seq<Segments>, prefix: Segments, names: seq<string>)
    requires |names| > 0 ==> |prefix| < MaxLen(partss)
    ensures Aligned(CsvNodesAll(BuildAll(partss, prefix, names)), KeysOf(partss, prefix, names))
    decreases MaxLen(partss) - |prefix|, 0, |names|
  {
    if |names| > 0 {
      var child := prefix + [names[0]];
      var built := BuildAll(partss, prefix, names);
      assert built[0] == BuildNode(partss, child);
      assert built[1..] == BuildAll(partss, prefix, names[1..]);
      BuildNodeMatchesKeys(partss, child);
      BuildAllMatchesKeys(partss, prefix, names[1..]);
      AlignedConcat(CsvNodes(built[0]), Keys(partss, child), CsvNodesAll(built[1..]), KeysOf(partss, prefix, names[1..]));
    }
  }

  /** The node list built for `names` has one node per name, named after it. */
  lemma {:induction false} BuildAllNames(partss: seq<Segments>, prefix: Segments, names: seq<string>)
    requires |names| > 0 ==> |prefix| < MaxLen(partss)
    ensures |BuildAll(partss, prefix, names)| == |names|
    ensures forall i :: 0 <= i < |names| ==> BuildAll(partss, prefix, names)[i].name == names[i]
    decreases |names|
  {
    if |names| > 0 {
      var first := BuildNode(partss, prefix + [names[0]]);
      var rest := BuildAll(partss, prefix, names[1..]);
      BuildAllNames(partss, prefix, names[1..]);
      ConsNames(first, rest, names);
      assert BuildAll(partss, prefix, names) == [first] + rest;
    }
  }

  /** A node named after the first name, before nodes named after the rest. */
  lemma {:induction false} ConsNames(first: CsvNode, rest: seq<CsvNode>, names: seq<string>)
    requires |names| >= 1 && first.name == names[0]
    requires |rest| == |names| - 1 && forall i :: 0 <= i < |rest| ==> rest[i].name == names[i + 1]
    ensures |[first] + rest| == |names|
    ensures forall i :: 0 <= i < |names| ==> ([first] + rest)[i].name == names[i]
  {
  }

  /**
   * `csv_to_hierarchical`, built with the corrected path rule: the root is
   * "root" at "/root"; its children are the distinct first segments in
   * first-seen order; below it, every non-empty header prefix has exactly one
   * node, in pre-order, named by its last segment, at its path, and no node
   * holds a value. Every node whose first segment is not "root" carries the
   * path the source computes.
   */
  lemma {:induction false} HierarchicalShape(d: CsvData)
    ensures var t := ToHierarchical(d);
      var partss := HeaderParts(d.headers);
      && t.name == "root" && t.path == "/root" && t.value.None?
      && |t.children| == |ChildNames(partss, [])|
      && (forall i :: 0 <= i < |t.children| ==> t.children[i].name == ChildNames(partss, [])[i])
      && var ks := KeysOf(partss, [], ChildNames(partss, []));
      && Aligned(CsvNodesAll(t.children), ks)
      && NoDup(ks)
      && (forall q :: q in ks <==> |q| >= 1 && IsHeaderPrefix(partss, q))
      && (forall i :: 0 <= i < |ks| && ks[i][0] != "root" ==>
        CsvNodesAll(t.children)[i].path == NodePathAsWritten(ks[i]))
  {
    var partss := HeaderParts(d.headers);
    var names := ChildNames(partss, []);
    var ks := KeysOf(partss, [], names);
    var ns := CsvNodesAll(ToHierarchical(d).children);
    BuildAllNames(partss, [], names);
    BuildAllMatchesKeys(partss, [], names);
    NodesAreDistinctPrefixes(partss);
    forall i | 0 <= i < |ks| && ks[i][0] != "root" ensures ns[i].path == NodePathAsWritten(ks[i]) {
      AsWrittenAgrees(ks[i]);
    }
  }

  /** The root's children are the distinct first segments, in the order headers first use them. */
  lemma {:induction false} RootChildrenFirstSeen(d: CsvData)
    ensures var partss := HeaderParts(d.headers);
      var firsts := ChildNames(partss, []);
      && NoDup(firsts)
      && (forall x :: x in firsts <==> exists j :: 0 <= j < |d.headers| && ParseHeaderHierarchy(d.headers[j])[0] == x)
      && FirstSeenOrder(firsts, Seen(partss, []))
  {
    var partss := HeaderParts(d.headers);
    ChildNamesSpec(partss, []);
    forall x ensures IsHeaderPrefix(partss, [] + [x]) <==>
      exists j :: 0 <= j < |d.headers| && ParseHeaderHierarchy(d.headers[j])[0] == x
    {
      if IsHeaderPrefix(partss, [] + [x]) {
        var j :| 0 <= j < |partss| && Extends(partss[j], [] + [x]);
        ExtendsSnoc(partss[j], [], x);
      }
      if exists j :: 0 <= j < |d.headers| && ParseHeaderHierarchy(d.headers[j])[0] == x {
        var j :| 0 <= j < |d.headers| && ParseHeaderHierarchy(d.headers[j])[0] == x;
        ExtendsSnoc(partss[j], [], x);
      }
    }
  }

  // ---------------------------------------------------------------------------
  // search_csv_data
  // ---------------------------------------------------------------------------

  /** The fields searched when the caller names none. */
  const AllCsvFields: seq<string> := ["header", "value"]

  /** Some header contains the query, case-insensitively. */
  predicate HeaderHit(headers: seq<string>, query: string) {
    exists i | 0 <= i < |headers| :: ContainsIgnoreCase(headers[i], query)
  }

  /** Some non-empty cell of the row contains the query, case-insensitively. */
  predicate ValueHit(row: map<string, string>, query: string) {
    exists k | k in row :: row[k] != "" && ContainsIgnoreCase(row[k], query)
  }

  /** A row matches through the headers or through its own non-empty values. */
  predicate RowMatches(headers: seq<string>, row: CsvRow, query: string, fields: seq<string>) {
    ("header" in fields && HeaderHit(headers, query)) || ("value" in fields && ValueHit(row.data, query))
  }

  /** The row test as a function value, for filtering. */
  function Matcher(headers: seq<string>, query: string, fields: seq<string>): CsvRow -> bool {
    r => RowMatches(headers, r, query, fields)
  }

  /** The cells of each row. */
  function Datas(rows: seq<CsvRow>): (r: seq<map<string, string>>)
    ensures |r| == |rows|
    ensures forall i :: 0 <= i < |rows| ==> r[i] == rows[i].data
  {
    seq(|rows|, i requires 0 <= i < |rows| => rows[i].data)
  }

  /** The header scan, stopping at the first header that contains the query. */
  method FindHeader(headers: seq<string>, query: string) returns (found: bool)
    ensures found == HeaderHit(headers, query)
  {
    found := false;
    var j := 0;
    while j < |headers|
      invariant 0 <= j <= |headers|
      invariant !found
      invariant forall k :: 0 <= k < j ==> !ContainsIgnoreCase(headers[k], query)
    {
      if ContainsIgnoreCase(headers[j], query) {
        return true;
      }
      j := j + 1;
    }
  }

  /**
   * `search_csv_data(data, query, search_in)`: the cells of the matching rows,
   * in row order; `None` searches headers and values.
   */
  method SearchCsvData(d: CsvData, query: string, searchIn: Option<seq<string>>)
    returns (matches: seq<map<string, string>>)
    ensures matches == Datas(Filter(d.rows, Matcher(d.headers, query, searchIn.GetOr(AllCsvFields))))
  {
    var fields := searchIn.GetOr(AllCsvFields);
    ghost var p := Matcher(d.headers, query, fields);
    matches := [];
    var i := 0;
    while i < |d.rows|
      invariant 0 <= i <= |d.rows|
      invariant matches == Datas(Filter(d.rows[..i], p))
    {
      var row := d.rows[i];
      var found := false;
      if "header" in fields {
        found := FindHeader(d.headers, query);
      }
      if "value" in fields && !found {
        found := ValueHit(row.data, query);
      }
      assert found == p(row);
      SearchStep(d.rows, i, p);
      if found {
        DatasSnoc(Filter(d.rows[..i], p), row);
        matches := matches + [row.data];
      }
      i := i + 1;
    }
    assert d.rows[..i] == d.rows;
  }

  /** One more row of the scan: the filtered prefix grows by the row exactly when it matches. */
  lemma {:induction false} SearchStep(rows: seq<CsvRow>, i: nat, p: CsvRow -> bool)
    requires i < |rows|
    ensures Filter(rows[..i + 1], p) == Filter(rows[..i], p) + (if p(rows[i]) then [rows[i]] else [])
  {
    assert rows[..i + 1] == rows[..i] + [rows[i]];
    FilterSnoc(rows[..i], rows[i], p);
  }

  /** The cells of one more row follow the cells of the rows before it. */
  lemma {:induction false} DatasSnoc(rows: seq<CsvRow>, r: CsvRow)
    ensures Datas(rows + [r]) == Datas(rows) + [r.data]
  {
  }

  /** Filtering a sequence extended by one element. */
  lemma {:induction false} FilterSnoc<T(!new)>(s: seq<T>, x: T, p: T -> bool)
    ensures Filter(s + [x], p) == Filter(s, p) + (if p(x) then [x] else [])
  {
    FilterConcat(s, [x], p);
    assert [x][1..] == [];
  }

  /** Filtering with a predicate every element meets keeps everything. */
  lemma {:induction false} FilterKeepsAll<T(!new)>(s: seq<T>, p: T -> bool)
    requires forall i :: 0 <= i < |s| ==> p(s[i])
    ensures Filter(s, p) == s
  {
    if |s| > 0 {
      FilterKeepsAll(s[1..], p);
    }
  }

  /**
   * When headers are searched and a header contains the query, every row is
   * returned; a row whose cells are all empty is returned only through the
   * headers.
   */
  lemma {:induction false} SearchByHeaderReturnsAll(d: CsvData, query: string, fields: seq<string>)
    ensures "header" in fields && HeaderHit(d.headers, query) ==>
      Filter(d.rows, Matcher(d.headers, query, fields)) == d.rows
    ensures forall r :: r in d.rows && (forall k | k in r.data :: r.data[k] == "") ==>
      (r in Filter(d.rows, Matcher(d.headers, query, fields)) <==> "header" in fields && HeaderHit(d.headers, query))
  {
    if "header" in fields && HeaderHit(d.headers, query) {
      FilterKeepsAll(d.rows, Matcher(d.headers, query, fields));
    }
  }

  // ---------------------------------------------------------------------------
  // validate_csv_size
  // ---------------------------------------------------------------------------

  /** `validate_csv_size`, given the content's UTF-8 length in bytes. */
  function ValidateCsvSize(sizeBytes: nat, maxMb: int): (r: Result<bool, SizeLimits.SizeError>)
    ensures r.Success? <==> (sizeBytes as real) / (SizeLimits.BytesPerMb as real) <= maxMb as real
    ensures r.Success? ==> r.value
  {
    SizeLimits.ValidateSize(sizeBytes, maxMb)
  }
}

=== FILE: csv_query.dfy ===
/**
 * Row queries over a stored import (backend/services/csv_query.py):
 * AND-combined column filters, OR-combined column search, ordering by
 * `row_index`, the OFFSET/LIMIT page window and the normalisation of each
 * row's stored data. The database is a value; SQL `LIKE '%v%'` and JSON
 * decoding are parameters.
 */
module CsvQuery {
  import opened Wrappers
  import opened Sequences
  import opened Sorting

  // ---------------------------------------------------------------------------
  // Data model
  // ---------------------------------------------------------------------------

  /** A stored `row_data` value: an object, a JSON text, or anything else. */
  datatype RowData = ObjectData(fields: map<string, string>) | TextData(text: string) | OtherData

  /** A stored row of an import. */
  datatype StoredRow = StoredRow(importId: int, rowIndex: int, data: RowData)

  /** The database: the headers of each import by id, and all stored rows. */
  datatype Db = Db(imports: map<int, seq<string>>, rows: seq<StoredRow>)

  /** A decoded JSON value: an object with string fields, or some other JSON value. */
  datatype JsonValue = JsonObject(fields: map<string, string>) | JsonOther

  /** `search_csv_rows` raises when the import does not exist. */
  datatype QueryError = ImportNotFound(importId: int)

  /** `LIKE '%pattern%'` on a cell's text, as the database evaluates it. */
  type Like = (string, string) -> bool

  /** JSON decoding of a text: `None` when it is not valid JSON. */
  type Decoder = string -> Option<JsonValue>

  // ---------------------------------------------------------------------------
  // Row predicates
  // ---------------------------------------------------------------------------

  /**
   * `json_extract(row_data, '$.column')`: the cell when the stored data is an
   * object holding the column, else SQL NULL.
   */
  function Cell(row: StoredRow, column: string): Option<string> {
    if row.data.ObjectData? && column in row.data.fields then Some(row.data.fields[column]) else None
  }

  /** One `json_extract(...) LIKE '%value%'` condition; NULL never matches. */
  predicate CellLike(row: StoredRow, column: string, value: string, like: Like) {
    Cell(row, column).Some? && like(Cell(row, column).value, value)
  }

  /** The conditions the filter loop adds, one per filter with a non-empty value, chained with AND. */
  predicate FilterChain(row: StoredRow, filters: seq<(string, string)>, like: Like) {
    if |filters| == 0 then true
    else
      var (column, value) := filters[0];
      (value == "" || CellLike(row, column, value, like)) && FilterChain(row, filters[1..], like)
  }

  /** A row passes the filters when it meets every filter whose value is non-empty. */
  predicate PassesFilters(row: StoredRow, filters: seq<(string, string)>, like: Like) {
    forall i :: 0 <= i < |filters| && filters[i].1 != "" ==> CellLike(row, filters[i].0, filters[i].1, like)
  }

  /** The chained conditions hold exactly when every non-empty filter holds. */
  lemma {:induction false} FilterChainIsConjunction(row: StoredRow, filters: seq<(string, string)>, like: Like)
    ensures FilterChain(row, filters, like) <==> PassesFilters(row, filters, like)
  {
    if |filters| > 0 {
      FilterChainIsConjunction(row, filters[1..], like);
      assert forall i :: 1 <= i < |filters| ==> filters[i] == filters[1..][i - 1];
    }
  }

  /** `or_(*conditions)` over the search columns. */
  predicate SearchChain(row: StoredRow, columns: seq<string>, text: string, like: Like) {
    if |columns| == 0 then false
    else CellLike(row, columns[0], text, like) || SearchChain(row, columns[1..], text, like)
  }

  /** A row matches the search when some search column matches; no column means no condition. */
  predicate MatchesSearch(row: StoredRow, columns: seq<string>, text: string, like: Like) {
    |columns| == 0 || exists i :: 0 <= i < |columns| && CellLike(row, columns[i], text, like)
  }

  /** The OR of the column conditions holds exactly when some column matches. */
  lemma {:induction false} SearchChainIsDisjunction(row: StoredRow, columns: seq<string>, text: string, like: Like)
    ensures SearchChain(row, columns, text, like) <==>
      exists i :: 0 <= i < |columns| && CellLike(row, columns[i], text, like)
  {
    if |columns| > 0 {
      SearchChainIsDisjunction(row, columns[1..], text, like);
      assert forall i :: 1 <= i < |columns| ==> columns[i] == columns[1..][i - 1];
    }
  }

  // ---------------------------------------------------------------------------
  // Ordering and the page window
  // ---------------------------------------------------------------------------

  /** `ORDER BY row_index`. */
  function ByRowIndex(): (StoredRow, StoredRow) -> bool {
    (a: StoredRow, b: StoredRow) => a.rowIndex <= b.rowIndex
  }

  lemma {:induction false} ByRowIndexIsTotalPreorder()
    ensures TotalPreorder(ByRowIndex())
  {
  }

  /** The rows in `row_index` order. */
  function OrderByRowIndex(rows: seq<StoredRow>): (r: seq<StoredRow>)
    ensures multiset(r) == multiset(rows)
    ensures forall i, j :: 0 <= i < j < |r| ==> r[i].rowIndex <= r[j].rowIndex
  {
    ByRowIndexIsTotalPreorder();
    var r := SortBy(rows, ByRowIndex());
    assert forall i, j :: 0 <= i < j < |r| ==> ByRowIndex()(r[i], r[j]);
    r
  }

  /**
   * `OFFSET offset LIMIT limit`: a negative offset skips nothing and a
   * negative limit does not bound the result.
   */
  function Window<T>(s: seq<T>, offset: int, limit: int): (r: seq<T>)
    ensures var start := if offset < 0 then 0 else if offset > |s| then |s| else offset;
      && start + |r| <= |s|
      && r == s[start..start + |r|]
      && (limit < 0 ==> |r| == |s| - start)
      && (limit >= 0 ==> |r| == if limit < |s| - start then limit else |s| - start)
  {
    var start := if offset < 0 then 0 else if offset > |s| then |s| else offset;
    var rest := s[start..];
    if limit < 0 || limit > |rest| then rest else rest[..limit]
  }

  // ---------------------------------------------------------------------------
  // Normalisation
  // ---------------------------------------------------------------------------

  /**
   * What the loop appends for a fetched row: an object as it is, a text as
   * it decodes (an empty object when it does not decode), anything else as
   * an empty object.
   */
  function Normalize(data: RowData, decode: Decoder): (r: JsonValue)
    ensures data.ObjectData? ==> r == JsonObject(data.fields)
    ensures data.OtherData? ==> r == JsonObject(map[])
    ensures data.TextData? && decode(data.text).None? ==> r == JsonObject(map[])
    ensures data.TextData? && decode(data.text).Some? ==> r == decode(data.text).value
  {
    match data
    case ObjectData(fields) => JsonObject(fields)
    case TextData(text) => if decode(text).Some? then decode(text).value else JsonObject(map[])
    case OtherData => JsonObject(map[])
  }

  /** The result is an object unless the data is a text that decodes to something else. */
  lemma {:induction false} NormalizeIsObject(data: RowData, decode: Decoder)
    ensures Normalize(data, decode).JsonOther? <==>
      data.TextData? && decode(data.text) == Some(JsonOther)
  {
  }

  /** The normalised data of each fetched row, in order. */
  function NormalizeAll(rows: seq<StoredRow>, decode: Decoder): (r: seq<JsonValue>)
    ensures |r| == |rows|
    ensures forall i :: 0 <= i < |rows| ==> r[i] == Normalize(rows[i].data, decode)
  {
    if |rows| == 0 then [] else [Normalize(rows[0].data, decode)] + NormalizeAll(rows[1..], decode)
  }

  // ---------------------------------------------------------------------------
  // query_csv_rows and search_csv_rows
  // ---------------------------------------------------------------------------


  /** The rows of a page of `pageSize` rows: offset `(page - 1) * pageSize`. */
  function PageOf<T>(s: seq<T>, page: int, pageSize: int): seq<T> {
    Window(s, (page - 1) * pageSize, pageSize)
  }

  /** A page of rows with the number of rows all pages hold together. */
  datatype RowsPage = RowsPage(rows: seq<JsonValue>, totalCount: nat)

  /** The filter a `query_csv_rows` call applies, as a function value. */
  function FilterMatcher(importId: int, filters: seq<(string, string)>, like: Like): StoredRow -> bool {
    (r: StoredRow) => r.importId == importId && FilterChain(r, filters, like)
  }

  /** `query_csv_rows(db, import_id, page, page_size, filters)`. */
  function QueryCsvRows(db: Db, importId: int, page: int, pageSize: int, filters: seq<(string, string)>, like: Like, decode: Decoder): RowsPage {
    var matching := Filter(db.rows, FilterMatcher(importId, filters, like));
    RowsPage(NormalizeAll(PageOf(OrderByRowIndex(matching), page, pageSize), decode), |matching|)
  }

  /**
   * The rows `query_csv_rows` returns are the normalised page window of the
   * import's rows that pass every non-empty filter, in `row_index` order; the
   * page holds at most `page_size` rows; the total counts every passing row
   * whatever the page.
   */
  lemma {:induction false} QueryCsvRowsSpec(db: Db, importId: int, page: int, pageSize: int, filters: seq<(string, string)>, like: Like, decode: Decoder)
    ensures var result := QueryCsvRows(db, importId, page, pageSize, filters, like, decode);
      var matching := Filter(db.rows, FilterMatcher(importId, filters, like));
      && (forall r :: r in matching <==> r in db.rows && r.importId == importId && PassesFilters(r, filters, like))
      && result.totalCount == |matching|
      && (pageSize >= 0 ==> |result.rows| <= pageSize)
      && result.rows == NormalizeAll(PageOf(OrderByRowIndex(matching), page, pageSize), decode)
      && forall p, q :: QueryCsvRows(db, importId, p, q, filters, like, decode).totalCount == result.totalCount
  {
    forall r ensures FilterChain(r, filters, like) <==> PassesFilters(r, filters, like) {
      FilterChainIsConjunction(r, filters, like);
    }
  }

  /** `get_row_count(db, import_id, filters)`: the rows of the import that pass the filters. */
  function GetRowCount(db: Db, importId: int, filters: seq<(string, string)>, like: Like): nat {
    |Filter(db.rows, FilterMatcher(importId, filters, like))|
  }

  /** The stand-alone count is the total a query with the same filters reports, for any page. */
  lemma {:induction false} GetRowCountAgrees(db: Db, importId: int, filters: seq<(string, string)>, like: Like, decode: Decoder, page: int, pageSize: int)
    ensures GetRowCount(db, importId, filters, like) == QueryCsvRows(db, importId, page, pageSize, filters, like, decode).totalCount
    ensures GetRowCount(db, importId, filters, like) <= |db.rows|
  {
  }

  /** The columns a search looks in: the requested ones, or the import's headers when none are given. */
  function SearchColumns(columns: Option<seq<string>>, headers: seq<string>): seq<string> {
    if columns.Some? && |columns.value| > 0 then columns.value else headers
  }

  /** The search a `search_csv_rows` call applies, as a function value. */
  function SearchMatcher(importId: int, columns: seq<string>, text: string, like: Like): StoredRow -> bool {
    (r: StoredRow) => r.importId == importId && (|columns| == 0 || SearchChain(r, columns, text, like))
  }

  /** `search_csv_rows(db, import_id, query_text, columns, page, page_size)`. */
  function SearchCsvRows(db: Db, importId: int, text: string, columns: Option<seq<string>>, page: int, pageSize: int, like: Like, decode: Decoder): Result<RowsPage, QueryError> {
    if importId !in db.imports then Failure(ImportNotFound(importId))
    else
      var cols := SearchColumns(columns, db.imports[importId]);
      var matching := Filter(db.rows, SearchMatcher(importId, cols, text, like));
      Success(RowsPage(NormalizeAll(PageOf(OrderByRowIndex(matching), page, pageSize), decode), |matching|))
  }

  /**
   * A search fails exactly for an unknown import; otherwise it returns the
   * normalised page window of the import's rows in which some search column
   * matches (every row when there is no column to search), with the count of
   * all such rows.
   */
  lemma {:induction false} SearchCsvRowsSpec(db: Db, importId: int, text: string, columns: Option<seq<string>>, page: int, pageSize: int, like: Like, decode: Decoder)
    ensures var result := SearchCsvRows(db, importId, text, columns, page, pageSize, like, decode);
      && (result.Failure? <==> importId !in db.imports)
      && (result.Failure? ==> result.error == ImportNotFound(importId))
      && (result.Success? ==>
        var cols := SearchColumns(columns, db.imports[importId]);
        var matching := Filter(db.rows, SearchMatcher(importId, cols, text, like));
        && (forall r :: r in matching <==> r in db.rows && r.importId == importId && MatchesSearch(r, cols, text, like))
        && result.value.totalCount == |matching|
        && (pageSize >= 0 ==> |result.value.rows| <= pageSize)
        && result.value.rows == NormalizeAll(PageOf(OrderByRowIndex(matching), page, pageSize), decode))
  {
    if importId in db.imports {
      var cols := SearchColumns(columns, db.imports[importId]);
      forall r ensures SearchChain(r, cols, text, like) <==> exists i :: 0 <= i < |cols| && CellLike(r, cols[i], text, like) {
        SearchChainIsDisjunction(r, cols, text, like);
      }
    }
  }

  /** With no column list, or an empty one, the search looks in every header of the import. */
  lemma {:induction false} SearchDefaultsToHeaders(columns: Option<seq<string>>, headers: seq<string>)
    ensures columns.None? ==> SearchColumns(columns, headers) == headers
    ensures columns == Some([]) ==> SearchColumns(columns, headers) == headers
    ensures columns.Some? && columns.value != [] ==> SearchColumns(columns, headers) == columns.value
  {
  }
}

=== FILE: csv_script.dfy ===
/**
 * The standalone reference CSV script (scripts/csv_processor.py): the sorted
 * union of headers, the widened rows, and the nested header dictionary with
 * its node paths and leaf values.
 */
module CsvScript {
  import opened Strings
  import opened Sequences
  import opened Sorting
  import opened HeaderTrie
  import CsvProcessor

  // ---------------------------------------------------------------------------
  // combine_csv_files
  // ---------------------------------------------------------------------------

  /** Python's `<=` on strings as a function value. */
  function StrOrder(): (string, string) -> bool {
    (a, b) => StrLe(a, b)
  }

  /** Python's string order is a total preorder, so it can drive a sort. */
  lemma {:induction false} StrOrderIsTotalPreorder()
    ensures TotalPreorder(StrOrder())
  {
    var le := StrOrder();
    forall a, b ensures le(a, b) || le(b, a) {
      StrLeTotal(a, b);
    }
    forall a, b, c | le(a, b) && le(b, c) ensures le(a, c) {
      StrLeTransitive(a, b, c);
    }
  }

  /** `sorted(all_headers)`: the distinct headers of all files in ascending order. */
  function SortedHeaders(files: seq<CsvProcessor.ParsedCsv>): seq<string> {
    StrOrderIsTotalPreorder();
    SortBy(AddUnseen([], CsvProcessor.AllHeaders(files)), StrOrder())
  }

  /**
   * The script's header list holds each header of each file exactly once,
   * in strictly ascending order.
   */
  lemma {:induction false} SortedHeadersSpec(files: seq<CsvProcessor.ParsedCsv>)
    ensures var hs := SortedHeaders(files);
      && NoDup(hs)
      && (forall h :: h in hs <==> exists f :: 0 <= f < |files| && h in files[f].headers)
      && forall i, j :: 0 <= i < j < |hs| ==> StrLe(hs[i], hs[j]) && hs[i] != hs[j]
  {
    StrOrderIsTotalPreorder();
    var all := CsvProcessor.AllHeaders(files);
    var distinct := AddUnseen([], all);
    var hs := SortedHeaders(files);
    NoDupPermutation(distinct, hs);
    forall h ensures h in hs <==> h in all {
      assert h in hs <==> h in multiset(hs);
      assert h in distinct <==> h in multiset(distinct);
      if h in all {
        var k :| 0 <= k < |all| && all[k] == h;
      }
    }
    forall i, j | 0 <= i < j < |hs| ensures StrLe(hs[i], hs[j]) {
      assert StrOrder()(hs[i], hs[j]);
    }
  }

  /** `combine_csv_files` of the script: the sorted headers and the rows widened to them. */
  function ScriptCombine(files: seq<CsvProcessor.ParsedCsv>): (seq<string>, seq<CsvProcessor.CsvRow>) {
    var headers := SortedHeaders(files);
    (headers, CsvProcessor.AllRows(files, headers))
  }

  /**
   * The script's rows: one per input row in file-then-row order, each keyed
   * by exactly the combined headers with "" for a missing cell.
   */
  lemma {:induction false} ScriptCombineRows(files: seq<CsvProcessor.ParsedCsv>, f: nat, k: nat)
    requires f < |files| && k < |files[f].rows|
    ensures var (headers, rows) := ScriptCombine(files);
      var idx := CsvProcessor.RowCount(files[..f]) + k;
      && |rows| == CsvProcessor.RowCount(files)
      && idx < |rows|
      && rows[idx].data.Keys == (set h | h in headers)
      && forall h :: h in rows[idx].data ==>
        rows[idx].data[h] == (if h in files[f].rows[k] then files[f].rows[k][h] else "")
  {
    CsvProcessor.AllRowsOrder(files, SortedHeaders(files), f, k);
  }

  // ---------------------------------------------------------------------------
  // csv_to_hierarchical: the nested header dictionary and build_hierarchy
  // ---------------------------------------------------------------------------

  /**
   * Every header leaves a chain of nested keys in the header dictionary: each
   * segment is a key below the segments before it.
   */
  lemma {:induction false} HeaderChainPresent(headers: seq<string>, j: nat, i: nat)
    requires j < |headers|
    requires i < |CsvProcessor.ParseHeaderHierarchy(headers[j])|
    ensures var partss := CsvProcessor.HeaderParts(headers);
      var parts := partss[j];
      parts[i] in ChildNames(partss, parts[..i])
  {
    var partss := CsvProcessor.HeaderParts(headers);
    var parts := partss[j];
    var child := parts[..i] + [parts[i]];
    assert IsHeaderPrefix(partss, child) by {
      assert parts[..i + 1] == child;
      assert Extends(partss[j], child);
    }
    ChildNamesMember(partss, parts[..i], parts[i]);
  }

  /**
   * A leaf's value: absent when no non-empty value was collected, the value
   * itself when all collected values are equal, and otherwise the distinct
   * values, whose joined order the source leaves unspecified.
   */
  datatype LeafValue = Absent | Single(value: string) | Several(values: set<string>)

  /** A node of the script's tree. */
  datatype ScriptNode = ScriptNode(name: string, path: string, value: LeafValue, children: seq<ScriptNode>)

  /**
   * The values collected for a leaf called `name`: row by row, the non-empty
   * cells of every header equal to `name` or ending in `_name`.
   */
  function CollectValues(rows: seq<map<string, string>>, headers: seq<string>, name: string): seq<string> {
    if |rows| == 0 then []
    else CollectValues(rows[..|rows| - 1], headers, name) + CollectRow(rows[|rows| - 1], headers, name)
  }

  function CollectRow(row: map<string, string>, headers: seq<string>, name: string): seq<string> {
    if |headers| == 0 then []
    else
      var h := headers[|headers| - 1];
      var v := if h in row then row[h] else "";
      CollectRow(row, headers[..|headers| - 1], name)
        + (if (EndsWith(h, "_" + name) || h == name) && v != "" then [v] else [])
  }

  /** What the script stores for a collected value list. */
  function LeafOf(values: seq<string>): LeafValue {
    if |values| == 0 then Absent
    else if |set v | v in values| > 1 then Several(set v | v in values)
    else Single(values[0])
  }

  /**
   * A leaf value is absent exactly when nothing was collected, is the one
   * value when all collected values agree, and is the set of distinct values
   * otherwise.
   */
  lemma {:induction false} LeafOfSpec(values: seq<string>)
    ensures LeafOf(values) == Absent <==> values == []
    ensures (|values| > 0 && forall i :: 0 <= i < |values| ==> values[i] == values[0]) ==>
      LeafOf(values) == Single(values[0])
    ensures LeafOf(values).Single? ==> forall i :: 0 <= i < |values| ==> values[i] == LeafOf(values).value
    ensures LeafOf(values).Several? ==>
      |LeafOf(values).values| >= 2 && forall v :: v in LeafOf(values).values <==> v in values
  {
    if |values| > 0 {
      var distinct := set v | v in values;
      assert values[0] in distinct;
      if forall i :: 0 <= i < |values| ==> values[i] == values[0] {
        assert distinct == {values[0]};
      }
      forall i | 0 <= i < |values| && values[i] != values[0] ensures |distinct| >= 2 {
        var rest := distinct - {values[0]};
        assert values[i] in rest;
        assert distinct == rest + {values[0]};
      }
    }
  }

  /** The path of a node for `prefix`: the segments joined by slashes. */
  function ScriptPath(prefix: Segments): string
    requires |prefix| >= 1
  {
    Join(prefix, '/')
  }

  /**
   * The path as the script computes it: the name at the top level, else the
   * parent's path, a slash and the name, except that an empty parent path is
   * mistaken for the top level.
   */
  function ScriptPathAsWritten(prefix: Segments): string
    requires |prefix| >= 1
  {
    var last := prefix[|prefix| - 1];
    if |prefix| == 1 then last
    else
      var parentPath := ScriptPathAsWritten(prefix[..|prefix| - 1]);
      if parentPath != "" then parentPath + "/" + last else last
  }

  /** The script's path and the corrected one agree unless the first segment is empty. */
  lemma {:induction false} ScriptPathAgrees(prefix: Segments)
    requires |prefix| >= 1 && prefix[0] != ""
    ensures ScriptPathAsWritten(prefix) == ScriptPath(prefix)
  {
    if |prefix| > 1 {
      var init := prefix[..|prefix| - 1];
      ScriptPathAgrees(init);
      assert prefix == init + [prefix[|prefix| - 1]];
      JoinSnoc(init, prefix[|prefix| - 1], '/');
      CsvProcessor.JoinStartsWithFirst(init, '/');
    }
  }

  /** Below the top level, a node's path is its parent's path, a slash and its name. */
  lemma {:induction false} ScriptChildPath(prefix: Segments, x: string)
    requires |prefix| >= 1
    ensures ScriptPath(prefix + [x]) == ScriptPath(prefix) + "/" + x
    ensures ScriptPath([x]) == x
  {
    JoinSnoc(prefix, x, '/');
  }

  /**
   * The collision the script's path rule causes: for the headers `_x` and `x`
   * it gives the distinct nodes `""/x` and `x` the same path "x".
   */
  lemma {:induction false} ScriptPathsCollide()
    ensures CsvProcessor.ParseHeaderHierarchy("_x") == ["", "x"]
    ensures CsvProcessor.ParseHeaderHierarchy("x") == ["x"]
    ensures ScriptPathAsWritten(["", "x"]) == "x" == ScriptPathAsWritten(["x"])
    ensures ScriptPath(["", "x"]) == "/x" != ScriptPath(["x"])
  {
    SplitJoin(["", "x"], '_');
    assert Join(["", "x"], '_') == "_x";
    SplitWithoutSeparator("x", '_');
    assert ["", "x"][..1] == [""];
    assert Join(["", "x"], '/') == "/x";
  }

  /** `build_hierarchy` for the node of `prefix`. */
  function BuildScriptNode(partss: seq<Segments>, headers: seq<string>, rows: seq<map<string, string>>, prefix: Segments): ScriptNode
    requires |prefix| >= 1
    decreases MaxLen(partss) - |prefix|, 1, 0
  {
    var name := prefix[|prefix| - 1];
    var names := ChildNames(partss, prefix);
    ScriptNode(
      name,
      ScriptPath(prefix),
      if |names| > 0 then Absent else LeafOf(CollectValues(rows, headers, name)),
      BuildScriptAll(partss, headers, rows, prefix, names))
  }

  function BuildScriptAll(partss: seq<Segments>, headers: seq<string>, rows: seq<map<string, string>>, prefix: Segments, names: seq<string>): seq<ScriptNode>
    requires |names| > 0 ==> |prefix| < MaxLen(partss)
    decreases MaxLen(partss) - |prefix|, 0, |names|
  {
    if |names| == 0 then []
    else [BuildScriptNode(partss, headers, rows, prefix + [names[0]])] + BuildScriptAll(partss, headers, rows, prefix, names[1..])
  }

  /**
   * `csv_to_hierarchical(headers, rows)`: the top-level nodes, in key order.
   * Paths follow the corrected rule `ScriptPath`; they differ from the
   * script's only below an empty first segment.
   */
  function ScriptHierarchy(headers: seq<string>, rows: seq<map<string, string>>): seq<ScriptNode> {
    var partss := CsvProcessor.HeaderParts(headers);
    BuildScriptAll(partss, headers, rows, [], ChildNames(partss, []))
  }

  /** The nodes built for `names` are named after them, in order. */
  lemma {:induction false} BuildScriptAllNames(partss: seq<Segments>, headers: seq<string>, rows: seq<map<string, string>>, prefix: Segments, names: seq<string>)
    requires |names| > 0 ==> |prefix| < MaxLen(partss)
    ensures |BuildScriptAll(partss, headers, rows, prefix, names)| == |names|
    ensures forall i :: 0 <= i < |names| ==>
      BuildScriptAll(partss, headers, rows, prefix, names)[i] == BuildScriptNode(partss, headers, rows, prefix + [names[i]])
    decreases |names|
  {
    if |names| > 0 {
      var first := BuildScriptNode(partss, headers, rows, prefix + [names[0]]);
      var rest := BuildScriptAll(partss, headers, rows, prefix, names[1..]);
      BuildScriptAllNames(partss, headers, rows, prefix, names[1..]);
      assert BuildScriptAll(partss, headers, rows, prefix, names) == [first] + rest;
      forall i | 0 <= i < |names|
        ensures ([first] + rest)[i] == BuildScriptNode(partss, headers, rows, prefix + [names[i]])
      {
        if i > 0 {
          assert ([first] + rest)[i] == rest[i - 1];
          assert names[1..][i - 1] == names[i];
        }
      }
    }
  }

  /**
   * Every node of the script's tree: named by its last segment, at its path
   * (the script's own path unless the first segment is empty); its children
   * are the keys below it in first-seen order; an inner node has no value,
   * and a leaf has the value of what was collected for its name.
   */
  lemma {:induction false} ScriptNodeShape(partss: seq<Segments>, headers: seq<string>, rows: seq<map<string, string>>, prefix: Segments)
    requires |prefix| >= 1
    ensures var n := BuildScriptNode(partss, headers, rows, prefix);
      var names := ChildNames(partss, prefix);
      && n.name == prefix[|prefix| - 1]
      && n.path == ScriptPath(prefix)
      && (prefix[0] != "" ==> n.path == ScriptPathAsWritten(prefix))
      && |n.children| == |names|
      && (forall i :: 0 <= i < |names| ==>
        n.children[i].name == names[i] && n.children[i].path == n.path + "/" + names[i])
      && (|names| > 0 ==> n.value == Absent)
      && (|names| == 0 ==> n.value == LeafOf(CollectValues(rows, headers, n.name)))
  {
    var names := ChildNames(partss, prefix);
    BuildScriptAllNames(partss, headers, rows, prefix, names);
    forall i | 0 <= i < |names| ensures ScriptPath(prefix + [names[i]]) == ScriptPath(prefix) + "/" + names[i] {
      ScriptChildPath(prefix, names[i]);
    }
    if prefix[0] != "" {
      ScriptPathAgrees(prefix);
    }
  }

  /** The top level of the script's tree: one node per distinct first segment, in first-seen order, at its bare name. */
  lemma {:induction false} ScriptTopLevel(headers: seq<string>, rows: seq<map<string, string>>)
    ensures var partss := CsvProcessor.HeaderParts(headers);
      var top := ScriptHierarchy(headers, rows);
      var names := ChildNames(partss, []);
      && |top| == |names|
      && NoDup(names)
      && FirstSeenOrder(names, Seen(partss, []))
      && forall i :: 0 <= i < |top| ==> top[i].name == names[i] && top[i].path == names[i]
  {
    var partss := CsvProcessor.HeaderParts(headers);
    var names := ChildNames(partss, []);
    var top := ScriptHierarchy(headers, rows);
    assert NoDup(names) && FirstSeenOrder(names, Seen(partss, [])) by {
      ChildNamesSpec(partss, []);
    }
    BuildScriptAllNames(partss, headers, rows, [], names);
    forall i | 0 <= i < |top| ensures top[i].name == names[i] && top[i].path == names[i] {
      var key := [] + [names[i]];
      assert key == [names[i]];
      assert top[i] == BuildScriptNode(partss, headers, rows, key);
      assert ScriptPath(key) == names[i];
    }
  }
}

=== FILE: header_trie.dfy ===
/**
 * The header hierarchy both CSV processors build: every header is split on
 * `_` into segments, and the segment lists form a trie in which a prefix's
 * children are the distinct next segments, in the order headers first
 * introduce them. `ChildNames` is the declarative description;
 * `BuildChildLists` is the loop the processors run, and the two agree.
 */
module HeaderTrie {
  import opened Sequences

  /** A header split into its segments. */
  type Segments = seq<string>

  /** `parts` starts with `prefix`. */
  predicate Extends(parts: Segments, prefix: Segments) {
    |prefix| <= |parts| && parts[..|prefix|] == prefix
  }

  /** Some header starts with `prefix`: the prefix names a node of the trie. */
  predicate IsHeaderPrefix(partss: seq<Segments>, prefix: Segments) {
    exists j | 0 <= j < |partss| :: Extends(partss[j], prefix)
  }

  /** The length of the longest segment list. */
  function MaxLen(partss: seq<Segments>): (r: nat)
    ensures forall j :: 0 <= j < |partss| ==> |partss[j]| <= r
  {
    if |partss| == 0 then 0
    else
      var m := MaxLen(partss[..|partss| - 1]);
      assert forall j :: 0 <= j < |partss| - 1 ==> partss[..|partss| - 1][j] == partss[j];
      if |partss[|partss| - 1]| > m then |partss[|partss| - 1]| else m
  }

  /**
   * The segment after `prefix` in each header that strictly extends it, one
   * entry per such header, in header order.
   */
  function Seen(partss: seq<Segments>, prefix: Segments): (r: seq<string>)
    ensures |r| > 0 ==> |prefix| < MaxLen(partss)
  {
    if |partss| == 0 then []
    else
      var last := partss[|partss| - 1];
      Seen(partss[..|partss| - 1], prefix)
        + (if |last| > |prefix| && last[..|prefix|] == prefix then [last[|prefix|]] else [])
  }

  /** The children of the node `prefix`: the distinct segments of `Seen`, first occurrences first. */
  function ChildNames(partss: seq<Segments>, prefix: Segments): (r: seq<string>)
    ensures |r| > 0 ==> |prefix| < MaxLen(partss)
  {
    AddUnseen([], Seen(partss, prefix))
  }

  /** Extending by one segment is extending the prefix and having that segment next. */
  lemma {:induction false} ExtendsSnoc(parts: Segments, prefix: Segments, x: string)
    ensures Extends(parts, prefix + [x]) <==>
      |parts| > |prefix| && parts[..|prefix|] == prefix && parts[|prefix|] == x
  {
    if |parts| > |prefix| {
      assert parts[..|prefix| + 1] == parts[..|prefix|] + [parts[|prefix|]];
      if Extends(parts, prefix + [x]) {
        assert parts[..|prefix|] == (prefix + [x])[..|prefix|];
      }
    }
  }

  /** A segment is seen after `prefix` exactly when `prefix + [x]` names a node. */
  lemma {:induction false} SeenMembers(partss: seq<Segments>, prefix: Segments, x: string)
    ensures x in Seen(partss, prefix) <==> IsHeaderPrefix(partss, prefix + [x])
  {
    if |partss| > 0 {
      var init := partss[..|partss| - 1];
      var last := partss[|partss| - 1];
      SeenMembers(init, prefix, x);
      ExtendsSnoc(last, prefix, x);
      if IsHeaderPrefix(partss, prefix + [x]) {
        var j :| 0 <= j < |partss| && Extends(partss[j], prefix + [x]);
        if j < |init| {
          assert init[j] == partss[j];
        }
      }
      if IsHeaderPrefix(init, prefix + [x]) {
        var j :| 0 <= j < |init| && Extends(init[j], prefix + [x]);
        assert partss[j] == init[j];
      }
    }
  }

  /**
   * The children of a node are duplicate-free, are exactly the segments that
   * extend it to another node, and come in the order headers first name them.
   */
  lemma {:induction false} ChildNamesSpec(partss: seq<Segments>, prefix: Segments)
    ensures NoDup(ChildNames(partss, prefix))
    ensures forall x :: x in ChildNames(partss, prefix) <==> IsHeaderPrefix(partss, prefix + [x])
    ensures FirstSeenOrder(ChildNames(partss, prefix), Seen(partss, prefix))
  {
    var names := ChildNames(partss, prefix);
    var seen := Seen(partss, prefix);
    forall x ensures x in names <==> IsHeaderPrefix(partss, prefix + [x]) {
      ChildNamesMember(partss, prefix, x);
    }
    AddUnseenFirstSeenOrder([], seen);
    assert names[0..] == names;
  }

  /** A name is a child of `prefix` exactly when some header extends `prefix` by it. */
  lemma {:induction false} ChildNamesMember(partss: seq<Segments>, prefix: Segments, x: string)
    ensures x in ChildNames(partss, prefix) <==> IsHeaderPrefix(partss, prefix + [x])
  {
    var seen := Seen(partss, prefix);
    SeenMembers(partss, prefix, x);
    if x in seen {
      var k :| 0 <= k < |seen| && seen[k] == x;
    }
  }

  /** Adding one more header adds its next segment to the prefix's children unless already there. */
  lemma {:induction false} ChildNamesSnoc(partss: seq<Segments>, parts: Segments, prefix: Segments)
    ensures ChildNames(partss + [parts], prefix) ==
      if |parts| > |prefix| && parts[..|prefix|] == prefix
      then AddName(ChildNames(partss, prefix), parts[|prefix|])
      else ChildNames(partss, prefix)
  {
    assert (partss + [parts])[..|partss|] == partss;
    var seen := Seen(partss, prefix);
    if |parts| > |prefix| && parts[..|prefix|] == prefix {
      assert (seen + [parts[|prefix|]])[..|seen|] == seen;
    } else {
      assert seen + [] == seen;
    }
  }

  /** Appends `x` to `names` unless it is already there. */
  function AddName(names: seq<string>, x: string): (r: seq<string>)
    ensures x in r
    ensures NoDup(names) ==> NoDup(r)
    ensures forall y :: y in r <==> y in names || y == x
  {
    if x in names then names else names + [x]
  }

  // ---------------------------------------------------------------------------
  // The loop the processors run
  // ---------------------------------------------------------------------------

  /** The child list recorded for `prefix`, empty when nothing is recorded. */
  function Kids(m: map<Segments, seq<string>>, prefix: Segments): seq<string> {
    if prefix in m then m[prefix] else []
  }

  /**
   * The construction loop: for each header and each `i` from 1 to its
   * length, attach segment `i` to the node of the first `i - 1` segments
   * unless it is already one of that node's children.
   */
  method BuildChildLists(partss: seq<Segments>) returns (m: map<Segments, seq<string>>)
    ensures forall prefix :: Kids(m, prefix) == ChildNames(partss, prefix)
  {
    m := map[];
    var h := 0;
    while h < |partss|
      invariant 0 <= h <= |partss|
      invariant forall prefix :: Kids(m, prefix) == ChildNames(partss[..h], prefix)
    {
      m := AttachHeader(m, partss[..h], partss[h]);
      assert partss[..h + 1] == partss[..h] + [partss[h]];
      h := h + 1;
    }
    assert partss[..h] == partss;
  }

  /** The inner loop: attaches the segments of one more header to the child lists built so far. */
  method AttachHeader(m0: map<Segments, seq<string>>, done: seq<Segments>, parts: Segments)
    returns (m: map<Segments, seq<string>>)
    requires forall prefix :: Kids(m0, prefix) == ChildNames(done, prefix)
    ensures forall prefix :: Kids(m, prefix) == ChildNames(done + [parts], prefix)
  {
    m := m0;
    var i := 1;
    while i <= |parts|
      invariant 1 <= i <= |parts| + 1
      invariant forall prefix :: Kids(m, prefix) == Attached(done, parts, i - 1, prefix)
    {
      var parent := parts[..i - 1];
      AttachStep(m, done, parts, i);
      m := m[parent := AddName(Kids(m, parent), parts[i - 1])];
      i := i + 1;
    }
    forall prefix ensures Kids(m, prefix) == ChildNames(done + [parts], prefix) {
      ChildNamesSnoc(done, parts, prefix);
    }
  }

  /** Attaching segment `i` of `parts` below its parent advances the inner loop by one segment. */
  lemma {:induction false} AttachStep(m: map<Segments, seq<string>>, done: seq<Segments>, parts: Segments, i: nat)
    requires 1 <= i <= |parts|
    requires forall prefix :: Kids(m, prefix) == Attached(done, parts, i - 1, prefix)
    ensures var parent := parts[..i - 1];
      var m' := m[parent := AddName(Kids(m, parent), parts[i - 1])];
      forall prefix :: Kids(m', prefix) == Attached(done, parts, i, prefix)
  {
    var parent := parts[..i - 1];
    var m' := m[parent := AddName(Kids(m, parent), parts[i - 1])];
    forall prefix ensures Kids(m', prefix) == Attached(done, parts, i, prefix) {
      if prefix == parent {
        assert Kids(m, parent) == ChildNames(done, parent);
      } else {
        assert Kids(m', prefix) == Kids(m, prefix);
      }
    }
  }

  /** The child list of `prefix` once the first `count` segments of `parts` are attached. */
  function Attached(done: seq<Segments>, parts: Segments, count: nat, prefix: Segments): seq<string> {
    if |prefix| < count && |prefix| < |parts| && parts[..|prefix|] == prefix
    then AddName(ChildNames(done, prefix), parts[|prefix|])
    else ChildNames(done, prefix)
  }

  // ---------------------------------------------------------------------------
  // The nodes of the trie in pre-order
  // ---------------------------------------------------------------------------

  /** The prefixes of the trie below and including `prefix`, in pre-order. */
  function Keys(partss: seq<Segments>, prefix: Segments): seq<Segments>
    decreases MaxLen(partss) - |prefix|, 1, 0
  {
    [prefix] + KeysOf(partss, prefix, ChildNames(partss, prefix))
  }

  /** The pre-order prefixes of the subtrees of `prefix` named by `names`. */
  function KeysOf(partss: seq<Segments>, prefix: Segments, names: seq<string>): seq<Segments>
    requires |names| > 0 ==> |prefix| < MaxLen(partss)
    decreases MaxLen(partss) - |prefix|, 0, |names|
  {
    if |names| == 0 then [] else Keys(partss, prefix + [names[0]]) + KeysOf(partss, prefix, names[1..])
  }

  /** Every prefix listed below `prefix` extends it and names a node. */
  lemma {:induction false} KeysSound(partss: seq<Segments>, prefix: Segments)
    requires IsHeaderPrefix(partss, prefix)
    ensures forall q :: q in Keys(partss, prefix) ==> Extends(q, prefix) && IsHeaderPrefix(partss, q)
    decreases MaxLen(partss) - |prefix|, 1, 0
  {
    var names := ChildNames(partss, prefix);
    ChildNamesSpec(partss, prefix);
    KeysOfSound(partss, prefix, names);
  }

  lemma {:induction false} KeysOfSound(partss: seq<Segments>, prefix: Segments, names: seq<string>)
    requires forall k :: 0 <= k < |names| ==> IsHeaderPrefix(partss, prefix + [names[k]])
    requires |names| > 0 ==> |prefix| < MaxLen(partss)
    ensures forall q :: q in KeysOf(partss, prefix, names) ==>
      |q| > |prefix| && Extends(q, prefix) && IsHeaderPrefix(partss, q)
    decreases MaxLen(partss) - |prefix|, 0, |names|
  {
    if |names| > 0 {
      var child := prefix + [names[0]];
      KeysSound(partss, child);
      KeysOfSound(partss, prefix, names[1..]);
      forall q | q in Keys(partss, child) ensures Extends(q, prefix) {
        assert q[..|prefix|] == q[..|child|][..|prefix|];
      }
    }
  }

  /** Every node extending `prefix` appears in the listing of `prefix`. */
  lemma {:induction false} KeysComplete(partss: seq<Segments>, prefix: Segments, q: Segments)
    requires Extends(q, prefix) && IsHeaderPrefix(partss, q)
    ensures q in Keys(partss, prefix)
    decreases |q| - |prefix|
  {
    if |q| > |prefix| {
      var x := q[|prefix|];
      var child := prefix + [x];
      assert Extends(q, child) by {
        assert q[..|child|] == q[..|prefix|] + [x];
      }
      assert IsHeaderPrefix(partss, child) by {
        var j :| 0 <= j < |partss| && Extends(partss[j], q);
        assert partss[j][..|child|] == q[..|child|];
      }
      ChildNamesSpec(partss, prefix);
      KeysComplete(partss, child, q);
      KeysOfContains(partss, prefix, ChildNames(partss, prefix), x, q);
    } else {
      assert q == q[..|prefix|];
    }
  }

  lemma {:induction false} KeysOfContains(partss: seq<Segments>, prefix: Segments, names: seq<string>, x: string, q: Segments)
    requires |names| > 0 ==> |prefix| < MaxLen(partss)
    requires x in names && q in Keys(partss, prefix + [x])
    ensures q in KeysOf(partss, prefix, names)
    decreases |names|
  {
    if names[0] != x {
      KeysOfContains(partss, prefix, names[1..], x, q);
    }
  }

  /** Each node occurs exactly once in the pre-order listing. */
  lemma {:induction false} KeysNoDup(partss: seq<Segments>, prefix: Segments)
    requires IsHeaderPrefix(partss, prefix)
    ensures NoDup(Keys(partss, prefix))
    decreases MaxLen(partss) - |prefix|, 1, 0
  {
    var names := ChildNames(partss, prefix);
    ChildNamesSpec(partss, prefix);
    KeysOfNoDup(partss, prefix, names);
    KeysOfSound(partss, prefix, names);
    var rest := KeysOf(partss, prefix, names);
    forall j | 0 <= j < |rest| ensures prefix != rest[j] {
      assert rest[j] in rest;
    }
    NoDupConcat([prefix], rest);
  }

  lemma {:induction false} KeysOfNoDup(partss: seq<Segments>, prefix: Segments, names: seq<string>)
    requires NoDup(names)
    requires forall k :: 0 <= k < |names| ==> IsHeaderPrefix(partss, prefix + [names[k]])
    requires |names| > 0 ==> |prefix| < MaxLen(partss)
    ensures NoDup(KeysOf(partss, prefix, names))
    decreases MaxLen(partss) - |prefix|, 0, |names|
  {
    if |names| > 0 {
      var child := prefix + [names[0]];
      var a := Keys(partss, child);
      var b := KeysOf(partss, prefix, names[1..]);
      KeysNoDup(partss, child);
      KeysOfNoDup(partss, prefix, names[1..]);
      KeysSound(partss, child);
      KeysOfSegments(partss, prefix, names[1..]);
      forall i, j | 0 <= i < |a| && 0 <= j < |b| ensures a[i] != b[j] {
        assert a[i] in a && b[j] in b;
        assert a[i][|prefix|] == names[0] by {
          assert a[i][..|child|] == child;
        }
        assert b[j][|prefix|] in names[1..];
      }
      NoDupConcat(a, b);
    }
  }

  /** Below `prefix`, the listing of the subtrees `names` uses only those next segments. */
  lemma {:induction false} KeysOfSegments(partss: seq<Segments>, prefix: Segments, names: seq<string>)
    requires forall k :: 0 <= k < |names| ==> IsHeaderPrefix(partss, prefix + [names[k]])
    requires |names| > 0 ==> |prefix| < MaxLen(partss)
    ensures forall q :: q in KeysOf(partss, prefix, names) ==> |q| > |prefix| && q[|prefix|] in names
    decreases |names|
  {
    if |names| > 0 {
      var child := prefix + [names[0]];
      var a := Keys(partss, child);
      var b := KeysOf(partss, prefix, names[1..]);
      KeysSound(partss, child);
      KeysOfSegments(partss, prefix, names[1..]);
      assert KeysOf(partss, prefix, names) == a + b;
      forall q | q in a + b ensures |q| > |prefix| && q[|prefix|] in names {
        if q in a {
          assert q[..|child|] == child;
          assert q[|prefix|] == q[..|child|][|prefix|];
        } else {
          assert q[|prefix|] in names[1..];
        }
      }
    }
  }

  /**
   * The trie below the root lists every non-empty header prefix exactly once:
   * one node per distinct prefix.
   */
  lemma {:induction false} NodesAreDistinctPrefixes(partss: seq<Segments>)
    ensures NoDup(KeysOf(partss, [], ChildNames(partss, [])))
    ensures forall q :: q in KeysOf(partss, [], ChildNames(partss, [])) <==> |q| > 0 && IsHeaderPrefix(partss, q)
  {
    var names := ChildNames(partss, []);
    ChildNamesSpec(partss, []);
    forall k | 0 <= k < |names| ensures IsHeaderPrefix(partss, [] + [names[k]]) {
      assert names[k] in names;
    }
    KeysOfNoDup(partss, [], names);
    KeysOfSound(partss, [], names);
    forall q | |q| > 0 && IsHeaderPrefix(partss, q) ensures q in KeysOf(partss, [], names) {
      TopLevelComplete(partss, q);
    }
  }

  /** Every non-empty header prefix is listed below the root. */
  lemma {:induction false} TopLevelComplete(partss: seq<Segments>, q: Segments)
    requires |q| > 0 && IsHeaderPrefix(partss, q)
    ensures q in KeysOf(partss, [], ChildNames(partss, []))
  {
    var names := ChildNames(partss, []);
    var child := [q[0]];
    assert IsHeaderPrefix(partss, child) by {
      var j :| 0 <= j < |partss| && Extends(partss[j], q);
      assert partss[j][..1] == q[..1];
    }
    assert Extends(q, child) by {
      assert q[..1] == child;
    }
    ChildNamesSpec(partss, []);
    assert [] + [q[0]] == child;
    assert q[0] in names;
    KeysComplete(partss, child, q);
    KeysOfContains(partss, [], names, q[0], q);
  }
}

=== FILE: sequences.dfy ===
/** Facts about sequences used by several processors: duplicate-freedom and order-preserving deduplication. */
module Sequences {

  /** No element occurs twice. */
  predicate NoDup<T(==)>(s: seq<T>) {
    forall i, j :: 0 <= i < j < |s| ==> s[i] != s[j]
  }

  /** A duplicate-free sequence holds each value at most once. */
  lemma {:induction false} NoDupCountsAtMostOne<T>(s: seq<T>, x: T)
    requires NoDup(s)
    ensures multiset(s)[x] <= 1
  {
    if |s| > 0 {
      var init := s[..|s| - 1];
      assert s == init + [s[|s| - 1]];
      assert NoDup(init);
      NoDupCountsAtMostOne(init, x);
      if x == s[|s| - 1] {
        assert x !in init by {
          forall k | 0 <= k < |init| ensures init[k] != x {
            assert init[k] == s[k];
          }
        }
      }
    }
  }

  /** Two equal elements at distinct positions put that value twice in the multiset. */
  lemma {:induction false} RepeatCountsTwice<T>(s: seq<T>, i: int, j: int)
    requires 0 <= i < j < |s| && s[i] == s[j]
    ensures multiset(s)[s[i]] >= 2
  {
    assert s == s[..i] + [s[i]] + s[i + 1..j] + [s[j]] + s[j + 1..];
  }

  /** Reordering a duplicate-free sequence keeps it duplicate-free. */
  lemma {:induction false} NoDupPermutation<T>(a: seq<T>, b: seq<T>)
    requires multiset(a) == multiset(b) && NoDup(a)
    ensures NoDup(b)
  {
    forall i, j | 0 <= i < j < |b| ensures b[i] != b[j] {
      if b[i] == b[j] {
        RepeatCountsTwice(b, i, j);
        NoDupCountsAtMostOne(a, b[i]);
      }
    }
  }

  /**
   * Appends each element of `xs`, left to right, to `acc` unless the sequence
   * built so far already holds it: the order-preserving union the source
   * writes with a list and a companion set.
   */
  function AddUnseen<T(==)>(acc: seq<T>, xs: seq<T>): (r: seq<T>)
    ensures |acc| <= |r| && r[..|acc|] == acc
    ensures forall k :: 0 <= k < |r| ==> r[k] in acc || r[k] in xs
    ensures forall k :: 0 <= k < |xs| ==> xs[k] in r
    ensures NoDup(acc) ==> NoDup(r)
    ensures forall k :: |acc| <= k < |r| ==> r[k] !in acc
  {
    if |xs| == 0 then acc
    else
      var prev := AddUnseen(acc, xs[..|xs| - 1]);
      var x := xs[|xs| - 1];
      assert xs == xs[..|xs| - 1] + [x];
      if x in prev then prev else prev + [x]
  }

  /** The position of the first occurrence of `x` in `s`. */
  function FirstIndex<T(==)>(s: seq<T>, x: T): (k: nat)
    requires x in s
    ensures k < |s| && s[k] == x && x !in s[..k]
  {
    if s[0] == x then 0 else 1 + FirstIndex(s[1..], x)
  }

  /** `a` and `b` both occur in `xs`, and `a` occurs first. */
  ghost predicate SeenBefore<T>(xs: seq<T>, a: T, b: T) {
    a in xs && b in xs && FirstIndex(xs, a) < FirstIndex(xs, b)
  }

  /** Every element of `s` occurs in `xs`, and they come in order of first occurrence there. */
  ghost predicate FirstSeenOrder<T>(s: seq<T>, xs: seq<T>) {
    forall i, j :: 0 <= i < j < |s| ==> SeenBefore(xs, s[i], s[j])
  }

  /**
   * The elements `AddUnseen` appends come in the order of their first
   * occurrence in `xs`.
   */
  lemma {:induction false} AddUnseenFirstSeenOrder<T>(acc: seq<T>, xs: seq<T>)
    ensures FirstSeenOrder(AddUnseen(acc, xs)[|acc|..], xs)
  {
    if |xs| > 0 {
      var init := xs[..|xs| - 1];
      var x := xs[|xs| - 1];
      var prev := AddUnseen(acc, init);
      var tail := prev[|acc|..];
      AddUnseenFirstSeenOrder(acc, init);
      assert xs == init + [x];
      FirstSeenOrderExtend(tail, init, x);
      if x !in prev {
        assert x !in init by {
          forall k | 0 <= k < |init| ensures init[k] != x {
            assert init[k] in prev;
          }
        }
        FirstSeenOrderAppend(tail, init, x);
        assert AddUnseen(acc, xs)[|acc|..] == tail + [x];
      }
    }
  }

  /** Order of first occurrence is kept when more elements follow. */
  lemma {:induction false} FirstSeenOrderExtend<T>(s: seq<T>, xs: seq<T>, x: T)
    requires FirstSeenOrder(s, xs)
    ensures FirstSeenOrder(s, xs + [x])
  {
    forall i, j | 0 <= i < j < |s| ensures SeenBefore(xs + [x], s[i], s[j]) {
      assert SeenBefore(xs, s[i], s[j]);
      FirstIndexPrefix(xs, [x], s[i]);
      FirstIndexPrefix(xs, [x], s[j]);
    }
  }

  /** A new element appended to both sequences comes after everything seen before. */
  lemma {:induction false} FirstSeenOrderAppend<T>(s: seq<T>, xs: seq<T>, x: T)
    requires FirstSeenOrder(s, xs) && x !in xs
    requires forall i :: 0 <= i < |s| ==> s[i] in xs
    ensures FirstSeenOrder(s + [x], xs + [x])
  {
    FirstSeenOrderExtend(s, xs, x);
    FirstIndexAppended(xs, x);
    forall i, j | 0 <= i < j < |s + [x]| ensures SeenBefore(xs + [x], (s + [x])[i], (s + [x])[j]) {
      assert (s + [x])[i] == s[i];
      FirstIndexPrefix(xs, [x], s[i]);
      if j == |s| {
        assert (s + [x])[j] == x;
      } else {
        assert (s + [x])[j] == s[j];
      }
    }
  }

  /** Looking a value up in `a + b` finds it in `a` when it is there. */
  lemma {:induction false} FirstIndexPrefix<T>(a: seq<T>, b: seq<T>, x: T)
    requires x in a
    ensures FirstIndex(a + b, x) == FirstIndex(a, x)
  {
    if a[0] != x {
      assert (a + b)[1..] == a[1..] + b;
      FirstIndexPrefix(a[1..], b, x);
    }
  }

  /** A value absent from `a` is first found at the position it is appended at. */
  lemma {:induction false} FirstIndexAppended<T>(a: seq<T>, x: T)
    requires x !in a
    ensures FirstIndex(a + [x], x) == |a|
  {
    if |a| > 0 {
      assert (a + [x])[1..] == a[1..] + [x];
      FirstIndexAppended(a[1..], x);
    }
  }

  /** The elements of `s` satisfying `p`, in their original order. */
  function Filter<T(!new)>(s: seq<T>, p: T -> bool): (r: seq<T>)
    ensures |r| <= |s|
    ensures forall x :: x in r <==> x in s && p(x)
  {
    if |s| == 0 then []
    else
      var rest := Filter(s[1..], p);
      assert s == [s[0]] + s[1..];
      if p(s[0]) then [s[0]] + rest else rest
  }

  /** Filtering distributes over concatenation. */
  lemma {:induction false} FilterConcat<T(!new)>(a: seq<T>, b: seq<T>, p: T -> bool)
    ensures Filter(a + b, p) == Filter(a, p) + Filter(b, p)
  {
    if |a| > 0 {
      assert (a + b)[1..] == a[1..] + b;
      FilterConcat(a[1..], b, p);
    } else {
      assert a + b == b;
    }
  }

  /** Two duplicate-free sequences with no common element concatenate to a duplicate-free one. */
  lemma {:induction false} NoDupConcat<T>(a: seq<T>, b: seq<T>)
    requires NoDup(a) && NoDup(b)
    requires forall i, j :: 0 <= i < |a| && 0 <= j < |b| ==> a[i] != b[j]
    ensures NoDup(a + b)
  {
    forall i, j | 0 <= i < j < |a + b| ensures (a + b)[i] != (a + b)[j] {
      if j < |a| {
        assert (a + b)[i] == a[i] && (a + b)[j] == a[j];
      } else if i < |a| {
        assert (a + b)[i] == a[i] && (a + b)[j] == b[j - |a|];
      } else {
        assert (a + b)[i] == b[i - |a|] && (a + b)[j] == b[j - |a|];
      }
    }
  }
}

=== FILE: size_limits.dfy ===
/** The upload size rule shared by the XML and CSV processors. */
module SizeLimits {
  import opened Wrappers

  /** One megabyte as the processors count it: 1024 * 1024 bytes. */
  const BytesPerMb: nat := 1024 * 1024

  /** The limit the XML upload path passes (`max_size_mb=50`). */
  const XmlMaxMb: int := 50

  /** The limit both CSV upload paths pass (`max_size_mb=100`). */
  const CsvMaxMb: int := 100

  /** The `ValueError` raised for an oversized payload, with the figures its message reports. */
  datatype SizeError = TooLarge(sizeBytes: nat, maxMb: int)

  /**
   * Accepts (returning True) when the UTF-8 size in megabytes, computed as
   * `size_bytes / (1024 * 1024)`, does not exceed `maxMb`; fails otherwise.
   * The comparison is carried out exactly on integers.
   */
  function ValidateSize(sizeBytes: nat, maxMb: int): (r: Result<bool, SizeError>)
    ensures r.Success? <==> (sizeBytes as real) / (BytesPerMb as real) <= maxMb as real
    ensures r.Success? ==> r.value
    ensures r.Failure? ==> r.error == TooLarge(sizeBytes, maxMb)
  {
    SizeInMbAtMost(sizeBytes, maxMb);
    if sizeBytes > maxMb * BytesPerMb then Failure(TooLarge(sizeBytes, maxMb)) else Success(true)
  }

  /** The real-valued megabyte comparison agrees with the integer byte comparison. */
  lemma {:induction false} SizeInMbAtMost(sizeBytes: nat, maxMb: int)
    ensures (sizeBytes as real) / (BytesPerMb as real) <= maxMb as real <==> sizeBytes <= maxMb * BytesPerMb
  {
    var b := BytesPerMb as real;
    assert (sizeBytes as real) / b * b == sizeBytes as real;
    assert (maxMb * BytesPerMb) as real == maxMb as real * b;
  }
}

=== FILE: sorting.dfy ===
/**
 * A stable insertion sort under a caller-supplied "less than or equal"
 * relation: the model of Python's `sorted(...)` and of SQL `ORDER BY` on one key.
 */
module Sorting {

  /** Any two values are comparable. */
  ghost predicate Total<T(!new)>(le: (T, T) -> bool) {
    forall a, b :: le(a, b) || le(b, a)
  }

  ghost predicate Transitive<T(!new)>(le: (T, T) -> bool) {
    forall a, b, c :: le(a, b) && le(b, c) ==> le(a, c)
  }

  /** `le` is a total preorder, the shape of relation a sort key induces. */
  ghost predicate TotalPreorder<T(!new)>(le: (T, T) -> bool) {
    Total(le) && Transitive(le)
  }

  /** Every earlier element is `le` every later one. */
  predicate SortedBy<T>(s: seq<T>, le: (T, T) -> bool) {
    forall i, j :: 0 <= i < j < |s| ==> le(s[i], s[j])
  }

  /** Puts `x` in front of the first element it is `le` to. */
  function Insert<T>(x: T, s: seq<T>, le: (T, T) -> bool): (r: seq<T>)
    ensures multiset(r) == multiset(s) + multiset{x}
    ensures |r| == |s| + 1
  {
    if |s| == 0 then [x]
    else if le(x, s[0]) then [x] + s
    else
      assert s == [s[0]] + s[1..];
      [s[0]] + Insert(x, s[1..], le)
  }

  /** Inserting into a sorted sequence keeps it sorted. */
  lemma {:induction false} InsertSorted<T(!new)>(x: T, s: seq<T>, le: (T, T) -> bool)
    requires TotalPreorder(le)
    requires SortedBy(s, le)
    ensures SortedBy(Insert(x, s, le), le)
  {
    if |s| > 0 && !le(x, s[0]) {
      var tail := Insert(x, s[1..], le);
      InsertSorted(x, s[1..], le);
      assert le(s[0], x);
      forall k | 0 <= k < |tail| ensures le(s[0], tail[k]) {
        assert tail[k] in multiset(s[1..]) + multiset{x};
        if tail[k] != x {
          assert tail[k] in s[1..];
        }
      }
    }
  }

  /** Sorts `s` by `le`, keeping equal elements in their input order. */
  function SortBy<T(!new)>(s: seq<T>, le: (T, T) -> bool): (r: seq<T>)
    requires TotalPreorder(le)
    ensures multiset(r) == multiset(s)
    ensures |r| == |s|
    ensures SortedBy(r, le)
  {
    if |s| == 0 then []
    else
      var rest := SortBy(s[1..], le);
      InsertSorted(s[0], rest, le);
      MultisetSplitFirst(s);
      Insert(s[0], rest, le)
  }

  /** `a` and `b` have the same sort key: each is `le` the other. */
  predicate SameKey<T>(a: T, b: T, le: (T, T) -> bool) {
    le(a, b) && le(b, a)
  }

  /** The elements of `s` with the same key as `a`, in their order in `s`. */
  function WithKey<T>(s: seq<T>, a: T, le: (T, T) -> bool): seq<T> {
    if |s| == 0 then [] else (if SameKey(s[0], a, le) then [s[0]] else []) + WithKey(s[1..], a, le)
  }

  /**
   * Inserting `x` leaves the order of every key class unchanged and puts `x`
   * first in its own.
   */
  lemma {:induction false} InsertStable<T(!new)>(x: T, s: seq<T>, a: T, le: (T, T) -> bool)
    requires TotalPreorder(le)
    ensures WithKey(Insert(x, s, le), a, le) == (if SameKey(x, a, le) then [x] else []) + WithKey(s, a, le)
  {
    if |s| == 0 {
      assert Insert(x, s, le) == [x];
      assert WithKey([x], a, le) == (if SameKey(x, a, le) then [x] else []) + WithKey([x][1..], a, le);
    } else if le(x, s[0]) {
      assert Insert(x, s, le) == [x] + s;
      assert ([x] + s)[1..] == s;
    } else {
      var r := Insert(x, s[1..], le);
      InsertStable(x, s[1..], a, le);
      assert Insert(x, s, le) == [s[0]] + r;
      assert ([s[0]] + r)[1..] == r;
      if SameKey(x, a, le) {
        assert !SameKey(s[0], a, le);
      }
    }
  }

  /** The sort is stable: elements with the same key keep their input order. */
  lemma {:induction false} SortByStable<T(!new)>(s: seq<T>, a: T, le: (T, T) -> bool)
    requires TotalPreorder(le)
    ensures WithKey(SortBy(s, le), a, le) == WithKey(s, a, le)
  {
    if |s| > 0 {
      SortByStable(s[1..], a, le);
      InsertStable(s[0], SortBy(s[1..], le), a, le);
    }
  }

  /** The elements of a non-empty sequence: its first element and those of its tail. */
  lemma {:induction false} MultisetSplitFirst<T>(s: seq<T>)
    requires |s| > 0
    ensures multiset(s) == multiset(s[1..]) + multiset{s[0]}
  {
    assert s == [s[0]] + s[1..];
  }
}

=== FILE: strings.dfy ===
/**
 * The handful of Python `str` operations the processors rely on, written out
 * over `seq<char>`: case folding, containment, whitespace stripping,
 * splitting and joining on one separator, suffix tests, decimal rendering of
 * a natural number and Python's code-point ordering of strings.
 */
module Strings {

  // ---------------------------------------------------------------------------
  // Case folding and containment
  // ---------------------------------------------------------------------------

  /** Lower-cases the ASCII letters A-Z; every other character is kept. */
  function LowerChar(c: char): char {
    if 'A' <= c <= 'Z' then (c as int + 32) as char else c
  }

  /** `s.lower()`, restricted to ASCII case folding. */
  function Lower(s: string): (r: string)
    ensures |r| == |s|
    ensures forall i :: 0 <= i < |s| ==> r[i] == LowerChar(s[i])
  {
    seq(|s|, i requires 0 <= i < |s| => LowerChar(s[i]))
  }

  predicate IsPrefix(p: string, s: string) {
    |p| <= |s| && s[..|p|] == p
  }

  /** `needle in hay` for two strings: `needle` occurs at some position of `hay`. */
  predicate Contains(hay: string, needle: string) {
    exists i | 0 <= i <= |hay| :: IsPrefix(needle, hay[i..])
  }

  /** The source's case-insensitive test `query.lower() in s.lower()`. */
  predicate ContainsIgnoreCase(hay: string, query: string) {
    Contains(Lower(hay), Lower(query))
  }

  /** The empty query is contained in every string. */
  lemma {:induction false} EmptyQueryMatches(hay: string)
    ensures ContainsIgnoreCase(hay, "")
  {
    assert IsPrefix(Lower(""), Lower(hay)[0..]);
  }

  /** `s.endswith(suffix)`. */
  predicate EndsWith(s: string, suffix: string) {
    |suffix| <= |s| && s[|s| - |suffix|..] == suffix
  }

  // ---------------------------------------------------------------------------
  // Whitespace and strip()
  // ---------------------------------------------------------------------------

  /** The characters for which Python's `str.isspace()` holds. */
  predicate IsSpace(c: char) {
    || c == ' '
    || '\t' <= c <= '\r'
    || '\U{1C}' <= c <= '\U{1F}'
    || c == '\U{85}'
    || c == '\U{A0}'
    || c == '\U{1680}'
    || '\U{2000}' <= c <= '\U{200A}'
    || c == '\U{2028}'
    || c == '\U{2029}'
    || c == '\U{202F}'
    || c == '\U{205F}'
    || c == '\U{3000}'
  }

  /** Every character of `s` is whitespace (the empty string included). */
  predicate IsBlank(s: string) {
    forall i :: 0 <= i < |s| ==> IsSpace(s[i])
  }

  /** The index of the first non-whitespace character at or after `i`, or `|s|`. */
  function SkipSpaces(s: string, i: nat): (j: nat)
    requires i <= |s|
    ensures i <= j <= |s|
    ensures forall k :: i <= k < j ==> IsSpace(s[k])
    ensures j == |s| || !IsSpace(s[j])
    decreases |s| - i
  {
    if i < |s| && IsSpace(s[i]) then SkipSpaces(s, i + 1) else i
  }

  /** Moves the end `j` left past trailing whitespace, never below `lo`. */
  function SkipSpacesBack(s: string, lo: nat, j: nat): (e: nat)
    requires lo <= j <= |s|
    ensures lo <= e <= j
    ensures forall k :: e <= k < j ==> IsSpace(s[k])
    ensures e == lo || !IsSpace(s[e - 1])
    decreases j
  {
    if j > lo && IsSpace(s[j - 1]) then SkipSpacesBack(s, lo, j - 1) else j
  }

  /**
   * `s.strip()`: the infix left once the leading and the trailing whitespace
   * are dropped; it neither starts nor ends with whitespace.
   */
  function Strip(s: string): (r: string)
    ensures exists i, e ::
      && 0 <= i <= e <= |s| && r == s[i..e]
      && (forall k :: 0 <= k < i ==> IsSpace(s[k]))
      && (forall k :: e <= k < |s| ==> IsSpace(s[k]))
    ensures |r| == 0 || (!IsSpace(r[0]) && !IsSpace(r[|r| - 1]))
  {
    var i := SkipSpaces(s, 0);
    var e := SkipSpacesBack(s, i, |s|);
    s[i..e]
  }

  /** `s.strip()` is empty exactly when `s` is all whitespace. */
  lemma {:induction false} StripEmptyIffBlank(s: string)
    ensures Strip(s) == "" <==> IsBlank(s)
  {
    var i := SkipSpaces(s, 0);
    var e := SkipSpacesBack(s, i, |s|);
    if IsBlank(s) {
      assert i == |s|;
    }
  }

  /** Stripping twice is stripping once. */
  lemma {:induction false} StripIdempotent(s: string)
    ensures Strip(Strip(s)) == Strip(s)
  {
    var r := Strip(s);
    if |r| > 0 {
      assert SkipSpaces(r, 0) == 0;
      assert SkipSpacesBack(r, 0, |r|) == |r|;
    }
    assert r[0..|r|] == r;
  }

  // ---------------------------------------------------------------------------
  // split() and join() on one separator character
  // ---------------------------------------------------------------------------

  /** `sep.join(parts)`. */
  function Join(parts: seq<string>, sep: char): string {
    if |parts| == 0 then ""
    else if |parts| == 1 then parts[0]
    else parts[0] + [sep] + Join(parts[1..], sep)
  }

  /**
   * `s.split(sep)`: the maximal separator-free pieces, empty ones included, so
   * that joining them back with the separator reproduces `s`.
   */
  function Split(s: string, sep: char): (parts: seq<string>)
    ensures |parts| >= 1
    ensures forall i :: 0 <= i < |parts| ==> sep !in parts[i]
    ensures Join(parts, sep) == s
  {
    if |s| == 0 then [""]
    else
      var rest := Split(s[1..], sep);
      if s[0] == sep then
        assert ([""] + rest)[1..] == rest;
        [""] + rest
      else
        var parts := [[s[0]] + rest[0]] + rest[1..];
        assert parts[1..] == rest[1..];
        assert s == [s[0]] + s[1..];
        parts
  }

  /** A string without the separator splits into itself alone. */
  lemma {:induction false} SplitWithoutSeparator(s: string, sep: char)
    requires sep !in s
    ensures Split(s, sep) == [s]
  {
    if |s| > 0 {
      SplitWithoutSeparator(s[1..], sep);
      assert s == [s[0]] + s[1..];
    }
  }

  /** Splitting `w + sep + t`, where `w` has no separator, yields `w` then the pieces of `t`. */
  lemma {:induction false} SplitAfterPiece(w: string, t: string, sep: char)
    requires sep !in w
    ensures Split(w + [sep] + t, sep) == [w] + Split(t, sep)
  {
    var s := w + [sep] + t;
    if |w| == 0 {
      assert s[1..] == t;
    } else {
      assert s[1..] == w[1..] + [sep] + t;
      SplitAfterPiece(w[1..], t, sep);
      assert w == [w[0]] + w[1..];
    }
  }

  /** Splitting the join of separator-free pieces gives the pieces back. */
  lemma {:induction false} SplitJoin(parts: seq<string>, sep: char)
    requires |parts| >= 1
    requires forall i :: 0 <= i < |parts| ==> sep !in parts[i]
    ensures Split(Join(parts, sep), sep) == parts
  {
    if |parts| == 1 {
      SplitWithoutSeparator(parts[0], sep);
    } else {
      SplitJoin(parts[1..], sep);
      SplitAfterPiece(parts[0], Join(parts[1..], sep), sep);
      assert parts == [parts[0]] + parts[1..];
    }
  }

  /** Joining one more piece appends the separator and that piece. */
  lemma {:induction false} JoinSnoc(parts: seq<string>, x: string, sep: char)
    requires |parts| >= 1
    ensures Join(parts + [x], sep) == Join(parts, sep) + [sep] + x
  {
    if |parts| == 1 {
      assert (parts + [x])[1..] == [x];
    } else {
      assert (parts + [x])[1..] == parts[1..] + [x];
      JoinSnoc(parts[1..], x, sep);
    }
  }

  // ---------------------------------------------------------------------------
  // Decimal rendering of a natural number (`str(n)`)
  // ---------------------------------------------------------------------------

  predicate IsDigit(c: char) {
    '0' <= c <= '9'
  }

  function DigitChar(d: nat): (c: char)
    requires d < 10
    ensures IsDigit(c)
  {
    ('0' as int + d) as char
  }

  /** `str(n)` for a natural number: its decimal digits, most significant first. */
  function NatToString(n: nat): (r: string)
    ensures |r| >= 1
    ensures forall i :: 0 <= i < |r| ==> IsDigit(r[i])
    ensures n > 0 ==> r[0] != '0'
  {
    if n < 10 then [DigitChar(n)] else NatToString(n / 10) + [DigitChar(n % 10)]
  }

  /** The number a string of decimal digits denotes. */
  function DigitsValue(s: string): nat
    requires forall i :: 0 <= i < |s| ==> IsDigit(s[i])
  {
    if |s| == 0 then 0
    else
      assert IsDigit(s[|s| - 1]);
      DigitsValue(s[..|s| - 1]) * 10 + (s[|s| - 1] as int - '0' as int)
  }

  /** Reading the rendered digits back gives the number. */
  lemma {:induction false} NatToStringRoundTrip(n: nat)
    ensures DigitsValue(NatToString(n)) == n
  {
    if n >= 10 {
      var r := NatToString(n);
      assert r[..|r| - 1] == NatToString(n / 10);
      NatToStringRoundTrip(n / 10);
    }
  }

  // ---------------------------------------------------------------------------
  // Python's ordering of str values
  // ---------------------------------------------------------------------------

  /** `a <= b` on Python strings: lexicographic comparison by code point. */
  predicate StrLe(a: string, b: string)
    decreases |a|
  {
    |a| == 0 || (|b| > 0 && (a[0] < b[0] || (a[0] == b[0] && StrLe(a[1..], b[1..]))))
  }

  lemma {:induction false} StrLeReflexive(a: string)
    ensures StrLe(a, a)
    decreases |a|
  {
    if |a| > 0 {
      StrLeReflexive(a[1..]);
    }
  }

  lemma {:induction false} StrLeTotal(a: string, b: string)
    ensures StrLe(a, b) || StrLe(b, a)
    decreases |a|
  {
    if |a| > 0 && |b| > 0 && a[0] == b[0] {
      StrLeTotal(a[1..], b[1..]);
    }
  }

  lemma {:induction false} StrLeAntisymmetric(a: string, b: string)
    requires StrLe(a, b) && StrLe(b, a)
    ensures a == b
    decreases |a|
  {
    if |a| > 0 {
      StrLeAntisymmetric(a[1..], b[1..]);
      assert a == [a[0]] + a[1..];
      assert b == [b[0]] + b[1..];
    }
  }

  lemma {:induction false} StrLeTransitive(a: string, b: string, c: string)
    requires StrLe(a, b) && StrLe(b, c)
    ensures StrLe(a, c)
    decreases |a|
  {
    if |a| > 0 && a[0] == b[0] && b[0] == c[0] {
      StrLeTransitive(a[1..], b[1..], c[1..]);
    }
  }
}

=== FILE: wrappers.dfy ===
/** Failure-carrying result types shared by every module of the model. */
module Wrappers {

  /** A value that may be absent: Python's `Optional[T]` / `None`. */
  datatype Option<+T> = None | Some(value: T) {
    function GetOr(default: T): T {
      if Some? then value else default
    }
  }

  /** The outcome of an operation that either returns a value or raises. */
  datatype Result<+T, +E> = Success(value: T) | Failure(error: E)
}

=== FILE: xml_processor.dfy ===
/**
 * The backend's XML utilities (backend/utils/xml_processor.py): turning a
 * parsed element tree into `XmlNode`s carrying `path` and `xpath`, flattening
 * a node tree into records in pre-order, counting nodes and depth, searching
 * nodes case-insensitively, and the upload size check.
 */
module XmlProcessor {
  import opened Wrappers
  import opened Strings
  import opened Sequences
  import SizeLimits

  // ---------------------------------------------------------------------------
  // Data model
  // ---------------------------------------------------------------------------

  /**
   * An element as the XML parser hands it over: tag, attribute map, optional
   * text, optional tail text and ordered children. Parsing itself is not part
   * of this model.
   */
  datatype Element = Element(
    tag: string,
    attrib: map<string, string>,
    text: Option<string>,
    tail: Option<string>,
    children: seq<Element>)

  /** The `XmlNode` response model. */
  datatype XmlNode = XmlNode(
    tag: string,
    attributes: map<string, string>,
    text: Option<string>,
    children: seq<XmlNode>,
    path: string,
    xpath: string)

  /** The `XmlFlattenedRecord` response model: one row per node. */
  datatype XmlRecord = XmlRecord(path: string, tag: string, attributes: map<string, string>, text: Option<string>)

  // ---------------------------------------------------------------------------
  // Element to node
  // ---------------------------------------------------------------------------

  /** A child's path: its tag under an empty parent path, else `parent/tag`. */
  function ChildPath(parent: string, tag: string): string {
    if parent == "" then tag else parent + "/" + tag
  }

  /** Element text as the processors keep it: stripped, or None when absent or blank. */
  function CleanText(t: Option<string>): (r: Option<string>)
    ensures r.None? <==> t.None? || IsBlank(t.value)
    ensures r.Some? ==> r.value == Strip(t.value) && r.value != ""
  {
    if t.None? then None
    else
      StripEmptyIffBlank(t.value);
      if t.value != "" && Strip(t.value) != "" then Some(Strip(t.value)) else None
  }

  /** How many of `es` carry `tag`. */
  function CountTag(es: seq<Element>, tag: string): nat {
    if |es| == 0 then 0
    else CountTag(es[..|es| - 1], tag) + (if es[|es| - 1].tag == tag then 1 else 0)
  }

  /** How many of `ns` carry `tag`. */
  function CountNodeTag(ns: seq<XmlNode>, tag: string): nat {
    if |ns| == 0 then 0
    else CountNodeTag(ns[..|ns| - 1], tag) + (if ns[|ns| - 1].tag == tag then 1 else 0)
  }

  /** The number of earlier siblings with the same tag as child `i`. */
  function SiblingIndex(es: seq<Element>, i: nat): nat
    requires i < |es|
  {
    CountTag(es[..i], es[i].tag)
  }

  /** The xpath of a node at `path` that follows `index` same-tag siblings. */
  function XPathFor(path: string, index: nat): string {
    if index > 0 then path + "[" + NatToString(index + 1) + "]" else path
  }

  /** `xml_element_to_node(element, path, index)`. */
  function ToNode(e: Element, path: string, index: nat): XmlNode
    decreases e
  {
    var current := ChildPath(path, e.tag);
    XmlNode(
      e.tag,
      e.attrib,
      CleanText(e.text),
      seq(|e.children|, i requires 0 <= i < |e.children| =>
        ToNode(e.children[i], current, SiblingIndex(e.children, i))),
      current,
      XPathFor(current, index))
  }

  /**
   * Each child of `n` sits at its parent's path extended by its tag, and its
   * xpath carries the 1-based suffix `[k+1]` exactly when `k > 0` earlier
   * siblings share its tag.
   */
  ghost predicate ChildrenLinked(n: XmlNode) {
    forall i :: 0 <= i < |n.children| ==>
      var c := n.children[i];
      var k := CountNodeTag(n.children[..i], c.tag);
      && c.path == ChildPath(n.path, c.tag)
      && (k == 0 ==> c.xpath == c.path)
      && (k > 0 ==> c.xpath == c.path + "[" + NatToString(k + 1) + "]")
  }

  /** Every node of the tree has linked children. */
  ghost predicate WellLinked(n: XmlNode)
    decreases n
  {
    ChildrenLinked(n) && forall i :: 0 <= i < |n.children| ==> WellLinked(n.children[i])
  }

  /**
   * A node copies an element's tag and attributes, keeps its text as
   * `CleanText` does, and has one child per element child, in order.
   */
  ghost predicate Mirrors(e: Element, n: XmlNode)
    decreases e
  {
    && n.tag == e.tag
    && n.attributes == e.attrib
    && n.text == CleanText(e.text)
    && |n.children| == |e.children|
    && forall i :: 0 <= i < |e.children| ==> Mirrors(e.children[i], n.children[i])
  }

  /** Children with equal tags have equal same-tag counts. */
  lemma {:induction false} CountTagsAgree(es: seq<Element>, ns: seq<XmlNode>, tag: string)
    requires |es| == |ns|
    requires forall i :: 0 <= i < |es| ==> es[i].tag == ns[i].tag
    ensures CountTag(es, tag) == CountNodeTag(ns, tag)
  {
    if |es| > 0 {
      CountTagsAgree(es[..|es| - 1], ns[..|ns| - 1], tag);
    }
  }

  /**
   * `xml_element_to_node` keeps the element's content and order and gives
   * every node the path and xpath its position dictates; the root's path is
   * `path/tag` (just `tag` when `path` is empty) and its xpath follows `index`.
   */
  lemma {:induction false} ToNodeSound(e: Element, path: string, index: nat)
    ensures var n := ToNode(e, path, index);
      && Mirrors(e, n)
      && WellLinked(n)
      && n.path == ChildPath(path, e.tag)
      && (index == 0 ==> n.xpath == n.path)
      && (index > 0 ==> n.xpath == n.path + "[" + NatToString(index + 1) + "]")
    decreases e
  {
    var n := ToNode(e, path, index);
    forall i | 0 <= i < |e.children|
      ensures Mirrors(e.children[i], n.children[i]) && WellLinked(n.children[i])
    {
      ToNodeSound(e.children[i], n.path, SiblingIndex(e.children, i));
    }
    forall i | 0 <= i < |n.children|
      ensures CountNodeTag(n.children[..i], n.children[i].tag) == SiblingIndex(e.children, i)
    {
      CountTagsAgree(e.children[..i], n.children[..i], n.children[i].tag);
    }
  }

  /** The root of a converted document has its bare tag as both path and xpath. */
  lemma {:induction false} RootNodePaths(e: Element)
    ensures ToNode(e, "", 0).path == e.tag
    ensures ToNode(e, "", 0).xpath == e.tag
  {
    ToNodeSound(e, "", 0);
  }

  // ---------------------------------------------------------------------------
  // Flattening, node lists and statistics
  // ---------------------------------------------------------------------------

  /** The record `flatten_xml_node` emits for one node. */
  function RecordOf(n: XmlNode): XmlRecord {
    XmlRecord(n.path, n.tag, n.attributes, n.text)
  }

  /** `flatten_xml_node`: the node's record, then each child's flattening in order. */
  function Flatten(n: XmlNode): seq<XmlRecord>
    decreases n, 1
  {
    [RecordOf(n)] + FlattenAll(n.children)
  }

  function FlattenAll(ns: seq<XmlNode>): seq<XmlRecord>
    decreases ns, 0
  {
    if |ns| == 0 then [] else Flatten(ns[0]) + FlattenAll(ns[1..])
  }

  /** The nodes of a tree in pre-order: the reference order for flattening and search. */
  function Nodes(n: XmlNode): seq<XmlNode>
    decreases n, 1
  {
    [n] + NodesAll(n.children)
  }

  function NodesAll(ns: seq<XmlNode>): seq<XmlNode>
    decreases ns, 0
  {
    if |ns| == 0 then [] else Nodes(ns[0]) + NodesAll(ns[1..])
  }

  /** `flatten_xml_node` lists exactly the records of the pre-order node list. */
  lemma {:induction false} FlattenIsPreorder(n: XmlNode)
    ensures |Flatten(n)| == |Nodes(n)|
    ensures forall i :: 0 <= i < |Nodes(n)| ==> Flatten(n)[i] == RecordOf(Nodes(n)[i])
    decreases n, 1
  {
    FlattenAllIsPreorder(n.children);
  }

  lemma {:induction false} FlattenAllIsPreorder(ns: seq<XmlNode>)
    ensures |FlattenAll(ns)| == |NodesAll(ns)|
    ensures forall i :: 0 <= i < |NodesAll(ns)| ==> FlattenAll(ns)[i] == RecordOf(NodesAll(ns)[i])
    decreases ns, 0
  {
    if |ns| > 0 {
      FlattenIsPreorder(ns[0]);
      FlattenAllIsPreorder(ns[1..]);
    }
  }

  /** The `(total_nodes, max_depth)` pair of `calculate_tree_stats`. */
  datatype TreeStats = TreeStats(totalNodes: nat, maxDepth: nat)

  function Max(a: int, b: int): int {
    if a >= b then a else b
  }

  /** `calculate_tree_stats`: starts from (1, 1) and folds in each child's statistics. */
  function Stats(n: XmlNode): TreeStats
    decreases n, 1
  {
    ChildStats(n.children, TreeStats(1, 1))
  }

  function ChildStats(ns: seq<XmlNode>, acc: TreeStats): TreeStats
    decreases ns, 0
  {
    if |ns| == 0 then acc
    else
      var s := Stats(ns[0]);
      ChildStats(ns[1..], TreeStats(acc.totalNodes + s.totalNodes, Max(acc.maxDepth, s.maxDepth + 1)))
  }

  /** The height of a tree: one for a leaf, else one more than its tallest child. */
  function Height(n: XmlNode): nat
    decreases n, 1
  {
    1 + MaxHeight(n.children)
  }

  function MaxHeight(ns: seq<XmlNode>): nat
    decreases ns, 0
  {
    if |ns| == 0 then 0 else Max(Height(ns[0]), MaxHeight(ns[1..]))
  }

  /**
   * `calculate_tree_stats` counts every node `flatten_xml_node` emits, reports
   * the tree's height as its depth, and both are at least one with the depth
   * never above the count.
   */
  lemma {:induction false} StatsSound(n: XmlNode)
    ensures Stats(n).totalNodes == |Flatten(n)|
    ensures Stats(n).maxDepth == Height(n)
    ensures 1 <= Stats(n).maxDepth <= Stats(n).totalNodes
    decreases n, 1
  {
    ChildStatsSound(n.children, TreeStats(1, 1));
  }

  lemma {:induction false} ChildStatsSound(ns: seq<XmlNode>, acc: TreeStats)
    requires 1 <= acc.maxDepth <= acc.totalNodes
    ensures ChildStats(ns, acc).totalNodes == acc.totalNodes + |FlattenAll(ns)|
    ensures ChildStats(ns, acc).maxDepth == Max(acc.maxDepth, MaxHeight(ns) + 1)
    ensures 1 <= ChildStats(ns, acc).maxDepth <= ChildStats(ns, acc).totalNodes
    decreases ns, 0
  {
    if |ns| > 0 {
      var s := Stats(ns[0]);
      StatsSound(ns[0]);
      var acc' := TreeStats(acc.totalNodes + s.totalNodes, Max(acc.maxDepth, s.maxDepth + 1));
      ChildStatsSound(ns[1..], acc');
    }
  }

  /** A leaf counts as one node of depth one. */
  lemma {:induction false} LeafStats(n: XmlNode)
    requires n.children == []
    ensures Stats(n) == TreeStats(1, 1)
  {
  }

  // ---------------------------------------------------------------------------
  // Search
  // ---------------------------------------------------------------------------

  /** The fields searched when the caller names none. */
  const AllXmlFields: seq<string> := ["tag", "attribute", "text"]

  /**
   * A node matches when a selected field contains the query case-insensitively:
   * its tag, any attribute value, or its non-empty text.
   */
  predicate NodeMatches(n: XmlNode, query: string, fields: seq<string>) {
    || ("tag" in fields && ContainsIgnoreCase(n.tag, query))
    || ("attribute" in fields && exists k | k in n.attributes :: ContainsIgnoreCase(n.attributes[k], query))
    || ("text" in fields && n.text.Some? && n.text.value != "" && ContainsIgnoreCase(n.text.value, query))
  }

  /** The recursion of `search_xml_node`: the node if it matches, then its children's matches. */
  function SearchNode(n: XmlNode, query: string, fields: seq<string>): seq<XmlNode>
    decreases n, 1
  {
    (if NodeMatches(n, query, fields) then [n] else []) + SearchAll(n.children, query, fields)
  }

  function SearchAll(ns: seq<XmlNode>, query: string, fields: seq<string>): seq<XmlNode>
    decreases ns, 0
  {
    if |ns| == 0 then [] else SearchNode(ns[0], query, fields) + SearchAll(ns[1..], query, fields)
  }

  /** `search_xml_node(node, query, search_in)`; `None` selects all three fields. */
  function Search(n: XmlNode, query: string, searchIn: Option<seq<string>>): seq<XmlNode> {
    SearchNode(n, query, searchIn.GetOr(AllXmlFields))
  }

  /**
   * The search returns exactly the matching nodes of the tree, in pre-order;
   * with no field list every field is searched.
   */
  lemma {:induction false} SearchIsFilteredPreorder(n: XmlNode, query: string, searchIn: Option<seq<string>>)
    ensures var fields := if searchIn.None? then AllXmlFields else searchIn.value;
      Search(n, query, searchIn) == Filter(Nodes(n), m => NodeMatches(m, query, fields))
    ensures var fields := if searchIn.None? then AllXmlFields else searchIn.value;
      forall m :: m in Search(n, query, searchIn) <==> m in Nodes(n) && NodeMatches(m, query, fields)
  {
    var fields := searchIn.GetOr(AllXmlFields);
    SearchNodeFilters(n, query, fields);
  }

  lemma {:induction false} SearchNodeFilters(n: XmlNode, query: string, fields: seq<string>)
    ensures SearchNode(n, query, fields) == Filter(Nodes(n), m => NodeMatches(m, query, fields))
    decreases n, 1
  {
    var p := m => NodeMatches(m, query, fields);
    SearchAllFilters(n.children, query, fields);
    FilterConcat([n], NodesAll(n.children), p);
  }

  lemma {:induction false} SearchAllFilters(ns: seq<XmlNode>, query: string, fields: seq<string>)
    ensures SearchAll(ns, query, fields) == Filter(NodesAll(ns), m => NodeMatches(m, query, fields))
    decreases ns, 0
  {
    if |ns| > 0 {
      var p := m => NodeMatches(m, query, fields);
      SearchNodeFilters(ns[0], query, fields);
      SearchAllFilters(ns[1..], query, fields);
      FilterConcat(Nodes(ns[0]), NodesAll(ns[1..]), p);
    }
  }

  // ---------------------------------------------------------------------------
  // Size check
  // ---------------------------------------------------------------------------

  /** `validate_xml_size`, given the payload's UTF-8 length in bytes. */
  function ValidateXmlSize(sizeBytes: nat, maxMb: int): (r: Result<bool, SizeLimits.SizeError>)
    ensures r.Success? <==> (sizeBytes as real) / (SizeLimits.BytesPerMb as real) <= maxMb as real
    ensures r.Success? ==> r.value
  {
    SizeLimits.ValidateSize(sizeBytes, maxMb)
  }
}

=== FILE: xml_script.dfy ===
/**
 * The standalone reference XML script (scripts/xml_processor.py): the
 * dictionary form of an element tree with its tail-text rule, its own
 * flattening, and `get_xpath`, whose sibling-index rule differs from the
 * backend's.
 */
module XmlScript {
  import opened Wrappers
  import opened Strings
  import opened XmlProcessor

  // ---------------------------------------------------------------------------
  // xml_to_dict
  // ---------------------------------------------------------------------------

  /**
   * The dictionary `xml_to_dict` builds. `tail` is `None` when the dictionary
   * has no "tail" key.
   */
  datatype DictNode = DictNode(
    tag: string,
    attributes: map<string, string>,
    text: Option<string>,
    children: seq<DictNode>,
    tail: Option<string>)

  /** `xml_to_dict(element)`. */
  function ToDict(e: Element): (d: DictNode)
    ensures d.tag == e.tag && d.attributes == e.attrib
    ensures |d.children| == |e.children|
    ensures forall i :: 0 <= i < |e.children| ==> d.children[i] == ToDict(e.children[i])
    ensures d.text.Some? <==> e.text.Some? && !IsBlank(e.text.value)
    ensures d.text.Some? ==> d.text.value == Strip(e.text.value)
    ensures d.tail.Some? <==> e.tail.Some? && !IsBlank(e.tail.value)
    ensures d.tail.Some? ==> d.tail.value == Strip(e.tail.value)
    decreases e
  {
    DictNode(
      e.tag,
      e.attrib,
      CleanText(e.text),
      seq(|e.children|, i requires 0 <= i < |e.children| => ToDict(e.children[i])),
      CleanText(e.tail))
  }

  /** A text value as `xml_to_dict` leaves it: absent, or stripped and non-empty. */
  predicate CleanValue(t: Option<string>) {
    t.None? || (t.value != "" && Strip(t.value) == t.value)
  }

  /** Every text and tail of the dictionary tree is clean. */
  ghost predicate Clean(d: DictNode)
    decreases d
  {
    CleanValue(d.text) && CleanValue(d.tail) && forall i :: 0 <= i < |d.children| ==> Clean(d.children[i])
  }

  /** The element a dictionary describes: the inverse direction of `xml_to_dict`. */
  function FromDict(d: DictNode): Element
    decreases d
  {
    Element(
      d.tag,
      d.attributes,
      d.text,
      d.tail,
      seq(|d.children|, i requires 0 <= i < |d.children| => FromDict(d.children[i])))
  }

  /** Cleaning is a no-op exactly on clean values. */
  lemma {:induction false} CleanTextFixesClean(t: Option<string>)
    ensures CleanValue(CleanText(t))
    ensures CleanText(t) == t <==> CleanValue(t)
  {
    if t.Some? {
      StripIdempotent(t.value);
      StripEmptyIffBlank(t.value);
      StripEmptyIffBlank(Strip(t.value));
    }
  }

  /** Every dictionary `xml_to_dict` produces is clean. */
  lemma {:induction false} ToDictClean(e: Element)
    ensures Clean(ToDict(e))
    decreases e
  {
    CleanTextFixesClean(e.text);
    CleanTextFixesClean(e.tail);
    forall i | 0 <= i < |e.children| ensures Clean(ToDict(e).children[i]) {
      ToDictClean(e.children[i]);
    }
  }

  /** Rebuilding the element of a dictionary and converting it back, one level deep. */
  lemma {:induction false} RebuildOneLevel(d: DictNode)
    ensures ToDict(FromDict(d)) == DictNode(
      d.tag, d.attributes, CleanText(d.text),
      seq(|d.children|, i requires 0 <= i < |d.children| => ToDict(FromDict(d.children[i]))),
      CleanText(d.tail))
  {
  }

  /** A clean dictionary survives the round trip through its element unchanged. */
  lemma {:induction false} DictRoundTrip(d: DictNode)
    requires Clean(d)
    ensures ToDict(FromDict(d)) == d
    decreases d
  {
    var kids := seq(|d.children|, i requires 0 <= i < |d.children| => ToDict(FromDict(d.children[i])));
    forall i | 0 <= i < |d.children| ensures kids[i] == d.children[i] {
      DictRoundTrip(d.children[i]);
    }
    CleanTextFixesClean(d.text);
    CleanTextFixesClean(d.tail);
    RebuildOneLevel(d);
  }

  /** Every text and tail of the element tree is already stripped and non-empty, or absent. */
  ghost predicate CleanElement(e: Element)
    decreases e
  {
    CleanValue(e.text) && CleanValue(e.tail) && forall i :: 0 <= i < |e.children| ==> CleanElement(e.children[i])
  }

  /** An element whose texts are clean is rebuilt unchanged from its dictionary. */
  lemma {:induction false} ElementRoundTrip(e: Element)
    requires CleanElement(e)
    ensures FromDict(ToDict(e)) == e
    decreases e
  {
    var d := ToDict(e);
    forall i | 0 <= i < |e.children| ensures FromDict(d.children[i]) == e.children[i] {
      ElementRoundTrip(e.children[i]);
    }
    CleanTextFixesClean(e.text);
    CleanTextFixesClean(e.tail);
  }

  /** Converting, rebuilding and converting again gives the first conversion. */
  lemma {:induction false} ToDictIdempotent(e: Element)
    ensures ToDict(FromDict(ToDict(e))) == ToDict(e)
  {
    ToDictClean(e);
    DictRoundTrip(ToDict(e));
  }

  // ---------------------------------------------------------------------------
  // flatten_xml
  // ---------------------------------------------------------------------------

  /** `flatten_xml(element, path)`: the element's record, then its children's, in pre-order. */
  function ScriptFlatten(e: Element, path: string): seq<XmlRecord>
    decreases e, 1
  {
    var current := ChildPath(path, e.tag);
    [XmlRecord(current, e.tag, e.attrib, CleanText(e.text))] + ScriptFlattenAll(e.children, current)
  }

  function ScriptFlattenAll(es: seq<Element>, path: string): seq<XmlRecord>
    decreases es, 0
  {
    if |es| == 0 then [] else ScriptFlatten(es[0], path) + ScriptFlattenAll(es[1..], path)
  }

  /**
   * The script flattens an element exactly as the backend flattens the node
   * it converts the element to, whatever sibling index that node was given.
   */
  lemma {:induction false} ScriptFlattenAgrees(e: Element, path: string, index: nat)
    ensures ScriptFlatten(e, path) == Flatten(ToNode(e, path, index))
    decreases e, 1
  {
    var n := ToNode(e, path, index);
    var ks := seq(|e.children|, i requires 0 <= i < |e.children| => SiblingIndex(e.children, i));
    ScriptFlattenAllAgrees(e.children, ks, n.children, n.path);
  }

  lemma {:induction false} ScriptFlattenAllAgrees(es: seq<Element>, ks: seq<nat>, ns: seq<XmlNode>, path: string)
    requires |es| == |ks| == |ns|
    requires forall i :: 0 <= i < |es| ==> ns[i] == ToNode(es[i], path, ks[i])
    ensures ScriptFlattenAll(es, path) == FlattenAll(ns)
    decreases es, 0
  {
    if |es| > 0 {
      ScriptFlattenAgrees(es[0], path, ks[0]);
      ScriptFlattenAllAgrees(es[1..], ks[1..], ns[1..], path);
    }
  }

  // ---------------------------------------------------------------------------
  // get_xpath
  // ---------------------------------------------------------------------------

  /**
   * Element identity: an element of the tree is named by its address, the
   * child positions leading to it from the root.
   */
  type Address = seq<nat>

  /** The element at `a` below `e`, if the address exists. */
  function Locate(e: Element, a: Address): Option<Element>
    decreases a
  {
    if |a| == 0 then Some(e)
    else if a[0] < |e.children| then Locate(e.children[a[0]], a[1..])
    else None
  }

  /**
   * The script's path step for child `i` of `cs`: `/tag`, followed by the
   * 1-based position among same-tag siblings whenever more than one sibling
   * carries that tag.
   */
  function Step(cs: seq<Element>, i: nat): string
    requires i < |cs|
  {
    var tag := cs[i].tag;
    if CountTag(cs, tag) > 1 then "/" + tag + "[" + NatToString(SiblingIndex(cs, i) + 1) + "]"
    else "/" + tag
  }

  /** The concatenated steps from `e` down to the element at address `a`. */
  function Steps(e: Element, a: Address): string
    requires Locate(e, a).Some?
    decreases a
  {
    if |a| == 0 then "" else Step(e.children, a[0]) + Steps(e.children[a[0]], a[1..])
  }

  /**
   * The inner `find_path(current, target, current_path)`. `rel` is the target's
   * address relative to `current`, or `None` when the target is not inside it.
   */
  function FindPath(e: Element, rel: Option<Address>, currentPath: string): Option<string>
    decreases e, 1, 0
  {
    if rel == Some([]) then Some(currentPath) else FindIn(e, 0, rel, currentPath)
  }

  /** The loop over `current`'s children from position `i` on, returning the first truthy result. */
  function FindIn(e: Element, i: nat, rel: Option<Address>, currentPath: string): Option<string>
    decreases e, 0, |e.children| - i
  {
    if i >= |e.children| then None
    else
      var childRel := if rel.Some? && |rel.value| > 0 && rel.value[0] == i then Some(rel.value[1..]) else None;
      var result := FindPath(e.children[i], childRel, currentPath + Step(e.children, i));
      if result.Some? && result.value != "" then result
      else FindIn(e, i + 1, rel, currentPath)
  }

  /**
   * `get_xpath(element, root)`, where `at` is where `target` sits in the tree
   * (`None` when it is not reachable from the root).
   */
  function GetXPath(root: Element, target: Element, at: Option<Address>): string
    requires at.Some? ==> Locate(root, at.value) == Some(target)
  {
    if at == Some([]) then "/" + target.tag
    else
      var result := FindPath(root, at, "/" + root.tag);
      if result.Some? && result.value != "" then result.value else "/" + target.tag
  }

  /**
   * The search below `e` finds the target exactly when its relative address
   * exists, and then reports the current path followed by the target's steps.
   */
  lemma {:induction false} FindPathSound(e: Element, rel: Option<Address>, currentPath: string)
    requires currentPath != ""
    ensures FindPath(e, rel, currentPath) ==
      if rel.Some? && Locate(e, rel.value).Some? then Some(currentPath + Steps(e, rel.value)) else None
    decreases e, 1, 0
  {
    if rel != Some([]) {
      FindInSound(e, 0, rel, currentPath);
    } else {
      assert Steps(e, []) == "";
      assert currentPath + "" == currentPath;
    }
  }

  lemma {:induction false} FindInSound(e: Element, i: nat, rel: Option<Address>, currentPath: string)
    requires currentPath != ""
    ensures FindIn(e, i, rel, currentPath) ==
      if rel.Some? && |rel.value| > 0 && rel.value[0] >= i && Locate(e, rel.value).Some?
      then Some(currentPath + Steps(e, rel.value)) else None
    decreases e, 0, |e.children| - i
  {
    if i < |e.children| {
      var childRel := if rel.Some? && |rel.value| > 0 && rel.value[0] == i then Some(rel.value[1..]) else None;
      var childPath := currentPath + Step(e.children, i);
      FindPathSound(e.children[i], childRel, childPath);
      FindInSound(e, i + 1, rel, currentPath);
      if childRel.Some? && Locate(e.children[i], childRel.value).Some? {
        assert childPath + Steps(e.children[i], childRel.value) == currentPath + Steps(e, rel.value);
      }
    }
  }

  /**
   * `get_xpath` returns `/root-tag` followed by the steps to the target when
   * the target is in the tree, and `/target-tag` when it is not.
   */
  lemma {:induction false} GetXPathSound(root: Element, target: Element, at: Option<Address>)
    requires at.Some? ==> Locate(root, at.value) == Some(target)
    ensures at.Some? ==> GetXPath(root, target, at) == "/" + root.tag + Steps(root, at.value)
    ensures at.None? ==> GetXPath(root, target, at) == "/" + target.tag
  {
    FindPathSound(root, at, "/" + root.tag);
  }

  /** The root's xpath is its tag after a slash. */
  lemma {:induction false} RootXPath(root: Element)
    ensures GetXPath(root, root, Some([])) == "/" + root.tag
  {
  }

  /**
   * The two indexing rules side by side: of two `b` children, the first one's
   * backend xpath has no suffix while the script's step for it ends in `[1]`.
   */
  lemma {:induction false} FirstSiblingRulesDiffer()
    ensures var b := Element("b", map[], None, None, []);
      var a := Element("a", map[], None, None, [b, b]);
      && ToNode(a, "", 0).children[0].xpath == "a/b"
      && Step(a.children, 0) == "/b[1]"
      && GetXPath(a, b, Some([0])) == "/a/b[1]"
  {
    var b := Element("b", map[], None, None, []);
    var a := Element("a", map[], None, None, [b, b]);
    assert CountTag(a.children, "b") == 2 by {
      assert a.children[..1] == [b];
    }
    assert a.children[..0] == [];
    GetXPathSound(a, b, Some([0]));
  }
}
